=== FILE: README.md ===
# Charity platform backend, modelled in Dafny

This project models the server side of a charity platform. Donors give to
campaigns run by associations. People in need file aid requests that
associations take on and review. Admins oversee both.

The server is a set of Express route handlers over four Mongoose collections
(campaigns, associations, donations, requests) plus the users collection. A
multer upload gate sits in front of the file routes. The model keeps the
handlers' logic and drops the plumbing:

- **The store.** The database is a `Store` of id-keyed maps, one per
  collection (`DocumentStore`). Ids are natural numbers. A created document
  gets one more than the largest id in use (`Base.FreshId`). A listing visits
  documents in id order (`Base.Values`).
- **The caller.** The authenticated caller is a `Caller` record: its id, its
  role (`user`, `association` or `admin`) and an optional association id.
  `authorize(...roles)` is role membership (`Base.Authorized`).
- **The handlers.** Each handler is a pure function. A handler that writes
  returns a `Response` (the status and the store afterwards). A handler that
  reads returns a `Reply` (the status and the value). Statuses are grouped by
  HTTP class:

  | status | HTTP |
  |---|---|
  | `Ok` | 200 or 201 |
  | `NotFound` | 404 |
  | `Forbidden` | 403 |
  | `BadRequest` | 400 |
  | `ValidationError` | 500, raised by a schema validator or a unique index |
  | `ServerError` | 500, raised by anything else the handler's `catch` absorbs |

- **The schemas.** The four schemas are datatypes with a `Valid` predicate
  for the validators the types do not already enforce (`CampaignModel`,
  `RequestModel`, `AssociationModel`, `DonationModel`). Enumerated strings
  parse into Dafny datatypes (`Enums`, `Categories`).
- **The running totals.** The handlers keep these counters with `$inc`:
  - a campaign's raised amount and donation count;
  - an association's donation total and campaign count.

  `Counters.Consistent` says each counter equals the sum or count it stands
  for. The route modules prove which handlers keep that true and which do
  not.
- **The access checks.** Each check a handler makes is one predicate in
  `Access`, stated exactly as the handler decides it. This includes the
  comparisons of two missing association ids, which come out equal.
- **Uploads and statistics.** The upload gate is pure string and sequence
  functions (`Upload`). The statistics routes are sums, counts, groupings and
  top-n selections over sequences of donations and campaigns (`Stats`,
  built on `Sorting`).

Clock readings, random transaction ids and random file-name suffixes are
parameters. The model never computes them.

## Model

| member | source | states |
|---|---|---|
| Text.Lower | backend/models/Association.js:18-23 | the `lowercase` setter maps each character to its lower-case form and keeps the length |
| Text.LowerIdempotent | backend/models/Association.js:18-23 | writing an already lower-cased email through the setter again leaves it unchanged |
| Text.ContainsIff | backend/middleware/upload.js:42-46 | the unanchored one-word patterns of the filter match exactly when some window of the string spells the word |
| Time.OrdinalIsLexicographic | backend/models/Campaign.js:88-93 | comparing two `Date` values orders them by year, then month, then day, then time of day |
| Time.Midnight | backend/routes/stats.js:122-123 | a date-only string denotes midnight UTC at the start of that day: a valid instant on the given year, month and day, at 0 ms |
| Categories.ParseIff | backend/models/Campaign.js:18-22 | the category `enum` accepts a string exactly when it is the name of one of the eight categories, and yields that category |
| Categories.ParseAll | backend/models/Association.js:40-43 | an array of categories is accepted exactly when every element names a category, and the result lists those categories in order |
| Sorting.SortDescending | backend/routes/donations.js:23-27 | `.sort('-key')` returns a permutation of its input in non-increasing key order |
| Sorting.SortedMembership | backend/routes/donations.js:23-27 | sorting neither adds nor loses a document |
| Sorting.Top | backend/routes/stats.js:168-171 | `.sort('-key').limit(n)` returns min(n, size) documents drawn from the input, largest key first |
| Sorting.TopSubMultiset | backend/routes/stats.js:168-171 | the top n never repeats a document more often than the input holds it |
| Sorting.TopKeepsAll | backend/routes/stats.js:168-171 | when at most n documents are given, all of them are returned |
| Sorting.TopOutranks | backend/routes/stats.js:168-171 | no document left out has a larger key than any document returned |
| Sorting.TopShownOrOutranked | backend/routes/stats.js:168-171 | each input document is returned, or n documents are returned and each has a key at least as large |
| Sorting.KeepNothing | backend/routes/stats.js:74-81 | a condition that no element meets selects nothing |
| Sorting.KeepMultiplicity | backend/routes/campaigns.js:28 | a query condition keeps every copy of a document it accepts and no copy of one it rejects |
| CampaignModel.ParseStatusIff | backend/models/Campaign.js:48-52 | the status `enum` accepts exactly `draft`, `active`, `completed` and `cancelled` |
| CampaignModel.New | backend/models/Campaign.js:23-68 | a new campaign is a draft in EUR with zero raised, zero donations, zero beneficiaries, no images and no updates; it is urgent only when the creator says so; non-empty strings and a goal of at least 0 make it valid |
| CampaignModel.RoundPercent | backend/models/Campaign.js:84 | `Math.round(part / whole * 100)` for a positive whole is the integer nearest to the exact percentage, halves rounded up |
| CampaignModel.RoundPercentUnique | backend/models/Campaign.js:84 | that nearest-integer property determines the rounded percentage uniquely |
| CampaignModel.ProgressPercentage | backend/models/Campaign.js:83-85 | the progress is 0 without a positive goal, otherwise the rounded percentage of the goal raised |
| CampaignModel.ProgressBounds | backend/models/Campaign.js:83-85 | a valid campaign below its goal shows 0 to 100 percent; one at or above it shows at least 100, with no upper clamp |
| CampaignModel.IsActiveIff | backend/models/Campaign.js:88-93 | a campaign is active only when its status is `active` and its date range is non-empty; then it is active exactly at the instants between start and end inclusive |
| RequestModel.ParseStatusIff | backend/models/Request.js:28-32 | the status `enum` accepts exactly the six lifecycle names |
| RequestModel.ParseUrgencyIff | backend/models/Request.js:23-27 | the urgency `enum` accepts exactly `low`, `medium`, `high` and `critical` |
| RequestModel.ParseTypeIff | backend/models/Request.js:33-37 | the request-type `enum` accepts exactly `financial`, `material`, `volunteer` and `other` |
| RequestModel.New | backend/models/Request.js:23-41 | a new request is pending, unassigned, without documents or review and completion dates, and `medium` unless an urgency is given; non-empty strings and no negative estimate make it valid |
| AssociationModel.UniqueAfterWrite | backend/models/Association.js:4-39 | writing an association that collides with no other on name, email or registration number keeps the three indexes unique |
| AssociationModel.New | backend/models/Association.js:18-63 | a new association keeps the given name, description, phone, website, registration number, categories and creation time, has its email lower-cased, is unverified and active, has zero counters and no logo, and lists its creator as its only admin user |
| DonationModel.ParseMethodIff | backend/models/Donation.js:28-32 | the payment-method `enum` accepts exactly the four method names |
| DonationModel.ParsePaymentStatusIff | backend/models/Donation.js:33-37 | the payment-status `enum` accepts exactly `pending`, `completed`, `failed` and `refunded` |
| DonationModel.UniqueAfterWrite | backend/models/Donation.js:38-42 | a donation whose transaction id no other donation carries keeps the sparse unique index intact; donations without one never collide |
| DonationModel.New | backend/models/Donation.js:19-50 | a new donation keeps the given parties, amount, status and transaction id, is in EUR, is anonymous only when asked, and is valid once the amount is at least 1 |
| DonationModel.Select | backend/routes/donations.js:23 | a `find` filter keeps exactly the donations that satisfy every condition it sets |
| DonationModel.SelectMultiplicity | backend/routes/donations.js:23 | a `find` filter keeps every copy of a donation it selects and no copy of one it rejects |
| DonationModel.TotalOfValid | backend/models/Donation.js:19-23 | since every amount is at least 1, a sum of valid donations is at least their number |
| DonationModel.SelectNarrowerCount | backend/routes/stats.js:74-92 | a filter with more conditions selects no more donations |
| DonationModel.SelectNarrowerTotal | backend/routes/stats.js:74-83 | a filter with more conditions selects no larger sum when no amount is negative |
| DocumentStore.Fetch | backend/routes/campaigns.js:49-63 | the public get-by-id routes return the stored document exactly when the id is stored, and `NotFound` otherwise |
| DocumentStore.Newest | backend/routes/campaigns.js:28-30 | a listing returns exactly the stored documents that pass the query, newest first, each once for every id it is stored under |
| DocumentStore.CountListing | backend/routes/stats.js:22-24 | counting a condition over the documents of strictly increasing stored ids gives the number of those ids whose document meets it |
| DocumentStore.CountValues | backend/routes/stats.js:22-24 | `countDocuments(filter)` over a collection's listing is the number of stored ids whose document matches |
| Access.DonationScope | backend/routes/donations.js:16-21 | a user sees exactly its own donations, an association exactly those made to it, an admin all |
| Access.AdminPassesOwnershipChecks | backend/routes/requests.js:279-284 | an admin passes every ownership check except the document upload, which only the requester passes |
| Access.UnassignedRequestVisibleToAll | backend/routes/requests.js:67-71 | a caller without an association id may view every request whose assignment is missing, because two missing ids compare equal |
| Access.UnassignedRequestStatusOpen | backend/routes/requests.js:231-236 | the same comparison lets such a caller change the status of every unassigned request |
| Access.CampaignNeedsAssociation | backend/routes/campaigns.js:151-156 | a non-admin without an association id manages no campaign |
| Access.DonationViewByRole | backend/routes/donations.js:61-66 | a user views a donation exactly when it made it; an association views every donation, other associations' included |
| Counters.LedgerAfterInsert | backend/routes/donations.js:100-119 | recording a donation adds its amount and one to every sum and count whose filter selects it, and changes no other |
| Counters.LedgerAfterAppend | backend/routes/stats.js:74-83 | a donation appended to a listing adds its amount and one to a filter's sum and count exactly when the filter selects it |
| Counters.LedgerAfterRewrite | backend/routes/donations.js:155-156 | rewriting a donation without changing its party, amount or filter membership changes no sum or count |
| Counters.OwnedCount | backend/routes/stats.js:39-43 | an association's campaign count over the listing is the number of stored campaigns it owns |
| Counters.OwnedAfterInsert | backend/routes/campaigns.js:105-120 | storing a new campaign adds one to its owner's campaign count and to no other |
| Counters.OwnedAfterRemove | backend/routes/campaigns.js:268 | removing a campaign takes one from its owner's campaign count and from no other |
| Upload.Destination | backend/middleware/upload.js:19-33 | the four known fields go to their own directories under `uploads/`; any other field goes to `uploads/` itself |
| Upload.ExtOf | backend/middleware/upload.js:36 | a file name's extension runs from its last dot, and is empty when no dot follows the first character or the name is `..` |
| Upload.ExtName | backend/middleware/upload.js:36 | `path.extname` takes that extension from the last path component; it starts with its only dot and holds no separator |
| Upload.StoredName | backend/middleware/upload.js:34-37 | the stored name starts with the field and a dash and ends with the original extension |
| Upload.AnyOccurs | backend/middleware/upload.js:42-46 | the extension test passes exactly when one of the alternatives occurs somewhere in the extension |
| Upload.Check | backend/middleware/upload.js:41-63 | a file passes exactly when it comes in the expected field, within the count, with an accepted name and type, and at most 5 MB; a type refusal means the filter refused it |
| Upload.Store | backend/middleware/upload.js:18-37 | a stored file keeps its field, name and size and is written to its field's directory under the generated name |
| Upload.Receive | backend/middleware/upload.js:59-65 | an upload stores every file exactly when all pass, each in order under its generated name; otherwise it is refused for the first file that fails |
| Upload.AllPassIff | backend/middleware/upload.js:59-65 | every file passes exactly when there are no more than allowed and each passes the field, filter and size checks |
| Upload.PdfxExtensionPasses | backend/middleware/upload.js:42-46 | a `.pdfx` file passes the extension test because the pattern is not anchored |
| Upload.DocmExtensionPasses | backend/middleware/upload.js:42-46 | a macro-enabled `.docm` file passes the extension test too |
| Upload.DotFileRefused | backend/middleware/upload.js:45-55 | a dot-file such as `.png` has no extension and is refused whatever its type |
| CampaignRoutes.List | backend/routes/campaigns.js:11-30 | the listing holds exactly the stored campaigns matching every given filter, newest first, each once for every id it is stored under |
| CampaignRoutes.UrgentFilterIsLiteral | backend/routes/campaigns.js:19 | `isUrgent=yes` lists only campaigns that are not urgent |
| CampaignRoutes.Owner | backend/routes/campaigns.js:91-96 | a new campaign goes to the admin-named association, otherwise to the caller's own, and to none when neither exists |
| CampaignRoutes.CountCampaign | backend/routes/campaigns.js:118-120 | the campaign count of the named association goes up by one; nothing else changes, and nothing at all when it is gone |
| CampaignRoutes.Create | backend/routes/campaigns.js:77-120 | a role outside association/admin is forbidden; with no association it is a bad request; an invalid body is a validation error; otherwise a valid draft campaign with the body's fields is stored under a fresh id and its association's count goes up |
| CampaignRoutes.CreateCountsOneCampaign | backend/routes/campaigns.js:105-120 | a create adds exactly one to the owner's campaign count and one to the campaigns it owns, and nothing for any other association |
| CampaignRoutes.CreatePreservesCounters | backend/routes/campaigns.js:105-120 | creating a campaign keeps every running counter equal to what it stands for, as long as no donation already refers to the new id |
| CampaignRoutes.CreateKeepsCampaignCounters | backend/routes/campaigns.js:105-115 | the new campaign starts at zero, which is what its absent donations sum to, and the other campaigns' counters are untouched |
| CampaignRoutes.CreateKeepsAssociationCounters | backend/routes/campaigns.js:117-120 | the association counters stay equal to the campaigns owned and the donations received |
| CampaignRoutes.Patched | backend/routes/campaigns.js:158-162 | an update replaces exactly the fields the body sets and keeps a valid campaign valid |
| CampaignRoutes.Update | backend/routes/campaigns.js:139-162 | a missing campaign is not found; a non-owner non-admin is forbidden; a body failing the validators is a validation error; otherwise the body is written onto the campaign and nothing else changes |
| CampaignRoutes.UpdateRewritesCountersAndOwner | backend/routes/campaigns.js:158-162 | the owner can set the raised amount to any value and hand the campaign to another association, after which it can no longer manage it |
| CampaignRoutes.AddImages | backend/routes/campaigns.js:181-196 | an empty upload is a bad request; otherwise the images' URLs are appended in upload order after the existing ones, with no ownership check, and an unknown id changes nothing |
| CampaignRoutes.AnyAssociationAddsImages | backend/routes/campaigns.js:181-196 | an association that does not own the campaign still adds images to it |
| CampaignRoutes.StoredImageUrl | backend/routes/campaigns.js:190 | the image URL names the directory the gate wrote the file to, under a name starting with `images-` |
| CampaignRoutes.AddUpdate | backend/routes/campaigns.js:216-230 | an entry with the given title and content, dated now, is appended to the log of an existing campaign; nothing else changes |
| CampaignRoutes.AnyAssociationPostsUpdates | backend/routes/campaigns.js:216-230 | any association posts updates to any campaign |
| CampaignRoutes.Delete | backend/routes/campaigns.js:249-268 | the owner or an admin removes the campaign and nothing else |
| CampaignRoutes.DeleteLeavesCampaignCount | backend/routes/campaigns.js:268 | after a delete every other counter holds, the owner's campaign count is one too high, and the campaign's donations are still stored |
| CampaignRoutes.CreatePreservesValid | backend/routes/campaigns.js:105-120 | creating a campaign keeps every schema constraint and unique index |
| CampaignRoutes.UpdateKeepsValid | backend/routes/campaigns.js:158-162 | updating with `runValidators` keeps every schema constraint |
| CampaignRoutes.AddImagesKeepsValid | backend/routes/campaigns.js:192-196 | adding images keeps every schema constraint |
| CampaignRoutes.AddUpdateKeepsValid | backend/routes/campaigns.js:229-230 | adding an update keeps every schema constraint |
| CampaignRoutes.DeleteKeepsValid | backend/routes/campaigns.js:268 | deleting a campaign keeps every schema constraint |
| RequestRoutes.List | backend/routes/requests.js:10-34 | the listing holds exactly the stored requests in the caller's role scope that match the status, category and urgency filters, newest first, each once for every id it is stored under |
| RequestRoutes.ListForAssociation | backend/routes/requests.js:19-23 | an association sees its own requests and unassigned ones still pending or under review, never another association's |
| RequestRoutes.Linked | backend/routes/requests.js:57 | the populated assignment is the assigned id exactly when that association still exists |
| RequestRoutes.Get | backend/routes/requests.js:53-80 | an unknown id is not found; a request whose requester is gone fails; otherwise the requester, the assigned association or an admin reads it and anyone else is forbidden |
| RequestRoutes.GetUnassignedWithoutAssociation | backend/routes/requests.js:67-71 | a caller without an association id reads any request whose assignment is missing or deleted |
| RequestRoutes.Create | backend/routes/requests.js:94-115 | a valid body stores a new pending, unassigned request owned by the caller with the body's fields; any invalid field refuses it and stores nothing |
| RequestRoutes.Patched | backend/routes/requests.js:160-164 | an update replaces exactly the fields the body sets, status and requester included |
| RequestRoutes.PatchedKeepsValid | backend/routes/requests.js:160-164 | the update validators keep a valid request valid |
| RequestRoutes.Update | backend/routes/requests.js:134-164 | unknown is not found; only the requester or an admin may edit; a non-admin may edit only a pending request; a body failing the validators is refused; otherwise it is written onto the request |
| RequestRoutes.UpdateLetsRequesterApprove | backend/routes/requests.js:153-164 | the requester of a pending request can approve it without a review date and hand it to another user |
| RequestRoutes.Assign | backend/routes/requests.js:183-198 | an association takes the request for itself, an admin assigns the association it names, and the status becomes `reviewing` either way |
| RequestRoutes.AssignTakesOver | backend/routes/requests.js:185-198 | an association can take over a completed request held by another association, which returns to review |
| RequestRoutes.SetStatus | backend/routes/requests.js:217-249 | an admin or the assigned association sets a known status; non-empty notes replace the old ones; approval or rejection stamps the review date and completion the completion date; nothing else changes |
| RequestRoutes.SetStatusStampsDates | backend/routes/requests.js:241-247 | after approval or rejection the review date is now, after completion the completion date is now, and any other status leaves both dates as they were |
| RequestRoutes.DocumentFor | backend/routes/requests.js:293-297 | a document record carries the original name, the URL under `/uploads/documents/` and the upload time |
| RequestRoutes.AddDocuments | backend/routes/requests.js:268-300 | only the requester attaches files; an empty upload is a bad request; otherwise one record per file is appended in order after the existing documents |
| RequestRoutes.DocumentUrlsPointAtStoredFiles | backend/routes/requests.js:295 | each recorded URL is the path the upload gate wrote that file to, under a name starting with `documents-` |
| RequestRoutes.Delete | backend/routes/requests.js:319-338 | the requester or an admin removes the request and nothing else |
| RequestRoutes.CreateKeepsValid | backend/routes/requests.js:106-115 | creating a request keeps every schema constraint |
| RequestRoutes.UpdateKeepsValid | backend/routes/requests.js:160-164 | updating a request keeps every schema constraint |
| RequestRoutes.AssignKeepsValid | backend/routes/requests.js:194-198 | assigning keeps every schema constraint |
| RequestRoutes.SetStatusKeepsValid | backend/routes/requests.js:238-249 | a status change keeps every schema constraint |
| RequestRoutes.AddDocumentsKeepsValid | backend/routes/requests.js:293-300 | attaching documents keeps every schema constraint |
| RequestRoutes.DeleteKeepsValid | backend/routes/requests.js:338 | deleting a request keeps every schema constraint |
| AssociationRoutes.List | backend/routes/associations.js:11-29 | the listing holds exactly the stored associations matching every given filter, newest first, each once for every id it is stored under |
| AssociationRoutes.VerifiedFilterIsLiteral | backend/routes/associations.js:18 | `isVerified=yes` lists only unverified associations |
| AssociationRoutes.Registered | backend/routes/associations.js:101-111 | the stored association carries the body's name, description, phone, website and registration number, the lower-cased email, the parsed categories in the body's order (none when the body has none), the request time and the caller as its only admin user, and is valid |
| AssociationRoutes.Promote | backend/routes/associations.js:114-117 | the caller's record becomes an association account linked to the new id; no other user changes |
| AssociationRoutes.Create | backend/routes/associations.js:76-117 | an email or registration number already in use is a bad request; an invalid body or a unique-index clash is a validation error; otherwise the association is stored and the caller promoted |
| AssociationRoutes.CreateDemotesAdmin | backend/routes/associations.js:114-117 | an admin who registers an association loses the admin role |
| AssociationRoutes.CreateNameClash | backend/routes/associations.js:90-101 | a name already in use passes the duplicate check and is refused only by the unique index, as an HTTP 500 rather than a bad request |
| AssociationRoutes.CreatePreservesValid | backend/routes/associations.js:101-111 | registering keeps every schema constraint and unique index |
| AssociationRoutes.CreatePreservesCounters | backend/routes/associations.js:101-111 | registering keeps every running counter equal to what it stands for, as long as no campaign or donation already refers to the new id |
| AssociationRoutes.Patched | backend/routes/associations.js:155-159 | an update replaces exactly the fields the body sets, the email through the lower-casing setter, and keeps a valid association valid |
| AssociationRoutes.Update | backend/routes/associations.js:136-159 | unknown is not found; only an admin or one of its admin users may update; a body failing the validators or clashing on a unique field is refused; otherwise it is written |
| AssociationRoutes.UpdateSelfVerifies | backend/routes/associations.js:155-159 | an association's own admin user can mark it verified through the update route |
| AssociationRoutes.UploadLogo | backend/routes/associations.js:178-193 | with no file it is a bad request; otherwise the logo URL is set on the association, an unknown id changing nothing |
| AssociationRoutes.AnyAssociationReplacesLogo | backend/routes/associations.js:178-193 | any association replaces another association's logo |
| AssociationRoutes.Verify | backend/routes/associations.js:213-226 | only an admin verifies; an unknown id is not found; otherwise only the flag changes, to verified |
| AssociationRoutes.VerifyIdempotent | backend/routes/associations.js:215-219 | verifying twice gives the same store and status as verifying once |
| AssociationRoutes.Delete | backend/routes/associations.js:245-256 | only an admin deletes; the association is removed and nothing else |
| AssociationRoutes.DeleteLeavesOrphans | backend/routes/associations.js:256 | after a delete its campaigns still name it and its members still carry its id |
| AssociationRoutes.UpdateKeepsValid | backend/routes/associations.js:155-159 | updating keeps every schema constraint and unique index |
| AssociationRoutes.UploadLogoKeepsValid | backend/routes/associations.js:189-193 | a logo upload keeps every schema constraint and unique index |
| AssociationRoutes.VerifyKeepsValid | backend/routes/associations.js:215-219 | verifying keeps every schema constraint and unique index |
| AssociationRoutes.DeleteKeepsValid | backend/routes/associations.js:256 | deleting keeps every schema constraint and unique index |
| DonationRoutes.List | backend/routes/donations.js:11-27 | the listing is a permutation of the donations in the caller's scope, newest first |
| DonationRoutes.ListScope | backend/routes/donations.js:16-21 | a user lists exactly its own stored donations, an association exactly those made to it, an admin all |
| DonationRoutes.ListWithoutAssociationIsEmpty | backend/routes/donations.js:18-19 | an association caller without an association id lists nothing |
| DonationRoutes.Get | backend/routes/donations.js:46-66 | unknown is not found; a user reads only its own donation; association and admin callers read any; a user reading a donation whose donor is gone fails |
| DonationRoutes.Credited | backend/routes/donations.js:113-115 | the campaign's raised amount grows by the amount and its donation count by one; nothing else changes |
| DonationRoutes.CreditAssociation | backend/routes/donations.js:117-119 | the association's donation total grows by the amount; nothing else changes, and nothing at all when it is gone |
| DonationRoutes.Create | backend/routes/donations.js:84-119 | a missing campaign is not found and stores nothing; an amount below 1, an unknown method or a used transaction id is refused before any counter moves; otherwise a completed donation by the caller to the campaign's association is stored and both counters are credited |
| DonationRoutes.CreatePreservesValid | backend/routes/donations.js:100-119 | recording a donation keeps every schema constraint and the unique transaction ids |
| DonationRoutes.CreditKeepsCampaignCounters | backend/routes/donations.js:113-115 | after crediting, each campaign's counters still equal the sum and number of its donations |
| DonationRoutes.CreditKeepsAssociationCounters | backend/routes/donations.js:117-119 | after crediting, each association's total still equals the sum of its donations |
| DonationRoutes.CreatePreservesCounters | backend/routes/donations.js:100-119 | recording a donation keeps every running counter equal to what it stands for |
| DonationRoutes.UpdateStatus | backend/routes/donations.js:142-156 | an association or admin sets any donation's payment status; an unknown status fails validation; only that field changes |
| DonationRoutes.UpdateStatusIgnoresOwnership | backend/routes/donations.js:142-156 | an association refunds a donation made to another association |
| DonationRoutes.UpdateStatusPreservesValid | backend/routes/donations.js:155-156 | a status change keeps every schema constraint |
| DonationRoutes.UpdateStatusPreservesCounters | backend/routes/donations.js:155-156 | a status change, a refund included, moves no counter, and the counters stay consistent because they count every status |
| DonationRoutes.ListForUser | backend/routes/donations.js:175-188 | a caller other than the user or an admin is forbidden; otherwise the listing is a permutation of that user's donations, newest first |
| DonationRoutes.CampaignPage | backend/routes/donations.js:209-215 | the page holds at most the 20 newest completed donations to the campaign, newest first, and any completed donation left out is no newer than every one shown |
| DonationRoutes.Redact | backend/routes/donations.js:218-225 | an anonymous donation shows the fixed placeholder donor; every other field is shown as stored |
| DonationRoutes.ListForCampaign | backend/routes/donations.js:207-226 | the public listing is the page with each entry redacted |
| DonationRoutes.ListForCampaignHidesAnonymous | backend/routes/donations.js:218-225 | no anonymous donor is named; each named donor exists; each entry is a completed donation to the campaign |
| UserRoutes.List | backend/routes/users.js:10-12 | only an admin lists users, and then exactly the stored users |
| UserRoutes.Edited | backend/routes/users.js:67-72 | an edit replaces at most the first name, last name, phone and address |
| UserRoutes.Update | backend/routes/users.js:57-80 | a caller other than the user or an admin is forbidden before the user is looked up; an unknown user is not found; otherwise the four fields are written |
| UserRoutes.UpdateKeepsPrivileges | backend/routes/users.js:67-72 | no edit changes a role, an association link, an avatar or an email, or touches another user |
| UserRoutes.UpdateThenGet | backend/routes/users.js:69-73 | reading a profile back after an edit shows the edited fields |
| UserRoutes.Get | backend/routes/users.js:30-39 | any signed-in caller reads a stored profile; an unknown id is not found |
| UserRoutes.SetAvatar | backend/routes/users.js:99-114 | with no file it is a bad request; otherwise the caller's avatar becomes the uploaded file's URL |
| UserRoutes.SetAvatarTouchesOnlyCaller | backend/routes/users.js:110-114 | no other user's record changes |
| UserRoutes.Delete | backend/routes/users.js:134-145 | only an admin deletes; an unknown user is not found; only the user is removed |
| UserRoutes.RoutesTouchOnlyUsers | backend/routes/users.js:57-145 | the user routes leave the other four collections unchanged |
| Stats.Supported | backend/routes/stats.js:89-96 | `distinct('campaign')` is the set of campaigns the donations went to, no larger than their number |
| Stats.CompletedDonations | backend/routes/stats.js:26-29 | the aggregation input is exactly the stored completed donations in scope |
| Stats.AdminDashboard | backend/routes/stats.js:17-35 | the admin gets the platform-wide figure set; see the lemmas below for what the figures satisfy |
| Stats.SelectCount | backend/routes/stats.js:46-49 | selecting donations by a filter keeps as many as the filter matches |
| Stats.AdminDashboardCounts | backend/routes/stats.js:22-31 | verified associations, active campaigns and pending requests are the numbers of stored documents in that state |
| Stats.AssociationDashboard | backend/routes/stats.js:37-69 | an association gets its own figure set; see the lemmas below for what the figures satisfy |
| Stats.AssociationDashboardCounts | backend/routes/stats.js:39-65 | the association's campaigns, active and completed campaigns, completed donations, assigned requests and open (pending or reviewing) assigned requests are the numbers of stored documents of each kind |
| Stats.UserDashboard | backend/routes/stats.js:71-96 | a user gets its own figure set; see the lemmas below for what the figures satisfy |
| Stats.UserDashboardCounts | backend/routes/stats.js:74-92 | the user's donations of any status, requests and approved requests are the numbers of stored documents of each kind, and the supported campaigns are the distinct campaigns of the user's completed donations |
| Stats.SupportedCampaigns | backend/routes/stats.js:89-92 | `distinct('campaign')` over the user's completed donations is the set of campaigns those stored donations went to |
| Stats.DashboardOf | backend/routes/stats.js:13-97 | each role gets exactly its own figure set, the admin's totals are the sizes of the five collections, and a user's donation amount is 0 as written |
| Stats.DashboardCorrected | backend/routes/stats.js:71-96 | the same answer for admins and associations; a user's other four figures are unchanged, and the amount is 0 exactly when none of the user's donations has completed |
| Stats.CountIsOwned | backend/routes/stats.js:39-43 | an association's campaign figure counts the campaigns it owns, as its running campaign count intends |
| Stats.ValidTotal | backend/routes/stats.js:35 | a sum of valid donations is at least their number, so it is 0 exactly when there are none |
| Stats.AdminDashboardBounds | backend/routes/stats.js:20-31 | verified associations, active campaigns and pending requests never exceed their totals |
| Stats.NoneCompleted | backend/routes/stats.js:26-35 | the completed selection is empty exactly when no stored donation has completed |
| Stats.AdminDashboardAmount | backend/routes/stats.js:26-35 | in a valid store the admin's amount is non-negative and 0 exactly when no donation has completed |
| Stats.AssociationDashboardBounds | backend/routes/stats.js:39-65 | active plus completed campaigns never exceed the campaigns, nor open requests the assigned ones |
| Stats.AssociationDashboardAmount | backend/routes/stats.js:46-69 | in a valid store the association's amount is at least its number of completed donations, and 0 exactly when there are none |
| Stats.AssociationDashboardAgreesWithCounters | backend/routes/stats.js:39-58 | with consistent counters, the campaign figure equals the running campaign count and the amount is at most the running donation total |
| Stats.UserDashboardBounds | backend/routes/stats.js:74-96 | approved requests never exceed the user's requests, nor supported campaigns its donations |
| Stats.UserDashboardCountsEveryStatus | backend/routes/stats.js:74-83 | a donation that has not completed adds one to the user's count and nothing to its amount |
| Stats.NoneCompletedBy | backend/routes/stats.js:74-81 | a user's completed selection is empty exactly when none of the user's donations has completed |
| Stats.UserDashboardAmount | backend/routes/stats.js:74-81 | a user's donation amount is never negative, and is 0 exactly when none of the user's donations has completed |
| Stats.UserDashboardAsWritten | backend/routes/stats.js:74-81 | with the uncast id in the `$match`, the amount is always 0 and the other four figures are those of Stats.UserDashboard |
| Stats.UserDashboardAsWrittenLosesAmount | backend/routes/stats.js:74-81 | a user with a completed donation sees 0 where the intended amount is at least 1 |
| Stats.SupportedIff | backend/routes/stats.js:89-96 | a campaign counts as supported exactly when the user has a completed donation to it |
| Stats.GroupByMonth | backend/routes/stats.js:133-140 | one row per month that has a donation, in ascending month order, each with that month's sum and a count of at least one |
| Stats.GroupByMonthCovers | backend/routes/stats.js:133-140 | every month in which a donation was made has its row |
| Stats.ReportScope | backend/routes/stats.js:119-129 | the report covers completed donations, only an association's own for an association caller |
| Stats.InYearAsWrittenIff | backend/routes/stats.js:121-124 | the range as written holds the year's instants up to midnight starting December 31 and none later that day |
| Stats.InYearIff | backend/routes/stats.js:121-124 | the intended range holds exactly the instants of the year |
| Stats.Reported | backend/routes/stats.js:119-132 | the report's input is exactly the stored donations in scope dated within the range, each once for every id it is stored under |
| Stats.Monthly | backend/routes/stats.js:115-141 | roles outside association/admin are forbidden; otherwise the rows group the reported donations by month, ascending, with each month that has one |
| Stats.MonthlyCorrected | backend/routes/stats.js:119-141 | the same report over the intended range |
| Stats.MonthlyCorrectedCoversYear | backend/routes/stats.js:119-125 | with the intended range a completed donation in scope is counted exactly when it is dated in the requested year |
| Stats.MonthlyDropsLateDecember31 | backend/routes/stats.js:121-124 | a donation on December 31 after midnight is missing as written and counted, with a December row, once corrected |
| Stats.JsPercentage | backend/routes/stats.js:178 | the percentage is `null` exactly for a zero goal, the rounded percentage for a positive goal, and the rounding of a negative ratio otherwise |
| Stats.Ranked | backend/routes/stats.js:168-171 | at most ten stored campaigns in scope, each at most once, richest first; a campaign in scope left out raised no more than any shown |
| Stats.RankedIdsDistinct | backend/routes/stats.js:168-171 | `find` returns each stored campaign once, so the ten kept have distinct ids |
| Stats.Rows | backend/routes/stats.js:173-181 | one row per ranked campaign, in the same order, with its figures |
| Stats.RowsSorted | backend/routes/stats.js:170 | the rows are in non-increasing raised amount |
| Stats.RowsStored | backend/routes/stats.js:173-181 | each row shows a stored campaign in scope |
| Stats.RowsComplete | backend/routes/stats.js:168-171 | a campaign in scope is shown, or ten rows are shown and each raised at least as much |
| Stats.Performance | backend/routes/stats.js:160-181 | roles outside association/admin are forbidden; otherwise at most ten rows of distinct stored campaigns in scope, richest first, with the as-written percentage, leaving out none that raised more than a row shown |
| Stats.PerformanceCorrected | backend/routes/stats.js:160-181 | the same access rule and at most ten rows of distinct stored campaigns in scope, richest first, leaving out none that raised more than a row shown, with the campaign's own progress percentage |
| Stats.PerformancePercentages | backend/routes/stats.js:178 | both tables agree except for a zero goal, which shows `null` as written and 0 corrected |
| Stats.Groups | backend/routes/stats.js:211-217 | one row per donor, no donor twice, each with the sum and number of that donor's donations |
| Stats.DonorScope | backend/routes/stats.js:203-207 | the ranking covers completed, non-anonymous donations, only an association's own for an association caller |
| Stats.LimitOf | backend/routes/stats.js:201 | a missing, unparsable or zero limit becomes 10; any other value is kept |
| Stats.Shortlist | backend/routes/stats.js:218-228 | at most `limit` donor groups, each of a donor with a user record |
| Stats.ShortlistSorted | backend/routes/stats.js:218 | the shortlist is in non-increasing total order |
| Stats.ShortlistDistinct | backend/routes/stats.js:212-213 | no donor appears twice on the shortlist |
| Stats.ShortlistComplete | backend/routes/stats.js:218-228 | a donor with a user record is on the shortlist or gave no more than anyone on it |
| Stats.Joins | backend/routes/stats.js:220-236 | each group is joined, in place, with its donor's user record |
| Stats.TopDonors | backend/routes/stats.js:199-237 | roles outside association/admin are forbidden; a negative limit fails; otherwise at most `limit` rows |
| Stats.TopDonorsRanked | backend/routes/stats.js:212-219 | the rows are in non-increasing total order and name no donor twice |
| Stats.TopDonorsRow | backend/routes/stats.js:220-236 | each row is a stored user with the sum and number of their donations in scope, their full name and their email |
| Stats.TopDonorsComplete | backend/routes/stats.js:218-228 | a stored donor with a donation in scope is listed, or gave no more than every listed donor |
| Stats.AnonymousDonorNotListed | backend/routes/stats.js:203 | a donor whose completed donations are all anonymous is never listed |

## Left out

- Express, Mongoose and multer plumbing is not modelled: `populate`, database I/O, directory creation and response shapes. Handlers return the status and the data that matters.
- The `protect` and `authorize` middleware are not part of this model. The caller is a given record, and a missing or bad token is not modelled.
- The user schema is not part of this model. Users carry only the fields the handlers read or write.
- Ids are natural numbers, so a malformed id string and its cast error are not modelled.
- Ids compare equal when they name the same document. The exception is the `$match` of the user dashboard's amount, which gets the caller's id as an uncast string. That case is a finding below: Stats.DashboardOf answers as written, and Stats.DashboardCorrected with the intended comparison.
- A query condition on an undefined value, such as an association caller's missing `associationId`, is read as a condition on null. It matches the documents whose field is missing or null. The model writes both sides as `None` and compares them as equal. DonationRoutes.ListWithoutAssociationIsEmpty, the `None` case of Access.RequestInScope and the association dashboard's request counts (`AssignedTo(None)` in `Stats`) rest on this reading.
- Amounts are integers. JavaScript floating point is replaced by exact arithmetic, and `Math.round` by its integer formula.
- Dates are calendar fields plus milliseconds. The model does not check that a day exists in its month, and clock readings are parameters.
- Random transaction ids and file-name suffixes are parameters of the handlers and of `Upload.Receive`.
- The `$regex` search filter is an abstract predicate `found(text, pattern)`. Regular-expression semantics are not modelled.
- `trim` setters, the `location` and `address` sub-documents and the association `documents` array are not modelled, since no property depends on them.
- Lower-casing covers ASCII letters only.
- The `year` and `limit` query strings reach the model already parsed. How a non-numeric year turns into an invalid date is not modelled.
- Multer's own error statuses for a refused upload are not modelled. `Upload.Receive` reports the refusal and its reason. Files written before a later file is refused are not tracked.
- Concurrency and the partial failure of the separate writes in donation and campaign creation are not modelled. Each handler runs alone and completes or fails as a whole.
- Tie order among equal sort keys is not modelled. The listings are specified as non-increasing and as holding the right documents.
- CampaignRoutes.Patched: the patch does not model the `images` and `updates` arrays, nor explicit `null` values in a body.
- RequestRoutes.Patched: the patch does not model `documents`, the two dates or `location`, nor explicit `null` values.
- AssociationRoutes.Patched: the patch does not model `address` or `documents`, and it states only the length of a new category list.
- DonationRoutes.UpdateStatus: the new status is a string. A body without `paymentStatus`, which would unset the field, is not modelled.
- RequestRoutes.SetStatus: the new status is a string. A body without `status`, which would unset the field, is not modelled.
- Stats.AdminDashboard: its own contract states only which figure set it returns. Stats.DashboardOf states the five totals, Stats.AdminDashboardCounts the other three counts and Stats.AdminDashboardAmount the amount.
- Stats.AssociationDashboard: its own contract states only which figure set it returns. Stats.AssociationDashboardCounts states the six counts and Stats.AssociationDashboardAmount the amount. `beneficiariesHelped` is stated by its definition alone.
- Stats.UserDashboard: its own contract states only which figure set it returns. Stats.UserDashboardCounts states the four counts, and Stats.UserDashboardAmount only that the amount is non-negative and when it is 0.
- Stats.UserDashboard: `campaignsSupported` is the array of distinct campaign ids in the response. The figure keeps its length, and Stats.SupportedCampaigns states the ids themselves.
- Stats.ReportYear: `new Date()` reads the server's local calendar. The model takes the current instant as already read in that time zone.
- Stats.TopDonors: the null `donorName` of a user missing a first or last name is modelled as `None`.

## Findings

| source | as written | input that shows it | evidently intended | confidence | as-written member | corrected member |
|---|---|---|---|---|---|---|
| backend/routes/stats.js:121-124 | the upper bound `$lte: new Date('YYYY-12-31')` is midnight at the start of December 31 | a completed donation dated December 31 at 10:00 UTC of the requested year | count every donation of the year, i.e. bound by the start of the next year | not executed | Stats.Monthly (shown by Stats.MonthlyDropsLateDecember31) | Stats.MonthlyCorrected (proved by Stats.MonthlyCorrectedCoversYear) |
| backend/routes/stats.js:178 | `Math.round(currentAmount / goalAmount * 100)` has no zero-goal guard | a campaign with `goalAmount` 0, which the schema allows | the 0 that the campaign's own `progressPercentage` gives for a goal of 0 | not executed | Stats.Performance (shown by Stats.PerformancePercentages) | Stats.PerformanceCorrected |
| backend/routes/stats.js:74-81 | the amount aggregate's `$match` gets `req.user.id`, a string, while `donor` is stored as an ObjectId; an aggregate pipeline does not cast, so the user dashboard's `totalDonationAmount` is always 0 | a user with one completed donation of amount 10 | the sum of the user's completed donations, as `countDocuments` and `distinct` in the same handler filter by the cast id | not executed | Stats.DashboardOf, whose user branch is Stats.UserDashboardAsWritten (shown by Stats.UserDashboardAsWrittenLosesAmount) | Stats.DashboardCorrected, whose user branch is Stats.UserDashboard (proved by Stats.UserDashboardAmount) |

=== FILE: access.dfy ===
/** The access policy, one predicate per check the route handlers make, each
    stated exactly as the handler decides it, plus the consequences of those
    checks that are easy to miss when reading the routes one at a time. */
module Access {
  import opened Base
  import D = DonationModel
  import R = RequestModel
  import C = CampaignModel
  import A = AssociationModel

  const AssociationOrAdmin: set<Role> := {AssociationRole, AdminRole}
  const AdminOnly: set<Role> := {AdminRole}

  /** The donations `GET /api/donations` lets the caller see: its own as a
      user, its association's as an association, all as an admin. */
  function DonationScope(c: Caller): (f: D.Filter)
    ensures c.role == UserRole ==> forall d: D.Donation :: D.Selects(f, d) <==> d.donor == c.id
    ensures c.role == AssociationRole ==>
              forall d: D.Donation :: D.Selects(f, d) <==> Some(d.association) == c.associationId
    ensures c.role == AdminRole ==> forall d: D.Donation :: D.Selects(f, d)
  {
    match c.role
    case UserRole => D.Everything.(donor := Is(c.id))
    case AssociationRole => D.Everything.(association := Is(c.associationId))
    case AdminRole => D.Everything
  }

  /** `GET /api/donations/:id`: only a caller with role `user` is checked,
      and only against the donor. */
  predicate CanViewDonation(c: Caller, d: D.Donation)
  {
    c.role != UserRole || d.donor == c.id
  }

  /** `GET /api/donations/user/:userId`: oneself, or an admin. */
  predicate CanListDonationsOf(c: Caller, userId: Id)
  {
    c.id == userId || c.role == AdminRole
  }

  /** The role part of the `GET /api/requests` query: a user sees its own
      requests; an association sees those assigned to it and the unassigned
      ones still pending or under review; an admin sees all. */
  predicate RequestInScope(c: Caller, r: R.Request)
  {
    match c.role
    case UserRole => r.requester == c.id
    case AssociationRole =>
      r.assignedAssociation == c.associationId
      || (r.assignedAssociation.None? && r.status in {R.Pending, R.Reviewing})
    case AdminRole => true
  }

  /** `GET /api/requests/:id`. `linked` is the populated assignment: the
      assigned association's id if that association still exists. It is
      compared with the caller's optional association id, so two missing
      values compare equal. */
  predicate CanViewRequest(c: Caller, requester: Id, linked: Option<Id>)
  {
    requester == c.id || linked == c.associationId || c.role == AdminRole
  }

  /** `PUT /api/requests/:id` and `DELETE /api/requests/:id`: the requester or an admin. */
  predicate CanEditRequest(c: Caller, r: R.Request)
  {
    r.requester == c.id || c.role == AdminRole
  }

  /** `PUT /api/requests/:id/status`: an admin, or a caller whose association
      id equals the assignment, both compared as optional ids. */
  predicate CanSetRequestStatus(c: Caller, r: R.Request)
  {
    c.role == AdminRole || r.assignedAssociation == c.associationId
  }

  /** `POST /api/requests/:id/documents`: the requester only, admins included. */
  predicate CanAttachDocuments(c: Caller, r: R.Request)
  {
    r.requester == c.id
  }

  /** `PUT` and `DELETE /api/campaigns/:id`: an admin, or the owning association. */
  predicate CanManageCampaign(c: Caller, campaign: C.Campaign)
  {
    c.role == AdminRole || Some(campaign.association) == c.associationId
  }

  /** `PUT /api/associations/:id`: an admin, or one of its admin users. */
  predicate CanUpdateAssociation(c: Caller, a: A.Association)
  {
    c.role == AdminRole || c.id in a.adminUsers
  }

  /** `PUT /api/users/:id`: oneself, or an admin. */
  predicate CanUpdateUser(c: Caller, target: Id)
  {
    c.id == target || c.role == AdminRole
  }

  /** An admin passes every ownership check except the document upload,
      which is reserved to the requester. */
  lemma AdminPassesOwnershipChecks(c: Caller, d: D.Donation, r: R.Request, camp: C.Campaign,
                                    a: A.Association, target: Id, linked: Option<Id>)
    requires c.role == AdminRole
    ensures CanViewDonation(c, d) && CanListDonationsOf(c, target)
    ensures RequestInScope(c, r) && CanViewRequest(c, r.requester, linked)
    ensures CanEditRequest(c, r) && CanSetRequestStatus(c, r)
    ensures CanManageCampaign(c, camp) && CanUpdateAssociation(c, a) && CanUpdateUser(c, target)
    ensures CanAttachDocuments(c, r) <==> r.requester == c.id
  {
  }

  /** A caller without an association id, of any role, may view every
      request whose assignment is missing or points to a deleted association:
      the check compares two undefined ids and finds them equal. */
  lemma UnassignedRequestVisibleToAll(c: Caller, requester: Id)
    requires c.associationId.None?
    ensures CanViewRequest(c, requester, None)
  {
  }

  /** The same comparison lets an association caller without an association id
      change the status of every unassigned request. */
  lemma UnassignedRequestStatusOpen(c: Caller, r: R.Request)
    requires c.associationId.None? && r.assignedAssociation.None?
    ensures CanSetRequestStatus(c, r)
  {
  }

  /** Campaign ownership is never granted by a missing association id. */
  lemma CampaignNeedsAssociation(c: Caller, camp: C.Campaign)
    requires c.role != AdminRole && c.associationId.None?
    ensures !CanManageCampaign(c, camp)
  {
  }

  /** A `user` caller sees a single donation only if it made it; association
      callers see any donation, including other associations'. */
  lemma DonationViewByRole(c: Caller, d: D.Donation)
    ensures c.role == UserRole ==> (CanViewDonation(c, d) <==> d.donor == c.id)
    ensures c.role == AssociationRole ==> CanViewDonation(c, d)
  {
  }
}

=== FILE: association_model.dfy ===
/** The association schema: required fields, the three unique keys, the
    lower-cased email, default flags and zero counters. */
module AssociationModel {
  import opened Base
  import opened Time
  import opened Text
  import Categories

  datatype Association = Association(
    name: string,
    description: string,
    logo: Option<string>,
    email: string,
    phone: string,
    website: Option<string>,
    registrationNumber: string,
    categories: seq<Categories.Category>,
    adminUsers: seq<Id>,
    isVerified: bool,
    isActive: bool,
    totalDonations: int,
    totalCampaigns: int,
    createdAt: Instant)

  /** Required strings are non-empty and the email went through the
      `lowercase` setter. */
  predicate Valid(a: Association)
  {
    a.name != "" && a.description != "" && a.email != "" && a.phone != ""
    && a.registrationNumber != "" && IsLower(a.email)
  }

  /** `a` and `b` collide on one of the three unique indexes. */
  predicate Collide(a: Association, b: Association)
  {
    a.name == b.name || a.email == b.email || a.registrationNumber == b.registrationNumber
  }

  /** The unique indexes on `name`, `email` and `registrationNumber`. */
  predicate Unique(m: map<Id, Association>)
  {
    forall i, j :: i in m && j in m && i != j ==> !Collide(m[i], m[j])
  }

  /** Some association other than the one under `self` collides with `a`. */
  predicate CollidesWithOther(m: map<Id, Association>, self: Id, a: Association)
  {
    exists k :: k in m && k != self && Collide(m[k], a)
  }

  /** Writing a document that collides with no other keeps the indexes unique. */
  lemma UniqueAfterWrite(m: map<Id, Association>, k: Id, a: Association)
    requires Unique(m)
    requires !CollidesWithOther(m, k, a)
    ensures Unique(m[k := a])
  {
    var m' := m[k := a];
    forall i, j | i in m' && j in m' && i != j
      ensures !Collide(m'[i], m'[j])
    {
      if i == k {
        assert !Collide(m[j], a);
      } else if j == k {
        assert !Collide(m[i], a);
      }
    }
  }

  /** An association as `Association.create` stores it: the email lower-cased,
      not yet verified, active, with zero counters and no logo. */
  function New(name: string, description: string, email: string, phone: string,
               website: Option<string>, registrationNumber: string,
               categories: seq<Categories.Category>, creator: Id, now: Instant): (a: Association)
    ensures a.name == name && a.description == description && a.phone == phone && a.website == website
    ensures a.registrationNumber == registrationNumber && a.categories == categories && a.createdAt == now
    ensures a.email == Lower(email) && IsLower(a.email)
    ensures a.adminUsers == [creator]
    ensures !a.isVerified && a.isActive
    ensures a.totalDonations == 0 && a.totalCampaigns == 0
    ensures a.logo.None?
    ensures name != "" && description != "" && email != "" && phone != "" && registrationNumber != ""
            ==> Valid(a)
  {
    LowerIdempotent(email);
    Association(name, description, None, Lower(email), phone, website, registrationNumber,
                categories, [creator], false, true, 0, 0, now)
  }
}

=== FILE: association_routes.dfy ===
/** The `/api/associations` routes: the public directory, registration of an
    association by a signed-in user, and its administration. */
module AssociationRoutes {
  import opened Base
  import opened Time
  import opened Text
  import opened Sorting
  import opened DocumentStore
  import A = AssociationModel
  import D = DonationModel
  import Categories
  import Access
  import Counters
  import Upload

  /** The query-string filters of the listing; an empty value is no filter. */
  datatype AssociationQuery = AssociationQuery(
    category: Option<string>,
    isVerified: Option<string>,
    isActive: Option<string>,
    search: Option<string>)

  /** The filters combine by conjunction. `category` matches an association
      listing that category among others; the two flags compare with the
      literal `true`, so any other non-empty value selects `false`.
      `found(text, pattern)` is the case-insensitive pattern match of the
      search, tried on the name and on the description. */
  predicate QueryMatches(q: AssociationQuery, found: (string, string) -> bool, a: A.Association)
  {
    (!Given(q.category) || exists i :: 0 <= i < |a.categories| && Categories.Name(a.categories[i]) == q.category.value)
    && (!Given(q.isVerified) || a.isVerified == (q.isVerified.value == "true"))
    && (!Given(q.isActive) || a.isActive == (q.isActive.value == "true"))
    && (!Given(q.search) || found(a.name, q.search.value) || found(a.description, q.search.value))
  }

  /** The sort key of `.sort('-createdAt')`. */
  function CreatedKey(a: A.Association): int
  {
    Ordinal(a.createdAt)
  }

  /** `GET /api/associations`: every stored association matching the query,
      newest first. */
  function List(s: Store, q: AssociationQuery, found: (string, string) -> bool): (r: seq<A.Association>)
    ensures NonIncreasing(r, CreatedKey)
    ensures forall a :: a in r <==>
              (exists k :: k in s.associations && s.associations[k] == a) && QueryMatches(q, found, a)
    ensures forall a :: multiset(r)[a] == if QueryMatches(q, found, a) then |Holders(s.associations, a)| else 0
  {
    Newest(s.associations, (a: A.Association) => QueryMatches(q, found, a), CreatedKey)
  }

  /** `isVerified=yes` lists the unverified associations. */
  lemma VerifiedFilterIsLiteral(s: Store, found: (string, string) -> bool, a: A.Association)
    requires a in List(s, AssociationQuery(None, Some("yes"), None, None), found)
    ensures !a.isVerified
  {
  }

  /** The fields of a `POST /api/associations` body; a missing field is `None`. */
  datatype AssociationBody = AssociationBody(
    name: Option<string>,
    description: Option<string>,
    email: Option<string>,
    phone: Option<string>,
    website: Option<string>,
    registrationNumber: Option<string>,
    categories: Option<seq<string>>)

  /** The duplicate check run before creating: some stored association has
      the body's email (lower-cased by the schema's setter, as the query is
      cast) or its registration number. The name is not checked. */
  predicate Duplicate(s: Store, b: AssociationBody)
  {
    exists k :: k in s.associations
      && ((b.email.Some? && s.associations[k].email == Lower(b.email.value))
          || (b.registrationNumber.Some? && s.associations[k].registrationNumber == b.registrationNumber.value))
  }

  /** What the schema validators accept: every required string non-empty
      and every category known. */
  predicate CreateAcceptable(b: AssociationBody)
  {
    Given(b.name) && Given(b.description) && Given(b.email) && Given(b.phone) && Given(b.registrationNumber)
    && (b.categories.None? || Categories.ParseAll(b.categories.value).Some?)
  }

  /** The association `Association.create` would store for an acceptable body. */
  function Registered(c: Caller, b: AssociationBody, now: Instant): (a: A.Association)
    requires CreateAcceptable(b)
    ensures a.name == b.name.value && a.email == Lower(b.email.value)
    ensures a.description == b.description.value && a.phone == b.phone.value && a.website == b.website
    ensures a.registrationNumber == b.registrationNumber.value && a.createdAt == now
    ensures b.categories.None? ==> a.categories == []
    ensures b.categories.Some? ==>
              |a.categories| == |b.categories.value|
              && forall i :: 0 <= i < |a.categories| ==> Categories.Name(a.categories[i]) == b.categories.value[i]
    ensures a.adminUsers == [c.id] && !a.isVerified && a.isActive
    ensures a.totalDonations == 0 && a.totalCampaigns == 0
    ensures A.Valid(a)
  {
    var categories := if b.categories.Some? then Categories.ParseAll(b.categories.value).value else [];
    A.New(b.name.value, b.description.value, b.email.value, b.phone.value, b.website,
          b.registrationNumber.value, categories, c.id, now)
  }

  /** The caller's user record after `User.findByIdAndUpdate`, which changes
      nothing when the record is gone. */
  function Promote(users: map<Id, User>, id: Id, aid: Id): (r: map<Id, User>)
    ensures r.Keys == users.Keys
    ensures id in users ==> r[id] == users[id].(role := AssociationRole, associationId := Some(aid))
    ensures forall k :: k in users && k != id ==> r[k] == users[k]
  {
    if id in users then users[id := users[id].(role := AssociationRole, associationId := Some(aid))] else users
  }

  /** `POST /api/associations`: any signed-in caller registers an
      association, becomes its only admin user, and is turned into an
      association account linked to it, whatever its role was. */
  function Create(s: Store, c: Caller, b: AssociationBody, now: Instant): (r: Response)
    ensures r.status == BadRequest <==> Duplicate(s, b)
    ensures r.status == ValidationError <==>
              !Duplicate(s, b)
              && (!CreateAcceptable(b)
                  || A.CollidesWithOther(s.associations, FreshId(s.associations.Keys), Registered(c, b, now)))
    ensures r.status in {Ok, BadRequest, ValidationError}
    ensures r.status != Ok ==> r.store == s
    ensures r.status == Ok ==>
              var k := FreshId(s.associations.Keys);
              && r.store.associations == s.associations[k := Registered(c, b, now)]
              && r.store.associations[k].adminUsers == [c.id]
              && r.store.users == Promote(s.users, c.id, k)
              && r.store.campaigns == s.campaigns && r.store.donations == s.donations
              && r.store.requests == s.requests
  {
    if Duplicate(s, b) then Response(BadRequest, s)
    else if !CreateAcceptable(b) then Response(ValidationError, s)
    else
      var k := FreshId(s.associations.Keys);
      var a := Registered(c, b, now);
      if A.CollidesWithOther(s.associations, k, a) then Response(ValidationError, s)
      else Response(Ok, s.(associations := s.associations[k := a], users := Promote(s.users, c.id, k)))
  }

  /** An admin who registers an association loses the admin role. */
  lemma CreateDemotesAdmin(s: Store, c: Caller, b: AssociationBody, now: Instant)
    requires c.id in s.users && s.users[c.id].role == AdminRole
    requires Create(s, c, b, now).status == Ok
    ensures Create(s, c, b, now).store.users[c.id].role == AssociationRole
    ensures Create(s, c, b, now).store.users[c.id].associationId == Some(FreshId(s.associations.Keys))
  {
  }

  /** A name already in use passes the duplicate check and is refused only
      by the unique index, as a server error rather than a bad request. */
  lemma CreateNameClash(s: Store, c: Caller, b: AssociationBody, now: Instant, k: Id)
    requires CreateAcceptable(b) && !Duplicate(s, b)
    requires k in s.associations && s.associations[k].name == b.name.value
    ensures Create(s, c, b, now).status == ValidationError
  {
    assert k != FreshId(s.associations.Keys);
    assert A.Collide(s.associations[k], Registered(c, b, now));
  }

  /** Registering keeps every schema constraint and unique index. */
  lemma CreatePreservesValid(s: Store, c: Caller, b: AssociationBody, now: Instant)
    requires Valid(s)
    ensures Valid(Create(s, c, b, now).store)
  {
    var r := Create(s, c, b, now);
    if r.status == Ok {
      A.UniqueAfterWrite(s.associations, FreshId(s.associations.Keys), Registered(c, b, now));
    }
  }

  /** Registering keeps every running counter equal to what it stands for,
      provided no campaign or donation already refers to the new id (the
      database never reissues an id). */
  lemma CreatePreservesCounters(s: Store, c: Caller, b: AssociationBody, now: Instant)
    requires Counters.Consistent(s)
    requires forall j :: j in s.campaigns ==> s.campaigns[j].association != FreshId(s.associations.Keys)
    requires forall j :: j in s.donations ==> s.donations[j].association != FreshId(s.associations.Keys)
    ensures Counters.Consistent(Create(s, c, b, now).store)
  {
    var r := Create(s, c, b, now);
    if r.status == Ok {
      var k := FreshId(s.associations.Keys);
      NothingRefersTo(s, k);
      assert r.store.campaigns == s.campaigns && r.store.donations == s.donations;
      forall aid | aid in r.store.associations
        ensures r.store.associations[aid].totalDonations == Counters.Raised(r.store, Counters.ForAssociation(aid))
        ensures r.store.associations[aid].totalCampaigns == Counters.Owned(Values(r.store.campaigns), aid)
      {
        if aid != k {
          assert aid in s.associations && r.store.associations[aid] == s.associations[aid];
        }
      }
    }
  }

  /** An association no campaign and no donation refers to has raised
      nothing and owns no campaign. */
  lemma NothingRefersTo(s: Store, k: Id)
    requires forall j :: j in s.campaigns ==> s.campaigns[j].association != k
    requires forall j :: j in s.donations ==> s.donations[j].association != k
    ensures Counters.Raised(s, Counters.ForAssociation(k)) == 0
    ensures Counters.Owned(Values(s.campaigns), k) == 0
  {
    Counters.OwnedCount(s.campaigns, k);
    assert Counters.OwnerIds(s.campaigns, k) == {};
    var ds := Values(s.donations);
    forall i | 0 <= i < |ds|
      ensures !D.Selects(Counters.ForAssociation(k), ds[i])
    {
      assert ds[i] == s.donations[Ids(s.donations.Keys)[i]];
    }
    Counters.NothingSelected(ds, Counters.ForAssociation(k));
  }

  /** The fields a `PUT /api/associations/:id` body may set; a missing field
      is left as it is. The body goes to the database as given. */
  datatype AssociationPatch = AssociationPatch(
    name: Option<string>,
    description: Option<string>,
    logo: Option<string>,
    email: Option<string>,
    phone: Option<string>,
    website: Option<string>,
    registrationNumber: Option<string>,
    categories: Option<seq<string>>,
    adminUsers: Option<seq<Id>>,
    isVerified: Option<bool>,
    isActive: Option<bool>,
    totalDonations: Option<int>,
    totalCampaigns: Option<int>)

  /** The update validators (`runValidators`) on the paths the patch sets. */
  predicate PatchAcceptable(p: AssociationPatch)
  {
    (p.name.None? || p.name.value != "") && (p.description.None? || p.description.value != "")
    && (p.email.None? || p.email.value != "") && (p.phone.None? || p.phone.value != "")
    && (p.registrationNumber.None? || p.registrationNumber.value != "")
    && (p.categories.None? || Categories.ParseAll(p.categories.value).Some?)
  }

  /** The association with every field the patch sets replaced, the email
      through the `lowercase` setter. */
  function Patched(x: A.Association, p: AssociationPatch): (y: A.Association)
    requires PatchAcceptable(p)
    ensures y.name == Or(p.name, x.name) && y.description == Or(p.description, x.description)
    ensures y.logo == (if p.logo.Some? then p.logo else x.logo)
    ensures p.email.Some? ==> y.email == Lower(p.email.value)
    ensures p.email.None? ==> y.email == x.email
    ensures y.phone == Or(p.phone, x.phone) && y.registrationNumber == Or(p.registrationNumber, x.registrationNumber)
    ensures y.website == (if p.website.Some? then p.website else x.website)
    ensures p.categories.Some? ==> |y.categories| == |p.categories.value|
    ensures p.categories.None? ==> y.categories == x.categories
    ensures y.adminUsers == Or(p.adminUsers, x.adminUsers)
    ensures y.isVerified == Or(p.isVerified, x.isVerified) && y.isActive == Or(p.isActive, x.isActive)
    ensures y.totalDonations == Or(p.totalDonations, x.totalDonations)
    ensures y.totalCampaigns == Or(p.totalCampaigns, x.totalCampaigns)
    ensures y.createdAt == x.createdAt
    ensures A.Valid(x) ==> A.Valid(y)
  {
    var email := if p.email.Some? then Lower(p.email.value) else x.email;
    LowerIdempotent(if p.email.Some? then p.email.value else "");
    var categories := if p.categories.Some? then Categories.ParseAll(p.categories.value).value else x.categories;
    x.(name := Or(p.name, x.name), description := Or(p.description, x.description),
       logo := if p.logo.Some? then p.logo else x.logo, email := email, phone := Or(p.phone, x.phone),
       website := if p.website.Some? then p.website else x.website,
       registrationNumber := Or(p.registrationNumber, x.registrationNumber), categories := categories,
       adminUsers := Or(p.adminUsers, x.adminUsers), isVerified := Or(p.isVerified, x.isVerified),
       isActive := Or(p.isActive, x.isActive), totalDonations := Or(p.totalDonations, x.totalDonations),
       totalCampaigns := Or(p.totalCampaigns, x.totalCampaigns))
  }

  /** `PUT /api/associations/:id`: an admin, or one of the association's
      admin users, writes the body onto it. A value another association
      already uses is refused by the unique index. */
  function Update(s: Store, c: Caller, id: Id, p: AssociationPatch): (r: Response)
    ensures r.status == Forbidden <==>
              !Authorized(c, Access.AssociationOrAdmin)
              || (id in s.associations && !Access.CanUpdateAssociation(c, s.associations[id]))
    ensures r.status == NotFound <==> Authorized(c, Access.AssociationOrAdmin) && id !in s.associations
    ensures r.status == ValidationError <==>
              Authorized(c, Access.AssociationOrAdmin) && id in s.associations
              && Access.CanUpdateAssociation(c, s.associations[id])
              && (!PatchAcceptable(p) || A.CollidesWithOther(s.associations, id, Patched(s.associations[id], p)))
    ensures r.status in {Ok, Forbidden, NotFound, ValidationError}
    ensures r.status != Ok ==> r.store == s
    ensures r.status == Ok ==>
              r.store == s.(associations := s.associations[id := Patched(s.associations[id], p)])
  {
    if !Authorized(c, Access.AssociationOrAdmin) then Response(Forbidden, s)
    else if id !in s.associations then Response(NotFound, s)
    else if !Access.CanUpdateAssociation(c, s.associations[id]) then Response(Forbidden, s)
    else if !PatchAcceptable(p) then Response(ValidationError, s)
    else
      var y := Patched(s.associations[id], p);
      if A.CollidesWithOther(s.associations, id, y) then Response(ValidationError, s)
      else Response(Ok, s.(associations := s.associations[id := y]))
  }

  /** Nothing restricts which fields the body sets: an association's own
      admin user can mark it verified, which the verify route reserves to
      admins. */
  lemma UpdateSelfVerifies(s: Store, c: Caller, id: Id)
    requires A.Unique(s.associations)
    requires c.role == AssociationRole && id in s.associations && c.id in s.associations[id].adminUsers
    ensures var p := AssociationPatch(None, None, None, None, None, None, None, None, None, Some(true),
                                      None, None, None);
            var r := Update(s, c, id, p);
            r.status == Ok && r.store.associations[id].isVerified
  {
    var p := AssociationPatch(None, None, None, None, None, None, None, None, None, Some(true), None, None, None);
    var x := s.associations[id];
    var y := Patched(x, p);
    assert y.name == x.name && y.email == x.email && y.registrationNumber == x.registrationNumber;
    forall k | k in s.associations && k != id
      ensures !A.Collide(s.associations[k], y)
    {
      assert !A.Collide(s.associations[k], x);
    }
  }

  /** `POST /api/associations/:id/logo`: the uploaded logo's URL is stored on
      any association; an unknown id changes nothing and still succeeds. */
  function UploadLogo(s: Store, c: Caller, id: Id, file: Option<Upload.StoredFile>): (r: Response)
    ensures r.status == Forbidden <==> !Authorized(c, Access.AssociationOrAdmin)
    ensures r.status == BadRequest <==> Authorized(c, Access.AssociationOrAdmin) && file.None?
    ensures r.status in {Ok, Forbidden, BadRequest}
    ensures r.status != Ok || id !in s.associations ==> r.store == s
    ensures r.status == Ok && id in s.associations ==>
              r.store == s.(associations := s.associations[id := s.associations[id].(
                  logo := Some("/uploads/logos/" + file.value.filename))])
  {
    if !Authorized(c, Access.AssociationOrAdmin) then Response(Forbidden, s)
    else if file.None? then Response(BadRequest, s)
    else if id !in s.associations then Response(Ok, s)
    else Response(Ok, s.(associations := s.associations[id := s.associations[id].(
                          logo := Some("/uploads/logos/" + file.value.filename))]))
  }

  /** The logo route has no ownership check: any association replaces the
      logo of another. */
  lemma AnyAssociationReplacesLogo(s: Store, c: Caller, id: Id, f: Upload.StoredFile)
    requires c.role == AssociationRole && id in s.associations && !Access.CanUpdateAssociation(c, s.associations[id])
    ensures UploadLogo(s, c, id, Some(f)).status == Ok
    ensures UploadLogo(s, c, id, Some(f)).store.associations[id].logo == Some("/uploads/logos/" + f.filename)
  {
  }

  /** `PUT /api/associations/:id/verify`: an admin marks the association verified. */
  function Verify(s: Store, c: Caller, id: Id): (r: Response)
    ensures r.status == Forbidden <==> c.role != AdminRole
    ensures r.status == NotFound <==> c.role == AdminRole && id !in s.associations
    ensures r.status in {Ok, Forbidden, NotFound}
    ensures r.status != Ok ==> r.store == s
    ensures r.status == Ok ==> id in r.store.associations && r.store.associations[id].isVerified
    ensures r.status == Ok ==>
              r.store == s.(associations := s.associations[id := r.store.associations[id]])
              && r.store.associations[id].(isVerified := s.associations[id].isVerified) == s.associations[id]
  {
    if !Authorized(c, Access.AdminOnly) then Response(Forbidden, s)
    else if id !in s.associations then Response(NotFound, s)
    else Response(Ok, s.(associations := s.associations[id := s.associations[id].(isVerified := true)]))
  }

  /** Verifying twice is verifying once. */
  lemma VerifyIdempotent(s: Store, c: Caller, id: Id)
    ensures Verify(Verify(s, c, id).store, c, id).store == Verify(s, c, id).store
    ensures Verify(Verify(s, c, id).store, c, id).status == Verify(s, c, id).status
  {
    var r := Verify(s, c, id);
    if r.status == Ok {
      assert r.store.associations[id := r.store.associations[id].(isVerified := true)] == r.store.associations;
    }
  }

  /** `DELETE /api/associations/:id`: an admin removes the association. Its
      campaigns, donations and linked user accounts are left as they are. */
  function Delete(s: Store, c: Caller, id: Id): (r: Response)
    ensures r.status == Forbidden <==> c.role != AdminRole
    ensures r.status == NotFound <==> c.role == AdminRole && id !in s.associations
    ensures r.status in {Ok, Forbidden, NotFound}
    ensures r.status != Ok ==> r.store == s
    ensures r.status == Ok ==> r.store == s.(associations := s.associations - {id}) && id !in r.store.associations
  {
    if !Authorized(c, Access.AdminOnly) then Response(Forbidden, s)
    else if id !in s.associations then Response(NotFound, s)
    else Response(Ok, s.(associations := s.associations - {id}))
  }

  /** After a delete, the association's campaigns still name it as their
      owner, and its members still carry its id. */
  lemma DeleteLeavesOrphans(s: Store, c: Caller, id: Id, cid: Id, uid: Id)
    requires Delete(s, c, id).status == Ok
    requires cid in s.campaigns && s.campaigns[cid].association == id
    requires uid in s.users && s.users[uid].associationId == Some(id)
    ensures var r := Delete(s, c, id);
            && cid in r.store.campaigns && r.store.campaigns[cid].association !in r.store.associations
            && uid in r.store.users && r.store.users[uid].associationId == Some(id)
  {
  }

  /** The other association routes keep every schema constraint and unique
      index. */
  lemma UpdateKeepsValid(s: Store, c: Caller, id: Id, p: AssociationPatch)
    requires Valid(s)
    ensures Valid(Update(s, c, id, p).store)
  {
    if Update(s, c, id, p).status == Ok {
      A.UniqueAfterWrite(s.associations, id, Patched(s.associations[id], p));
    }
  }

  lemma UploadLogoKeepsValid(s: Store, c: Caller, id: Id, f: Option<Upload.StoredFile>)
    requires Valid(s)
    ensures Valid(UploadLogo(s, c, id, f).store)
  {
    var l := UploadLogo(s, c, id, f);
    if l.status == Ok && id in s.associations {
      A.UniqueAfterWrite(s.associations, id, l.store.associations[id]);
    }
  }

  lemma VerifyKeepsValid(s: Store, c: Caller, id: Id)
    requires Valid(s)
    ensures Valid(Verify(s, c, id).store)
  {
    var v := Verify(s, c, id);
    if v.status == Ok {
      A.UniqueAfterWrite(s.associations, id, v.store.associations[id]);
    }
  }

  lemma DeleteKeepsValid(s: Store, c: Caller, id: Id)
    requires Valid(s)
    ensures Valid(Delete(s, c, id).store)
  {
  }
}

=== FILE: base.dfy ===
/** Identifiers, optional values, handler outcomes, the authenticated caller,
    and the ascending enumeration of the id-keyed maps the document store is
    made of. */
module Base {

  /** Document ids. The database issues them; the model needs equality and a
      supply of fresh ones, nothing else. */
  type Id = nat

  datatype Option<+T> = None | Some(value: T)

  /** What a request handler answers, by HTTP class. */
  datatype Status =
    | Ok               // 200 or 201
    | NotFound         // 404
    | Forbidden        // 403: an ownership check, or `authorize(roles)` refusing the role
    | BadRequest       // 400
    | ValidationError  // 500 raised by a schema validator or a unique index
    | ServerError      // 500 raised by anything else the handler's `catch` absorbs

  datatype Role = UserRole | AssociationRole | AdminRole

  /** The authenticated caller as the `protect` middleware leaves it in
      `req.user`: its id, its role and the association it administers, if any. */
  datatype Caller = Caller(id: Id, role: Role, associationId: Option<Id>)

  /** One condition of a query filter: no constraint, or equality with a value. */
  datatype Match<T> = Any | Is(value: T)

  predicate Matches<T(==)>(m: Match<T>, x: T)
  {
    m.Any? || m.value == x
  }

  /** `authorize(...roles)`: the route is open to the listed roles only. */
  predicate Authorized(c: Caller, roles: set<Role>)
  {
    c.role in roles
  }

  /** The value a missing field of an update body leaves in place: the given one, or the old one. */
  function Or<T>(o: Option<T>, d: T): (r: T)
    ensures o.Some? ==> r == o.value
    ensures o.None? ==> r == d
  {
    if o.Some? then o.value else d
  }

  /** JavaScript truthiness of an optional query-string or body string:
      absent and empty both count as not given. */
  predicate Given(p: Option<string>)
  {
    p.Some? && p.value != ""
  }

  lemma {:induction false} MaxExists(ids: set<Id>)
    requires ids != {}
    ensures exists x :: x in ids && forall y :: y in ids ==> y <= x
  {
    var x :| x in ids;
    if ids != {x} {
      MaxExists(ids - {x});
      var m :| m in ids - {x} && forall y :: y in ids - {x} ==> y <= m;
      var top := if x > m then x else m;
      forall y | y in ids
        ensures y <= top
      {
        if y != x {
          assert y in ids - {x};
        }
      }
    } else {
      assert forall y :: y in ids ==> y <= x;
    }
  }

  /** The id the store hands to the next document of a collection: one more
      than the largest id in use, so it is new and above every id in use. */
  function FreshId(ids: set<Id>): (k: Id)
    ensures k !in ids
    ensures forall j :: j in ids ==> j < k
    ensures ids == {} ==> k == 0
    ensures ids != {} ==> k - 1 in ids
  {
    if ids == {} then 0
    else
      MaxExists(ids);
      var x :| x in ids && forall y :: y in ids ==> y <= x;
      x + 1
  }

  /** The ids of `ids` below `n`, in ascending order. */
  function IdsBelow(ids: set<Id>, n: nat): (r: seq<Id>)
    ensures forall i :: 0 <= i < |r| ==> r[i] in ids && r[i] < n
    ensures forall k :: k in ids && k < n ==> k in r
    ensures forall i, j :: 0 <= i < j < |r| ==> r[i] < r[j]
  {
    if n == 0 then []
    else IdsBelow(ids, n - 1) + (if n - 1 in ids then [n - 1] else [])
  }

  /** Every id of a collection, ascending: the order documents are visited in. */
  function Ids(ids: set<Id>): (r: seq<Id>)
    ensures forall i :: 0 <= i < |r| ==> r[i] in ids
    ensures forall k :: k in ids ==> k in r
    ensures forall i, j :: 0 <= i < j < |r| ==> r[i] < r[j]
  {
    IdsBelow(ids, FreshId(ids))
  }

  lemma {:induction false} IdsBelowAgree(a: set<Id>, b: set<Id>, n: nat)
    requires forall k :: k < n ==> (k in a <==> k in b)
    ensures IdsBelow(a, n) == IdsBelow(b, n)
  {
    if n > 0 {
      IdsBelowAgree(a, b, n - 1);
    }
  }

  /** A fresh id is enumerated after every id already in use. */
  lemma IdsAddFresh(ids: set<Id>)
    ensures Ids(ids + {FreshId(ids)}) == Ids(ids) + [FreshId(ids)]
  {
    var k := FreshId(ids);
    var ids' := ids + {k};
    calc {
      Ids(ids');
      { FreshAfterFresh(ids); }
      IdsBelow(ids', k + 1);
      IdsBelow(ids', k) + [k];
      { IdsBelowAgree(ids', ids, k); }
      IdsBelow(ids, k) + [k];
    }
  }

  /** Once the fresh id is taken, the next fresh id is the one after it. */
  lemma FreshAfterFresh(ids: set<Id>)
    ensures FreshId(ids + {FreshId(ids)}) == FreshId(ids) + 1
  {
    var k := FreshId(ids);
    var k' := FreshId(ids + {k});
    assert k in ids + {k};
    assert k' - 1 in ids + {k};
  }

  /** The documents of a collection in id order. */
  function Values<T>(m: map<Id, T>): (r: seq<T>)
    ensures |r| == |Ids(m.Keys)|
    ensures forall i :: 0 <= i < |r| ==> r[i] == m[Ids(m.Keys)[i]]
  {
    var ids := Ids(m.Keys);
    seq(|ids|, i requires 0 <= i < |ids| => m[ids[i]])
  }

  /** Every document of the collection is listed, and only those. */
  lemma ValuesMembership<T>(m: map<Id, T>, x: T)
    ensures x in Values(m) <==> exists k :: k in m && m[k] == x
  {
    var ids := Ids(m.Keys);
    if x in Values(m) {
      var i :| 0 <= i < |Values(m)| && Values(m)[i] == x;
      assert ids[i] in m && m[ids[i]] == x;
    }
    if exists k :: k in m && m[k] == x {
      var k :| k in m && m[k] == x;
      var i :| 0 <= i < |ids| && ids[i] == k;
      assert Values(m)[i] == x;
    }
  }

  /** Inserting a document under a fresh id appends it to the listing. */
  lemma ValuesAddFresh<T>(m: map<Id, T>, v: T)
    ensures Values(m[FreshId(m.Keys) := v]) == Values(m) + [v]
  {
    var k := FreshId(m.Keys);
    var m' := m[k := v];
    assert m'.Keys == m.Keys + {k};
    IdsAddFresh(m.Keys);
    var ids := Ids(m.Keys);
    assert Ids(m'.Keys) == ids + [k];
    var a := Values(m');
    var b := Values(m) + [v];
    assert |a| == |b|;
    forall i | 0 <= i < |a|
      ensures a[i] == b[i]
    {
      if i < |ids| {
        assert ids[i] != k;
      }
    }
  }

  /** Replacing the document stored under an existing id replaces it in
      place in the listing; every other position is unchanged. */
  lemma ValuesReplace<T>(m: map<Id, T>, k: Id, v: T)
    requires k in m
    ensures |Values(m[k := v])| == |Values(m)|
    ensures forall i :: 0 <= i < |Values(m)| ==>
              Values(m[k := v])[i] == (if Ids(m.Keys)[i] == k then v else Values(m)[i])
  {
    assert m[k := v].Keys == m.Keys;
  }

  /** The ids under which `x` is stored. */
  function Holders<T(==)>(m: map<Id, T>, x: T): set<Id>
  {
    set k | k in m && m[k] == x
  }

  /** The ids among `ids` under which `x` is stored. */
  function HoldersAmong<T(==)>(m: map<Id, T>, ids: seq<Id>, x: T): set<Id>
  {
    set k | k in ids && k in m && m[k] == x
  }

  /** Listing the documents under ascending ids shows `x` once per id holding it. */
  lemma {:induction false} ListingMultiplicity<T>(m: map<Id, T>, ids: seq<Id>, x: T)
    requires forall i :: 0 <= i < |ids| ==> ids[i] in m
    requires forall i, j :: 0 <= i < j < |ids| ==> ids[i] < ids[j]
    ensures multiset(seq(|ids|, i requires 0 <= i < |ids| => m[ids[i]]))[x] == |HoldersAmong(m, ids, x)|
  {
    if ids != [] {
      var n := |ids| - 1;
      var p := ids[..n];
      var last := ids[n];
      var vs := seq(|ids|, i requires 0 <= i < |ids| => m[ids[i]]);
      var ps := seq(|p|, i requires 0 <= i < |p| => m[p[i]]);
      assert vs == ps + [m[last]];
      ListingMultiplicity(m, p, x);
      var sp := HoldersAmong(m, p, x);
      var sv := HoldersAmong(m, ids, x);
      var extra: set<Id> := if m[last] == x then {last} else {};
      assert ids == p + [last];
      forall k
        ensures k in sv <==> k in sp + extra
      {
        assert k in ids <==> k in p || k == last;
      }
      assert sv == sp + extra;
      assert last !in p by {
        forall i | 0 <= i < |p|
          ensures p[i] != last
        {
          assert ids[i] < ids[n];
        }
      }
    }
  }

  /** The listing shows each document once per id it is stored under. */
  lemma ValuesMultiplicity<T>(m: map<Id, T>, x: T)
    ensures multiset(Values(m))[x] == |Holders(m, x)|
  {
    var ids := Ids(m.Keys);
    ListingMultiplicity(m, ids, x);
    assert HoldersAmong(m, ids, x) == Holders(m, x);
  }

  /** A map has as many entries as its listing. */
  lemma ValuesCount<T>(m: map<Id, T>)
    ensures |Values(m)| == |m|
  {
    var ids := Ids(m.Keys);
    var asSet := set i | 0 <= i < |ids| :: ids[i];
    assert asSet == m.Keys;
    DistinctCount(ids);
    assert |m.Keys| == |m|;
  }

  /** A strictly increasing sequence has as many distinct elements as entries. */
  lemma {:induction false} DistinctCount(ids: seq<Id>)
    requires forall i, j :: 0 <= i < j < |ids| ==> ids[i] < ids[j]
    ensures |set i | 0 <= i < |ids| :: ids[i]| == |ids|
  {
    if ids != [] {
      var n := |ids| - 1;
      var p := ids[..n];
      DistinctCount(p);
      var sp := set i | 0 <= i < |p| :: p[i];
      var sv := set i | 0 <= i < |ids| :: ids[i];
      forall x
        ensures x in sv <==> x in sp + {ids[n]}
      {
        if x in sv {
          var i :| 0 <= i < |ids| && ids[i] == x;
          if i < n {
            assert p[i] == x;
          }
        }
        if x in sp {
          var i :| 0 <= i < |p| && p[i] == x;
          assert ids[i] == x;
        }
      }
      assert sv == sp + {ids[n]};
      assert ids[n] !in sp;
    }
  }

  /** The (id, document) pairs of a collection in id order. */
  function Entries<T>(m: map<Id, T>): (r: seq<(Id, T)>)
    ensures |r| == |Ids(m.Keys)|
    ensures forall i :: 0 <= i < |r| ==> r[i] == (Ids(m.Keys)[i], m[Ids(m.Keys)[i]])
  {
    var ids := Ids(m.Keys);
    seq(|ids|, i requires 0 <= i < |ids| => (ids[i], m[ids[i]]))
  }

  /** Every stored pair is listed, and only those. */
  lemma EntriesMembership<T>(m: map<Id, T>, e: (Id, T))
    ensures e in Entries(m) <==> e.0 in m && m[e.0] == e.1
  {
    var ids := Ids(m.Keys);
    if e.0 in m && m[e.0] == e.1 {
      var i :| 0 <= i < |ids| && ids[i] == e.0;
      assert Entries(m)[i] == e;
    }
  }
}

=== FILE: campaign_model.dfy ===
/** The campaign schema: its fields, their validators and defaults, and the
    two virtual getters `progressPercentage` and `isActive`. */
module CampaignModel {
  import opened Base
  import opened Time
  import Enums
  import Categories

  datatype CampaignStatus = Draft | Active | Completed | Cancelled

  function StatusName(s: CampaignStatus): string
  {
    match s
    case Draft => "draft"
    case Active => "active"
    case Completed => "completed"
    case Cancelled => "cancelled"
  }

  const AllStatuses: seq<CampaignStatus> := [Draft, Active, Completed, Cancelled]

  function ParseStatus(s: string): Option<CampaignStatus>
  {
    Enums.Parse(AllStatuses, StatusName, s)
  }

  /** The `enum` validator of `status` accepts exactly the four names. */
  lemma ParseStatusIff(s: string, st: CampaignStatus)
    ensures ParseStatus(s) == Some(st) <==> StatusName(st) == s
  {
    assert st in AllStatuses;
    Enums.ParseIff(AllStatuses, StatusName, s, st);
  }

  /** One entry of the `updates` log. */
  datatype CampaignUpdate = CampaignUpdate(title: Option<string>, content: Option<string>, date: Instant)

  datatype Campaign = Campaign(
    title: string,
    description: string,
    association: Id,
    category: Categories.Category,
    goalAmount: int,
    currentAmount: int,
    currency: string,
    images: seq<string>,
    startDate: Instant,
    endDate: Instant,
    status: CampaignStatus,
    isUrgent: bool,
    beneficiariesCount: int,
    donationsCount: int,
    updates: seq<CampaignUpdate>,
    createdAt: Instant)

  /** The schema's validators that the types do not already enforce: the
      required strings are non-empty and both amounts are at least 0. */
  predicate Valid(c: Campaign)
  {
    c.title != "" && c.description != "" && c.goalAmount >= 0 && c.currentAmount >= 0
  }

  /** A campaign as `Campaign.create` stores it: the creator's fields plus the
      schema defaults. */
  function New(title: string, description: string, association: Id, category: Categories.Category,
               goalAmount: int, startDate: Instant, endDate: Instant, isUrgent: Option<bool>,
               now: Instant): (c: Campaign)
    ensures c.association == association && c.goalAmount == goalAmount
    ensures c.currentAmount == 0 && c.donationsCount == 0 && c.beneficiariesCount == 0
    ensures c.status == Draft && c.currency == "EUR"
    ensures c.images == [] && c.updates == []
    ensures c.isUrgent <==> isUrgent == Some(true)
    ensures title != "" && description != "" && goalAmount >= 0 ==> Valid(c)
  {
    Campaign(title, description, association, category, goalAmount, 0, "EUR", [], startDate, endDate,
             Draft, if isUrgent.Some? then isUrgent.value else false, 0, 0, [], now)
  }

  /** `Math.round(part / whole * 100)` in exact arithmetic for a positive
      `whole`: `Math.round` is `floor(x + 1/2)`, which is this integer division. */
  function RoundPercent(part: int, whole: int): (p: int)
    requires whole > 0
    ensures 2 * whole * p <= 200 * part + whole < 2 * whole * p + 2 * whole
  {
    (200 * part + whole) / (2 * whole)
  }

  /** Cancelling a positive factor on both sides of a strict inequality. */
  lemma ScaleLess(w: int, a: int, b: int)
    requires w > 0 && w * a < w * b
    ensures a < b
  {
  }

  /** The nearest-integer characterisation pins the rounded value down. */
  lemma RoundPercentUnique(part: int, whole: int, q: int)
    requires whole > 0
    requires 2 * whole * q <= 200 * part + whole < 2 * whole * q + 2 * whole
    ensures q == RoundPercent(part, whole)
  {
    var p := RoundPercent(part, whole);
    var w := 2 * whole;
    assert w * q < w * (p + 1);
    assert w * p < w * (q + 1);
    ScaleLess(w, q, p + 1);
    ScaleLess(w, p, q + 1);
  }

  /** The `progressPercentage` virtual: 0 without a positive goal, otherwise
      the raised share of the goal in percent rounded to the nearest integer. */
  function ProgressPercentage(c: Campaign): (p: int)
    ensures c.goalAmount <= 0 ==> p == 0
    ensures c.goalAmount > 0 ==>
              2 * c.goalAmount * p <= 200 * c.currentAmount + c.goalAmount < 2 * c.goalAmount * (p + 1)
  {
    if c.goalAmount > 0 then RoundPercent(c.currentAmount, c.goalAmount) else 0
  }

  /** A valid campaign that has not reached its goal shows 0 to 100 percent;
      one that has reached it shows at least 100 (the value is not clamped). */
  lemma ProgressBounds(c: Campaign)
    requires Valid(c)
    ensures c.currentAmount <= c.goalAmount ==> 0 <= ProgressPercentage(c) <= 100
    ensures 0 < c.goalAmount <= c.currentAmount ==> ProgressPercentage(c) >= 100
  {
    var g := c.goalAmount;
    var p := ProgressPercentage(c);
    if g > 0 {
      var w := 2 * g;
      assert w * 0 < w * (p + 1);
      ScaleLess(w, 0, p + 1);
      assert w * p <= 200 * c.currentAmount + g < w * (p + 1);
      if c.currentAmount <= g {
        assert w * 101 == 202 * g;
        assert w * p < w * 101;
        ScaleLess(w, p, 101);
      }
      if c.currentAmount >= g {
        assert w * 100 == 200 * g;
        assert w * 100 < w * (p + 1);
        ScaleLess(w, 100, p + 1);
      }
    }
  }

  /** The `isActive` virtual at instant `now`. */
  predicate IsActive(c: Campaign, now: Instant)
  {
    c.status == Active && AtOrBefore(c.startDate, now) && AtOrBefore(now, c.endDate)
  }

  /** Only a campaign whose status is `active` and whose date range is not
      empty can be active, and then exactly at the instants of its range. */
  lemma IsActiveIff(c: Campaign, now: Instant)
    ensures IsActive(c, now) ==> c.status == Active && AtOrBefore(c.startDate, c.endDate)
    ensures c.status == Active ==>
              (IsActive(c, now) <==> Ordinal(c.startDate) <= Ordinal(now) <= Ordinal(c.endDate))
  {
  }
}

=== FILE: campaign_routes.dfy ===
/** The `/api/campaigns` routes: public listing and reading, and the
    association-side management of campaigns. */
module CampaignRoutes {
  import opened Base
  import opened Time
  import opened Sorting
  import opened DocumentStore
  import C = CampaignModel
  import D = DonationModel
  import A = AssociationModel
  import Categories
  import Access
  import Counters
  import Text
  import Upload

  /** The query-string filters of the listing; an empty value is no filter.
      `association` is the id to match, when one is given. */
  datatype CampaignQuery = CampaignQuery(
    category: Option<string>,
    status: Option<string>,
    isUrgent: Option<string>,
    association: Option<Id>,
    search: Option<string>)

  /** The filters combine by conjunction. `isUrgent` selects urgent campaigns
      for the value `true` and non-urgent ones for any other non-empty value.
      `found(text, pattern)` is the case-insensitive pattern match of the
      search, tried on the title and on the description. */
  predicate QueryMatches(q: CampaignQuery, found: (string, string) -> bool, x: C.Campaign)
  {
    (!Given(q.category) || Categories.Name(x.category) == q.category.value)
    && (!Given(q.status) || C.StatusName(x.status) == q.status.value)
    && (!Given(q.isUrgent) || x.isUrgent == (q.isUrgent.value == "true"))
    && (q.association.None? || x.association == q.association.value)
    && (!Given(q.search) || found(x.title, q.search.value) || found(x.description, q.search.value))
  }

  /** The sort key of `.sort('-createdAt')`. */
  function CreatedKey(x: C.Campaign): int
  {
    Ordinal(x.createdAt)
  }

  /** `GET /api/campaigns`: every stored campaign matching the query, newest first. */
  function List(s: Store, q: CampaignQuery, found: (string, string) -> bool): (r: seq<C.Campaign>)
    ensures NonIncreasing(r, CreatedKey)
    ensures forall x :: x in r <==> (exists k :: k in s.campaigns && s.campaigns[k] == x) && QueryMatches(q, found, x)
    ensures forall x :: multiset(r)[x] == if QueryMatches(q, found, x) then |Holders(s.campaigns, x)| else 0
  {
    Newest(s.campaigns, (x: C.Campaign) => QueryMatches(q, found, x), CreatedKey)
  }

  /** Any `isUrgent` value other than `true`, such as `yes` or `1`, lists
      only the campaigns that are not urgent. */
  lemma UrgentFilterIsLiteral(s: Store, found: (string, string) -> bool, x: C.Campaign)
    requires x in List(s, CampaignQuery(None, None, Some("yes"), None, None), found)
    ensures !x.isUrgent
  {
  }

  /** The fields of a `POST /api/campaigns` body; a missing field is `None`.
      `association` is read only from an admin. */
  datatype CampaignBody = CampaignBody(
    title: Option<string>,
    description: Option<string>,
    category: Option<string>,
    goalAmount: Option<int>,
    startDate: Option<Instant>,
    endDate: Option<Instant>,
    isUrgent: Option<bool>,
    association: Option<Id>)

  /** The association a new campaign is filed under: the caller's own, unless
      the caller is an admin and the body names one. */
  function Owner(c: Caller, b: CampaignBody): (a: Option<Id>)
    ensures c.role == AdminRole && b.association.Some? ==> a == b.association
    ensures c.role != AdminRole || b.association.None? ==> a == c.associationId
    ensures a.Some? <==> c.associationId.Some? || (c.role == AdminRole && b.association.Some?)
  {
    if c.role == AdminRole && b.association.Some? then b.association else c.associationId
  }

  /** What `Campaign.create` accepts: the required fields present, the
      strings non-empty, a known category and a goal of at least 0. */
  predicate CreateAcceptable(b: CampaignBody)
  {
    Given(b.title) && Given(b.description)
    && b.category.Some? && Categories.Parse(b.category.value).Some?
    && b.goalAmount.Some? && b.goalAmount.value >= 0
    && b.startDate.Some? && b.endDate.Some?
  }

  /** The associations after `$inc: { totalCampaigns: 1 }` on `aid`, which
      changes nothing when `aid` is gone. */
  function CountCampaign(m: map<Id, A.Association>, aid: Id): (r: map<Id, A.Association>)
    ensures r.Keys == m.Keys
    ensures aid in m ==> r[aid].totalCampaigns == m[aid].totalCampaigns + 1
    ensures aid in m ==> r[aid].(totalCampaigns := m[aid].totalCampaigns) == m[aid]
    ensures forall k :: k in m && k != aid ==> r[k] == m[k]
  {
    if aid in m then m[aid := m[aid].(totalCampaigns := m[aid].totalCampaigns + 1)] else m
  }

  /** `POST /api/campaigns`: an association files a draft campaign under its
      own association (an admin under any it names) and bumps that
      association's campaign count. Whether the association exists is not
      checked. */
  function Create(s: Store, c: Caller, b: CampaignBody, now: Instant): (r: Response)
    ensures r.status == Forbidden <==> !Authorized(c, Access.AssociationOrAdmin)
    ensures r.status == BadRequest <==> Authorized(c, Access.AssociationOrAdmin) && Owner(c, b).None?
    ensures r.status == ValidationError <==>
              Authorized(c, Access.AssociationOrAdmin) && Owner(c, b).Some? && !CreateAcceptable(b)
    ensures r.status in {Ok, Forbidden, BadRequest, ValidationError}
    ensures r.status != Ok ==> r.store == s
    ensures r.status == Ok ==> FreshId(s.campaigns.Keys) in r.store.campaigns
    ensures r.status == Ok ==>
              var k := FreshId(s.campaigns.Keys);
              var x := r.store.campaigns[k];
              var aid := Owner(c, b).value;
              && r.store.campaigns == s.campaigns[k := x]
              && x.association == aid && x.title == b.title.value && x.description == b.description.value
              && Categories.Name(x.category) == b.category.value && x.goalAmount == b.goalAmount.value
              && x.startDate == b.startDate.value && x.endDate == b.endDate.value
              && x.status == C.Draft && x.currentAmount == 0 && x.donationsCount == 0
              && x.createdAt == now && C.Valid(x)
              && r.store.associations == CountCampaign(s.associations, aid)
              && r.store.users == s.users && r.store.donations == s.donations && r.store.requests == s.requests
  {
    if !Authorized(c, Access.AssociationOrAdmin) then Response(Forbidden, s)
    else if Owner(c, b).None? then Response(BadRequest, s)
    else if !CreateAcceptable(b) then Response(ValidationError, s)
    else
      var aid := Owner(c, b).value;
      var category := Categories.Parse(b.category.value).value;
      Categories.ParseIff(b.category.value, category);
      var x := C.New(b.title.value, b.description.value, aid, category, b.goalAmount.value,
                     b.startDate.value, b.endDate.value, b.isUrgent, now);
      Response(Ok, s.(campaigns := s.campaigns[FreshId(s.campaigns.Keys) := x],
                      associations := CountCampaign(s.associations, aid)))
  }

  /** A successful create adds exactly one to the owning association's
      campaign count and to no other association's, and adds exactly one
      campaign owned by it. */
  lemma CreateCountsOneCampaign(s: Store, c: Caller, b: CampaignBody, now: Instant, aid: Id)
    requires Create(s, c, b, now).status == Ok && aid in s.associations
    ensures var r := Create(s, c, b, now);
            && r.store.associations[aid].totalCampaigns
               == s.associations[aid].totalCampaigns + (if aid == Owner(c, b).value then 1 else 0)
            && Counters.Owned(Values(r.store.campaigns), aid)
               == Counters.Owned(Values(s.campaigns), aid) + (if aid == Owner(c, b).value then 1 else 0)
  {
    var r := Create(s, c, b, now);
    var k := FreshId(s.campaigns.Keys);
    Counters.OwnedAfterInsert(s.campaigns, r.store.campaigns[k], aid);
  }

  /** Creating a campaign keeps every running counter equal to what it
      stands for, provided no donation already refers to the new id (the
      database never reissues an id). */
  lemma CreatePreservesCounters(s: Store, c: Caller, b: CampaignBody, now: Instant)
    requires Counters.Consistent(s)
    requires forall k :: k in s.donations ==> s.donations[k].campaign != FreshId(s.campaigns.Keys)
    ensures Counters.Consistent(Create(s, c, b, now).store)
  {
    if Create(s, c, b, now).status == Ok {
      CreateKeepsCampaignCounters(s, c, b, now);
      CreateKeepsAssociationCounters(s, c, b, now);
    }
  }

  lemma CreateKeepsCampaignCounters(s: Store, c: Caller, b: CampaignBody, now: Instant)
    requires Counters.CampaignCounters(s) && Create(s, c, b, now).status == Ok
    requires forall k :: k in s.donations ==> s.donations[k].campaign != FreshId(s.campaigns.Keys)
    ensures Counters.CampaignCounters(Create(s, c, b, now).store)
  {
    var r := Create(s, c, b, now);
    var k := FreshId(s.campaigns.Keys);
    forall cid | cid in r.store.campaigns
      ensures r.store.campaigns[cid].currentAmount == Counters.Raised(r.store, Counters.ForCampaign(cid))
      ensures r.store.campaigns[cid].donationsCount == Counters.Count(r.store, Counters.ForCampaign(cid))
    {
      if cid == k {
        NewCampaignUncounted(s, k);
      } else {
        assert cid in s.campaigns;
      }
    }
  }

  /** No stored donation refers to `k`, so nothing is counted for it. */
  lemma NewCampaignUncounted(s: Store, k: Id)
    requires forall j :: j in s.donations ==> s.donations[j].campaign != k
    ensures Counters.Raised(s, Counters.ForCampaign(k)) == 0 && Counters.Count(s, Counters.ForCampaign(k)) == 0
  {
    var ds := Values(s.donations);
    forall i | 0 <= i < |ds|
      ensures !D.Selects(Counters.ForCampaign(k), ds[i])
    {
      assert ds[i] == s.donations[Ids(s.donations.Keys)[i]];
    }
    Counters.NothingSelected(ds, Counters.ForCampaign(k));
  }

  lemma CreateKeepsAssociationCounters(s: Store, c: Caller, b: CampaignBody, now: Instant)
    requires Counters.AssociationCounters(s) && Create(s, c, b, now).status == Ok
    ensures Counters.AssociationCounters(Create(s, c, b, now).store)
  {
    var r := Create(s, c, b, now);
    forall aid | aid in r.store.associations
      ensures r.store.associations[aid].totalDonations == Counters.Raised(r.store, Counters.ForAssociation(aid))
      ensures r.store.associations[aid].totalCampaigns == Counters.Owned(Values(r.store.campaigns), aid)
    {
      CreateCountsOneCampaign(s, c, b, now, aid);
    }
  }

  /** The fields a `PUT /api/campaigns/:id` body may set; a missing field is
      left as it is. The body goes to the database as given. */
  datatype CampaignPatch = CampaignPatch(
    title: Option<string>,
    description: Option<string>,
    association: Option<Id>,
    category: Option<string>,
    goalAmount: Option<int>,
    currentAmount: Option<int>,
    currency: Option<string>,
    startDate: Option<Instant>,
    endDate: Option<Instant>,
    status: Option<string>,
    isUrgent: Option<bool>,
    beneficiariesCount: Option<int>,
    donationsCount: Option<int>)

  /** The update validators (`runValidators`) on the paths the patch sets. */
  predicate PatchAcceptable(p: CampaignPatch)
  {
    (p.title.None? || p.title.value != "") && (p.description.None? || p.description.value != "")
    && (p.category.None? || Categories.Parse(p.category.value).Some?)
    && (p.goalAmount.None? || p.goalAmount.value >= 0)
    && (p.currentAmount.None? || p.currentAmount.value >= 0)
    && (p.status.None? || C.ParseStatus(p.status.value).Some?)
  }

  /** The campaign with every field the patch sets replaced. */
  function Patched(x: C.Campaign, p: CampaignPatch): (y: C.Campaign)
    requires PatchAcceptable(p)
    ensures y.title == Or(p.title, x.title) && y.description == Or(p.description, x.description)
    ensures y.association == Or(p.association, x.association)
    ensures p.category.Some? ==> Categories.Name(y.category) == p.category.value
    ensures p.category.None? ==> y.category == x.category
    ensures y.goalAmount == Or(p.goalAmount, x.goalAmount)
    ensures y.currentAmount == Or(p.currentAmount, x.currentAmount)
    ensures y.currency == Or(p.currency, x.currency)
    ensures y.startDate == Or(p.startDate, x.startDate) && y.endDate == Or(p.endDate, x.endDate)
    ensures p.status.Some? ==> C.StatusName(y.status) == p.status.value
    ensures p.status.None? ==> y.status == x.status
    ensures y.isUrgent == Or(p.isUrgent, x.isUrgent)
    ensures y.beneficiariesCount == Or(p.beneficiariesCount, x.beneficiariesCount)
    ensures y.donationsCount == Or(p.donationsCount, x.donationsCount)
    ensures y.images == x.images && y.updates == x.updates && y.createdAt == x.createdAt
    ensures C.Valid(x) ==> C.Valid(y)
  {
    var category := if p.category.Some? then Categories.Parse(p.category.value).value else x.category;
    var status := if p.status.Some? then C.ParseStatus(p.status.value).value else x.status;
    x.(title := Or(p.title, x.title), description := Or(p.description, x.description),
       association := Or(p.association, x.association), category := category,
       goalAmount := Or(p.goalAmount, x.goalAmount), currentAmount := Or(p.currentAmount, x.currentAmount),
       currency := Or(p.currency, x.currency), startDate := Or(p.startDate, x.startDate),
       endDate := Or(p.endDate, x.endDate), status := status, isUrgent := Or(p.isUrgent, x.isUrgent),
       beneficiariesCount := Or(p.beneficiariesCount, x.beneficiariesCount),
       donationsCount := Or(p.donationsCount, x.donationsCount))
  }

  /** `PUT /api/campaigns/:id`: the owning association or an admin writes the
      body onto the campaign. */
  function Update(s: Store, c: Caller, id: Id, p: CampaignPatch): (r: Response)
    ensures r.status == Forbidden <==>
              !Authorized(c, Access.AssociationOrAdmin)
              || (id in s.campaigns && !Access.CanManageCampaign(c, s.campaigns[id]))
    ensures r.status == NotFound <==> Authorized(c, Access.AssociationOrAdmin) && id !in s.campaigns
    ensures r.status == ValidationError <==>
              Authorized(c, Access.AssociationOrAdmin) && id in s.campaigns
              && Access.CanManageCampaign(c, s.campaigns[id]) && !PatchAcceptable(p)
    ensures r.status in {Ok, Forbidden, NotFound, ValidationError}
    ensures r.status != Ok ==> r.store == s
    ensures r.status == Ok ==> r.store == s.(campaigns := s.campaigns[id := Patched(s.campaigns[id], p)])
  {
    if !Authorized(c, Access.AssociationOrAdmin) then Response(Forbidden, s)
    else if id !in s.campaigns then Response(NotFound, s)
    else if !Access.CanManageCampaign(c, s.campaigns[id]) then Response(Forbidden, s)
    else if !PatchAcceptable(p) then Response(ValidationError, s)
    else Response(Ok, s.(campaigns := s.campaigns[id := Patched(s.campaigns[id], p)]))
  }

  /** Nothing protects the counters or the owner: the owning association can
      set the raised amount to any non-negative value and hand the campaign
      to another association, and then no longer manage it itself. */
  lemma UpdateRewritesCountersAndOwner(s: Store, c: Caller, id: Id, amount: nat, other: Id)
    requires c.role == AssociationRole && id in s.campaigns && Access.CanManageCampaign(c, s.campaigns[id])
    requires Some(other) != c.associationId
    ensures var p := CampaignPatch(None, None, Some(other), None, None, Some(amount), None, None, None, None,
                                   None, None, None);
            var r := Update(s, c, id, p);
            && r.status == Ok && r.store.campaigns[id].currentAmount == amount
            && r.store.campaigns[id].association == other
            && !Access.CanManageCampaign(c, r.store.campaigns[id])
            && r.store.donations == s.donations
  {
  }

  /** `POST /api/campaigns/:id/images`: the uploaded images' URLs are
      appended, in upload order, to any campaign; an unknown id changes
      nothing and still succeeds. */
  function AddImages(s: Store, c: Caller, id: Id, files: seq<Upload.StoredFile>): (r: Response)
    ensures r.status == Forbidden <==> !Authorized(c, Access.AssociationOrAdmin)
    ensures r.status == BadRequest <==> Authorized(c, Access.AssociationOrAdmin) && files == []
    ensures r.status in {Ok, Forbidden, BadRequest}
    ensures r.status != Ok || id !in s.campaigns ==> r.store == s
    ensures r.status == Ok && id in s.campaigns ==> id in r.store.campaigns
    ensures r.status == Ok && id in s.campaigns ==>
              r.store == s.(campaigns := s.campaigns[id := r.store.campaigns[id]])
              && r.store.campaigns[id] == s.campaigns[id].(images := r.store.campaigns[id].images)
    ensures r.status == Ok && id in s.campaigns ==>
              var before := s.campaigns[id].images;
              var after := r.store.campaigns[id].images;
              && |after| == |before| + |files| && after[..|before|] == before
              && forall i :: 0 <= i < |files| ==> after[|before| + i] == "/uploads/campaigns/" + files[i].filename
  {
    if !Authorized(c, Access.AssociationOrAdmin) then Response(Forbidden, s)
    else if files == [] then Response(BadRequest, s)
    else if id !in s.campaigns then Response(Ok, s)
    else
      var urls := seq(|files|, i requires 0 <= i < |files| => "/uploads/campaigns/" + files[i].filename);
      var x := s.campaigns[id];
      Response(Ok, s.(campaigns := s.campaigns[id := x.(images := x.images + urls)]))
  }

  /** The campaign-image route has no ownership check: any association adds
      images to another association's campaign. */
  lemma AnyAssociationAddsImages(s: Store, c: Caller, id: Id, files: seq<Upload.StoredFile>)
    requires c.role == AssociationRole && id in s.campaigns && files != []
    requires !Access.CanManageCampaign(c, s.campaigns[id])
    ensures AddImages(s, c, id, files).status == Ok
    ensures |AddImages(s, c, id, files).store.campaigns[id].images| == |s.campaigns[id].images| + |files|
  {
  }

  /** An image the upload gate stores for the `images` field lands in the
      directory its URL `/uploads/campaigns/<filename>` names, under a name
      beginning with the field. */
  lemma StoredImageUrl(f: Upload.StoredFile, suffix: string, g: Upload.Incoming)
    requires f == Upload.Store("images", suffix, g)
    ensures f.destination == "uploads/campaigns/"
    ensures Text.StartsWith(f.filename, "images-")
  {
  }

  /** `POST /api/campaigns/:id/updates`: an entry with the given title and
      content, dated now, is appended to the campaign's log. */
  function AddUpdate(s: Store, c: Caller, id: Id, title: Option<string>, content: Option<string>, now: Instant): (r: Response)
    ensures r.status == Forbidden <==> !Authorized(c, Access.AssociationOrAdmin)
    ensures r.status == NotFound <==> Authorized(c, Access.AssociationOrAdmin) && id !in s.campaigns
    ensures r.status in {Ok, Forbidden, NotFound}
    ensures r.status != Ok ==> r.store == s
    ensures r.status == Ok ==> id in s.campaigns && id in r.store.campaigns
    ensures r.status == Ok ==>
              && r.store == s.(campaigns := s.campaigns[id := r.store.campaigns[id]])
              && r.store.campaigns[id].updates == s.campaigns[id].updates + [C.CampaignUpdate(title, content, now)]
              && r.store.campaigns[id].(updates := s.campaigns[id].updates) == s.campaigns[id]
  {
    if !Authorized(c, Access.AssociationOrAdmin) then Response(Forbidden, s)
    else if id !in s.campaigns then Response(NotFound, s)
    else
      var x := s.campaigns[id];
      Response(Ok, s.(campaigns := s.campaigns[id := x.(updates := x.updates + [C.CampaignUpdate(title, content, now)])]))
  }

  /** Posting an update has no ownership check either. */
  lemma AnyAssociationPostsUpdates(s: Store, c: Caller, id: Id, title: Option<string>, content: Option<string>, now: Instant)
    requires c.role == AssociationRole && id in s.campaigns
    requires !Access.CanManageCampaign(c, s.campaigns[id])
    ensures AddUpdate(s, c, id, title, content, now).status == Ok
  {
  }

  /** `DELETE /api/campaigns/:id`: the owning association or an admin removes
      the campaign. Its donations stay, and no counter moves. */
  function Delete(s: Store, c: Caller, id: Id): (r: Response)
    ensures r.status == Forbidden <==>
              !Authorized(c, Access.AssociationOrAdmin)
              || (id in s.campaigns && !Access.CanManageCampaign(c, s.campaigns[id]))
    ensures r.status == NotFound <==> Authorized(c, Access.AssociationOrAdmin) && id !in s.campaigns
    ensures r.status in {Ok, Forbidden, NotFound}
    ensures r.status != Ok ==> r.store == s
    ensures r.status == Ok ==> r.store == s.(campaigns := s.campaigns - {id}) && id !in r.store.campaigns
  {
    if !Authorized(c, Access.AssociationOrAdmin) then Response(Forbidden, s)
    else if id !in s.campaigns then Response(NotFound, s)
    else if !Access.CanManageCampaign(c, s.campaigns[id]) then Response(Forbidden, s)
    else Response(Ok, s.(campaigns := s.campaigns - {id}))
  }

  /** After a delete, every other campaign's counters still hold, but the
      owning association's campaign count is one more than the campaigns it
      still owns, and the deleted campaign's donations are still stored. */
  lemma DeleteLeavesCampaignCount(s: Store, c: Caller, id: Id)
    requires Counters.Consistent(s) && Delete(s, c, id).status == Ok
    ensures var r := Delete(s, c, id);
            var owner := s.campaigns[id].association;
            && Counters.CampaignCounters(r.store)
            && (forall aid :: aid in r.store.associations ==>
                  r.store.associations[aid].totalDonations == Counters.Raised(r.store, Counters.ForAssociation(aid)))
            && (forall aid :: aid in r.store.associations && aid != owner ==>
                  r.store.associations[aid].totalCampaigns == Counters.Owned(Values(r.store.campaigns), aid))
            && (owner in r.store.associations ==>
                  r.store.associations[owner].totalCampaigns == Counters.Owned(Values(r.store.campaigns), owner) + 1)
            && Counters.Count(r.store, Counters.ForCampaign(id)) == Counters.Count(s, Counters.ForCampaign(id))
  {
    var r := Delete(s, c, id);
    forall aid | aid in r.store.associations
      ensures Counters.Owned(Values(s.campaigns), aid)
              == Counters.Owned(Values(r.store.campaigns), aid) + (if aid == s.campaigns[id].association then 1 else 0)
    {
      Counters.OwnedAfterRemove(s.campaigns, id, aid);
    }
  }

  /** Creating a campaign keeps every schema constraint and unique index. */
  lemma CreatePreservesValid(s: Store, c: Caller, b: CampaignBody, now: Instant)
    requires Valid(s)
    ensures Valid(Create(s, c, b, now).store)
  {
    if Create(s, c, b, now).status == Ok {
      CountCampaignKeepsValid(s.associations, Owner(c, b).value);
    }
  }

  /** Bumping a campaign count touches no validated or indexed field. */
  lemma CountCampaignKeepsValid(m: map<Id, A.Association>, aid: Id)
    requires ValidAssociations(m)
    ensures ValidAssociations(CountCampaign(m, aid))
  {
    var m' := CountCampaign(m, aid);
    forall i, j | i in m' && j in m' && i != j
      ensures !A.Collide(m'[i], m'[j])
    {
      assert !A.Collide(m[i], m[j]);
    }
  }

  /** The other campaign routes keep every schema constraint and unique index. */
  lemma UpdateKeepsValid(s: Store, c: Caller, id: Id, p: CampaignPatch)
    requires Valid(s)
    ensures Valid(Update(s, c, id, p).store)
  {
  }

  lemma AddImagesKeepsValid(s: Store, c: Caller, id: Id, files: seq<Upload.StoredFile>)
    requires Valid(s)
    ensures Valid(AddImages(s, c, id, files).store)
  {
  }

  lemma AddUpdateKeepsValid(s: Store, c: Caller, id: Id, title: Option<string>, content: Option<string>, now: Instant)
    requires Valid(s)
    ensures Valid(AddUpdate(s, c, id, title, content, now).store)
  {
  }

  lemma DeleteKeepsValid(s: Store, c: Caller, id: Id)
    requires Valid(s)
    ensures Valid(Delete(s, c, id).store)
  {
  }
}

=== FILE: counters.dfy ===
/** The running totals the handlers keep by `$inc` instead of computing them:
    a campaign's `currentAmount` and `donationsCount`, an association's
    `totalDonations` and `totalCampaigns`. `Consistent` says each equals the
    sum or count it stands for; the route modules prove which handlers keep
    it. Every donation counts, whatever its payment status, because no
    handler ever decrements a counter. */
module Counters {
  import opened Base
  import opened DocumentStore
  import C = CampaignModel
  import D = DonationModel

  function ForCampaign(cid: Id): (f: D.Filter)
    ensures forall d: D.Donation :: D.Selects(f, d) <==> d.campaign == cid
  {
    D.Everything.(campaign := Is(cid))
  }

  function ForAssociation(aid: Id): (f: D.Filter)
    ensures forall d: D.Donation :: D.Selects(f, d) <==> d.association == aid
  {
    D.Everything.(association := Is(Some(aid)))
  }

  /** The number of campaigns in `cs` owned by `aid`. */
  function Owned(cs: seq<C.Campaign>, aid: Id): (n: nat)
    ensures n <= |cs|
  {
    if cs == [] then 0
    else Owned(cs[..|cs| - 1], aid) + (if cs[|cs| - 1].association == aid then 1 else 0)
  }

  function Raised(s: Store, f: D.Filter): int
  {
    D.Total(D.Select(Values(s.donations), f))
  }

  function Count(s: Store, f: D.Filter): nat
  {
    |D.Select(Values(s.donations), f)|
  }

  predicate CampaignCounters(s: Store)
  {
    forall cid :: cid in s.campaigns ==>
      s.campaigns[cid].currentAmount == Raised(s, ForCampaign(cid))
      && s.campaigns[cid].donationsCount == Count(s, ForCampaign(cid))
  }

  predicate AssociationCounters(s: Store)
  {
    forall aid :: aid in s.associations ==>
      s.associations[aid].totalDonations == Raised(s, ForAssociation(aid))
      && s.associations[aid].totalCampaigns == Owned(Values(s.campaigns), aid)
  }

  predicate Consistent(s: Store)
  {
    CampaignCounters(s) && AssociationCounters(s)
  }

  lemma {:induction false} OwnedAppend(a: seq<C.Campaign>, b: seq<C.Campaign>, aid: Id)
    ensures Owned(a + b, aid) == Owned(a, aid) + Owned(b, aid)
  {
    if b != [] {
      assert (a + b)[..|a + b| - 1] == a + b[..|b| - 1];
      OwnedAppend(a, b[..|b| - 1], aid);
    } else {
      assert a + b == a;
    }
  }

  /** Counting depends only on each campaign's owner. */
  lemma {:induction false} OwnedSameOwners(a: seq<C.Campaign>, b: seq<C.Campaign>, aid: Id)
    requires |a| == |b|
    requires forall i :: 0 <= i < |a| ==> a[i].association == b[i].association
    ensures Owned(a, aid) == Owned(b, aid)
  {
    if a != [] {
      OwnedSameOwners(a[..|a| - 1], b[..|b| - 1], aid);
    }
  }

  /** Rewriting a campaign in place without changing its owner changes no
      association's campaign count. */
  lemma OwnedAfterRewrite(m: map<Id, C.Campaign>, k: Id, v: C.Campaign, aid: Id)
    requires k in m && v.association == m[k].association
    ensures Owned(Values(m[k := v]), aid) == Owned(Values(m), aid)
  {
    ValuesReplace(m, k, v);
    var a := Values(m[k := v]);
    var b := Values(m);
    forall i | 0 <= i < |a|
      ensures a[i].association == b[i].association
    {
      assert a[i] == (if Ids(m.Keys)[i] == k then v else b[i]);
      assert b[i] == m[Ids(m.Keys)[i]];
    }
    OwnedSameOwners(a, b, aid);
  }

  /** Rewriting a donation in place without changing its ledger facts changes
      no sum or count. */
  lemma LedgerAfterRewrite(m: map<Id, D.Donation>, k: Id, v: D.Donation, f: D.Filter)
    requires k in m && D.SameLedgerEntry(v, m[k])
    requires D.Selects(f, v) <==> D.Selects(f, m[k])
    ensures D.Total(D.Select(Values(m[k := v]), f)) == D.Total(D.Select(Values(m), f))
    ensures |D.Select(Values(m[k := v]), f)| == |D.Select(Values(m), f)|
  {
    ValuesReplace(m, k, v);
    var a := Values(m[k := v]);
    var b := Values(m);
    forall i | 0 <= i < |a|
      ensures D.SameLedgerEntry(a[i], b[i]) && (D.Selects(f, a[i]) <==> D.Selects(f, b[i]))
    {
    }
    D.SelectSameLedger(a, b, f);
  }

  /** Inserting a donation under a fresh id adds it to every sum and count
      whose filter selects it, and to no other. */
  lemma LedgerAfterInsert(m: map<Id, D.Donation>, d: D.Donation, f: D.Filter)
    ensures D.Total(D.Select(Values(m[FreshId(m.Keys) := d]), f))
            == D.Total(D.Select(Values(m), f)) + (if D.Selects(f, d) then d.amount else 0)
    ensures |D.Select(Values(m[FreshId(m.Keys) := d]), f)|
            == |D.Select(Values(m), f)| + (if D.Selects(f, d) then 1 else 0)
  {
    ValuesAddFresh(m, d);
    LedgerAfterAppend(Values(m), d, f);
  }

  /** Appending one donation to a listing adds it to the sum and the count
      of a selection exactly when the filter selects it. */
  lemma LedgerAfterAppend(ds: seq<D.Donation>, d: D.Donation, f: D.Filter)
    ensures D.Total(D.Select(ds + [d], f)) == D.Total(D.Select(ds, f)) + (if D.Selects(f, d) then d.amount else 0)
    ensures |D.Select(ds + [d], f)| == |D.Select(ds, f)| + (if D.Selects(f, d) then 1 else 0)
  {
    SelectAfterAppend(ds, d, f);
    D.TotalAppend(D.Select(ds, f), if D.Selects(f, d) then [d] else []);
  }

  /** Appending one donation to a listing appends it to the selection
      exactly when the filter selects it. */
  lemma SelectAfterAppend(ds: seq<D.Donation>, d: D.Donation, f: D.Filter)
    ensures D.Select(ds + [d], f) == D.Select(ds, f) + (if D.Selects(f, d) then [d] else [])
  {
    assert (ds + [d])[..|ds|] == ds;
  }

  /** The ids of the campaigns of `m` owned by `aid`. */
  function OwnerIds(m: map<Id, C.Campaign>, aid: Id): set<Id>
  {
    set k | k in m && m[k].association == aid
  }

  /** The ids among `ids` whose campaign in `m` is owned by `aid`. */
  function OwnerIdsAmong(m: map<Id, C.Campaign>, ids: seq<Id>, aid: Id): set<Id>
  {
    set k | k in ids && k in m && m[k].association == aid
  }

  lemma OwnerIdsSnoc(m: map<Id, C.Campaign>, p: seq<Id>, last: Id, aid: Id)
    requires last in m && last !in p
    ensures |OwnerIdsAmong(m, p + [last], aid)|
            == |OwnerIdsAmong(m, p, aid)| + (if m[last].association == aid then 1 else 0)
  {
    var sp := OwnerIdsAmong(m, p, aid);
    var sv := OwnerIdsAmong(m, p + [last], aid);
    var extra: set<Id> := if m[last].association == aid then {last} else {};
    forall k
      ensures k in sv <==> k in sp + extra
    {
      assert k in p + [last] <==> k in p || k == last;
    }
    assert sv == sp + extra;
    assert last !in sp;
  }

  lemma {:induction false} OwnedListing(m: map<Id, C.Campaign>, ids: seq<Id>, aid: Id)
    requires forall i :: 0 <= i < |ids| ==> ids[i] in m
    requires forall i, j :: 0 <= i < j < |ids| ==> ids[i] < ids[j]
    ensures Owned(seq(|ids|, i requires 0 <= i < |ids| => m[ids[i]]), aid) == |OwnerIdsAmong(m, ids, aid)|
  {
    if ids != [] {
      var n := |ids| - 1;
      var p := ids[..n];
      var last := ids[n];
      var vs := seq(|ids|, i requires 0 <= i < |ids| => m[ids[i]]);
      var ps := seq(|p|, i requires 0 <= i < |p| => m[p[i]]);
      assert vs[..n] == ps;
      assert vs[n] == m[last];
      OwnedListing(m, p, aid);
      assert ids == p + [last];
      OwnerIdsSnoc(m, p, last, aid);
    }
  }

  /** The campaign count of `aid` is the number of campaigns it owns,
      whatever order they are listed in. */
  lemma OwnedCount(m: map<Id, C.Campaign>, aid: Id)
    ensures Owned(Values(m), aid) == |OwnerIds(m, aid)|
  {
    var ids := Ids(m.Keys);
    OwnedListing(m, ids, aid);
    assert Values(m) == seq(|ids|, i requires 0 <= i < |ids| => m[ids[i]]);
    ListedOwners(m, aid);
  }

  lemma ListedOwners(m: map<Id, C.Campaign>, aid: Id)
    ensures OwnerIdsAmong(m, Ids(m.Keys), aid) == OwnerIds(m, aid)
  {
    var ids := Ids(m.Keys);
    forall k | k in OwnerIds(m, aid)
      ensures k in OwnerIdsAmong(m, ids, aid)
    {
      assert k in m.Keys;
    }
  }

  /** Removing a campaign lowers its owner's count by one and no other. */
  lemma OwnedAfterRemove(m: map<Id, C.Campaign>, k: Id, aid: Id)
    requires k in m
    ensures Owned(Values(m), aid) == Owned(Values(m - {k}), aid) + (if m[k].association == aid then 1 else 0)
  {
    OwnedCount(m, aid);
    OwnedCount(m - {k}, aid);
    OwnerIdsRemove(m, k, aid);
  }

  lemma OwnerIdsRemove(m: map<Id, C.Campaign>, k: Id, aid: Id)
    requires k in m
    ensures |OwnerIds(m, aid)| == |OwnerIds(m - {k}, aid)| + (if m[k].association == aid then 1 else 0)
  {
    var rest := OwnerIds(m - {k}, aid);
    var extra: set<Id> := if m[k].association == aid then {k} else {};
    forall j
      ensures j in OwnerIds(m, aid) <==> j in rest + extra
    {
      if j != k && j in m {
        assert (m - {k})[j] == m[j];
      }
    }
    assert OwnerIds(m, aid) == rest + extra;
    assert k !in rest;
  }

  /** Inserting a campaign under a fresh id raises its owner's count by one
      and no other. */
  lemma OwnedAfterInsert(m: map<Id, C.Campaign>, v: C.Campaign, aid: Id)
    ensures Owned(Values(m[FreshId(m.Keys) := v]), aid) == Owned(Values(m), aid) + (if v.association == aid then 1 else 0)
  {
    ValuesAddFresh(m, v);
    OwnedAppend(Values(m), [v], aid);
    assert [v][..0] == [];
  }

  /** A filter that selects no stored donation sums to 0 over 0 entries. */
  lemma {:induction false} NothingSelected(ds: seq<D.Donation>, f: D.Filter)
    requires forall i :: 0 <= i < |ds| ==> !D.Selects(f, ds[i])
    ensures D.Select(ds, f) == [] && D.Total(D.Select(ds, f)) == 0
  {
    if ds != [] {
      NothingSelected(ds[..|ds| - 1], f);
    }
  }
}

=== FILE: document_store.dfy ===
/** The document store the handlers read and write: one id-keyed map per
    collection, the schema constraints over all of it, and the shape of a
    handler's answer. */
module DocumentStore {
  import opened Base
  import Sorting
  import C = CampaignModel
  import D = DonationModel
  import R = RequestModel
  import A = AssociationModel

  /** The user fields the handlers read or write. The user schema itself is
      not part of this model. */
  datatype User = User(
    firstName: Option<string>,
    lastName: Option<string>,
    email: string,
    phone: Option<string>,
    address: Option<string>,
    avatar: Option<string>,
    role: Role,
    associationId: Option<Id>)

  datatype Store = Store(
    users: map<Id, User>,
    associations: map<Id, A.Association>,
    campaigns: map<Id, C.Campaign>,
    donations: map<Id, D.Donation>,
    requests: map<Id, R.Request>)

  predicate ValidAssociations(m: map<Id, A.Association>)
  {
    (forall k :: k in m ==> A.Valid(m[k])) && A.Unique(m)
  }

  predicate ValidCampaigns(m: map<Id, C.Campaign>)
  {
    forall k :: k in m ==> C.Valid(m[k])
  }

  predicate ValidDonations(m: map<Id, D.Donation>)
  {
    (forall k :: k in m ==> D.Valid(m[k])) && D.UniqueTransactionIds(m)
  }

  predicate ValidRequests(m: map<Id, R.Request>)
  {
    forall k :: k in m ==> R.Valid(m[k])
  }

  /** Every stored document satisfies its schema and every unique index holds. */
  predicate Valid(s: Store)
  {
    ValidAssociations(s.associations) && ValidCampaigns(s.campaigns)
    && ValidDonations(s.donations) && ValidRequests(s.requests)
  }

  /** A mutating handler's answer: its status and the store afterwards. */
  datatype Response = Response(status: Status, store: Store)

  /** A reading handler's answer: its status and what it returns. */
  datatype Reply<T> = Reply(status: Status, value: T)

  /** The public GET-by-id routes (`/api/campaigns/:id`, `/api/associations/:id`,
      `/api/users/:id`): the document, or NotFound. */
  function Fetch<T>(m: map<Id, T>, id: Id): (r: Reply<Option<T>>)
    ensures r.status == Ok <==> id in m
    ensures r.status != Ok ==> r.status == NotFound && r.value.None?
    ensures r.status == Ok ==> r.value == Some(m[id])
  {
    if id in m then Reply(Ok, Some(m[id])) else Reply(NotFound, None)
  }

  /** The list routes' answer: the documents of a collection that pass the
      query, newest first, each once per id it is stored under. */
  function Newest<T(==,!new)>(m: map<Id, T>, p: T -> bool, key: T -> int): (r: seq<T>)
    ensures Sorting.NonIncreasing(r, key)
    ensures forall x :: x in r <==> (exists k :: k in m && m[k] == x) && p(x)
    ensures forall x :: multiset(r)[x] == if p(x) then |Holders(m, x)| else 0
  {
    var kept := Sorting.Keep(Values(m), p);
    var r := Sorting.SortDescending(kept, key);
    forall x ensures multiset(r)[x] == if p(x) then |Holders(m, x)| else 0 {
      Sorting.KeepMultiplicity(Values(m), p, x);
      ValuesMultiplicity(m, x);
    }
    forall x ensures x in r <==> x in kept {
      Sorting.SortedMembership(kept, key, x);
    }
    forall x ensures x in Values(m) <==> exists k :: k in m && m[k] == x {
      ValuesMembership(m, x);
    }
    r
  }

  /** The ids whose document meets `p`. */
  function Meeting<T>(m: map<Id, T>, p: T -> bool): set<Id>
  {
    set k | k in m && p(m[k])
  }

  /** The ids among `ids` whose document meets `p`. */
  function MeetingAmong<T>(m: map<Id, T>, ids: seq<Id>, p: T -> bool): set<Id>
  {
    set k | k in ids && k in m && p(m[k])
  }

  /** Counting over the documents listed under ascending ids counts the ids
      whose document meets the condition. */
  lemma {:induction false} CountListing<T>(m: map<Id, T>, ids: seq<Id>, p: T -> bool)
    requires forall i :: 0 <= i < |ids| ==> ids[i] in m
    requires forall i, j :: 0 <= i < j < |ids| ==> ids[i] < ids[j]
    ensures Sorting.Count(seq(|ids|, i requires 0 <= i < |ids| => m[ids[i]]), p) == |MeetingAmong(m, ids, p)|
  {
    if ids != [] {
      var n := |ids| - 1;
      var prefix := ids[..n];
      var last := ids[n];
      var vs := seq(|ids|, i requires 0 <= i < |ids| => m[ids[i]]);
      var ps := seq(|prefix|, i requires 0 <= i < |prefix| => m[prefix[i]]);
      assert vs[..n] == ps;
      assert vs[n] == m[last];
      CountListing(m, prefix, p);
      assert ids == prefix + [last];
      MeetingAmongSnoc(m, prefix, last, p);
      assert last !in prefix by {
        forall i | 0 <= i < |prefix|
          ensures prefix[i] != last
        {
          assert ids[i] < ids[n];
        }
      }
    }
  }

  /** Listing one more id adds that id to the ids meeting the condition
      exactly when its document meets it. */
  lemma MeetingAmongSnoc<T>(m: map<Id, T>, ids: seq<Id>, last: Id, p: T -> bool)
    requires last in m
    ensures MeetingAmong(m, ids + [last], p)
            == MeetingAmong(m, ids, p) + (if p(m[last]) then {last} else {})
  {
    var lhs := MeetingAmong(m, ids + [last], p);
    var rhs := MeetingAmong(m, ids, p) + (if p(m[last]) then {last} else {});
    forall k
      ensures k in lhs <==> k in rhs
    {
      assert k in ids + [last] <==> k in ids || k == last;
    }
  }

  /** A count over a collection's listing is the number of ids whose
      document meets the condition. */
  lemma CountValues<T>(m: map<Id, T>, p: T -> bool)
    ensures Sorting.Count(Values(m), p) == |Meeting(m, p)|
  {
    var ids := Ids(m.Keys);
    CountListing(m, ids, p);
    assert MeetingAmong(m, ids, p) == Meeting(m, p);
  }
}

=== FILE: donation_model.dfy ===
/** The donation schema, the `Donation.find` filters the handlers build, and
    sums and counts over a sequence of donations. */
module DonationModel {
  import opened Base
  import opened Time
  import Enums

  datatype PaymentMethod = CreditCard | Paypal | BankTransfer | Cash

  function MethodName(m: PaymentMethod): string
  {
    match m
    case CreditCard => "credit_card"
    case Paypal => "paypal"
    case BankTransfer => "bank_transfer"
    case Cash => "cash"
  }

  const AllMethods: seq<PaymentMethod> := [CreditCard, Paypal, BankTransfer, Cash]

  function ParseMethod(s: string): Option<PaymentMethod>
  {
    Enums.Parse(AllMethods, MethodName, s)
  }

  /** The `enum` validator of `paymentMethod` accepts exactly the four names. */
  lemma ParseMethodIff(s: string, m: PaymentMethod)
    ensures ParseMethod(s) == Some(m) <==> MethodName(m) == s
  {
    assert m in AllMethods;
    Enums.ParseIff(AllMethods, MethodName, s, m);
  }

  datatype PaymentStatus = Pending | Completed | Failed | Refunded

  function PaymentStatusName(p: PaymentStatus): string
  {
    match p
    case Pending => "pending"
    case Completed => "completed"
    case Failed => "failed"
    case Refunded => "refunded"
  }

  const AllPaymentStatuses: seq<PaymentStatus> := [Pending, Completed, Failed, Refunded]

  function ParsePaymentStatus(s: string): Option<PaymentStatus>
  {
    Enums.Parse(AllPaymentStatuses, PaymentStatusName, s)
  }

  /** The `enum` validator of `paymentStatus` accepts exactly the four names. */
  lemma ParsePaymentStatusIff(s: string, p: PaymentStatus)
    ensures ParsePaymentStatus(s) == Some(p) <==> PaymentStatusName(p) == s
  {
    assert p in AllPaymentStatuses;
    Enums.ParseIff(AllPaymentStatuses, PaymentStatusName, s, p);
  }

  datatype Donation = Donation(
    donor: Id,
    campaign: Id,
    association: Id,
    amount: int,
    currency: string,
    paymentMethod: PaymentMethod,
    paymentStatus: PaymentStatus,
    transactionId: Option<string>,
    message: Option<string>,
    isAnonymous: bool,
    donationDate: Instant)

  /** `amount` carries `min: 1`; the enums and required references are in the types. */
  predicate Valid(d: Donation)
  {
    d.amount >= 1
  }

  /** The sparse unique index on `transactionId`: two donations that both
      carry one carry different ones. */
  predicate UniqueTransactionIds(m: map<Id, Donation>)
  {
    forall i, j :: i in m && j in m && i != j && m[i].transactionId.Some? ==>
      m[i].transactionId != m[j].transactionId
  }

  predicate TransactionIdInUse(m: map<Id, Donation>, t: string)
  {
    exists k :: k in m && m[k].transactionId == Some(t)
  }

  /** A donation whose transaction id is not in use keeps the index unique,
      and an unchanged transaction id keeps it unique when a donation is
      rewritten in place. */
  lemma UniqueAfterWrite(m: map<Id, Donation>, k: Id, d: Donation)
    requires UniqueTransactionIds(m)
    requires d.transactionId.None? || !TransactionIdInUse(m - {k}, d.transactionId.value)
    ensures UniqueTransactionIds(m[k := d])
  {
    var m' := m[k := d];
    forall i, j | i in m' && j in m' && i != j && m'[i].transactionId.Some?
      ensures m'[i].transactionId != m'[j].transactionId
    {
      if i == k {
        assert j in m - {k};
      } else if j == k {
        assert i in m - {k};
      }
    }
  }

  /** A donation as `Donation.create` stores it, with the schema defaults
      for `currency` and `isAnonymous`. */
  function New(donor: Id, campaign: Id, association: Id, amount: int, paymentMethod: PaymentMethod,
               status: PaymentStatus, transactionId: Option<string>, message: Option<string>,
               isAnonymous: Option<bool>, now: Instant): (d: Donation)
    ensures d.donor == donor && d.campaign == campaign && d.association == association
    ensures d.amount == amount && d.paymentStatus == status && d.transactionId == transactionId
    ensures d.currency == "EUR"
    ensures d.isAnonymous <==> isAnonymous == Some(true)
    ensures amount >= 1 ==> Valid(d)
  {
    Donation(donor, campaign, association, amount, "EUR", paymentMethod, status, transactionId, message,
             if isAnonymous.Some? then isAnonymous.value else false, now)
  }

  /** The sort key of `.sort('-donationDate')`. */
  function DateKey(d: Donation): int
  {
    Ordinal(d.donationDate)
  }

  /** A `Donation.find` filter: each field is unconstrained or must equal the
      given value. The association is compared as an optional id, because a
      caller's `associationId` may be undefined, and then nothing matches. */
  datatype Filter = Filter(
    donor: Match<Id>,
    campaign: Match<Id>,
    association: Match<Option<Id>>,
    status: Match<PaymentStatus>,
    anonymous: Match<bool>)

  const Everything: Filter := Filter(Any, Any, Any, Any, Any)

  predicate Selects(f: Filter, d: Donation)
  {
    Matches(f.donor, d.donor)
    && Matches(f.campaign, d.campaign)
    && Matches(f.association, Some(d.association))
    && Matches(f.status, d.paymentStatus)
    && Matches(f.anonymous, d.isAnonymous)
  }

  /** The donations that satisfy the filter, in their original order. */
  function Select(ds: seq<Donation>, f: Filter): (r: seq<Donation>)
    ensures |r| <= |ds|
    ensures forall x :: x in r <==> x in ds && Selects(f, x)
  {
    if ds == [] then []
    else Select(ds[..|ds| - 1], f) + (if Selects(f, ds[|ds| - 1]) then [ds[|ds| - 1]] else [])
  }

  /** A selected donation keeps every copy of it; a rejected one none. */
  lemma {:induction false} SelectMultiplicity(ds: seq<Donation>, f: Filter, x: Donation)
    ensures multiset(Select(ds, f))[x] == if Selects(f, x) then multiset(ds)[x] else 0
  {
    if ds != [] {
      assert ds == ds[..|ds| - 1] + [ds[|ds| - 1]];
      SelectMultiplicity(ds[..|ds| - 1], f, x);
    }
  }

  /** Sum of `amount`, the `$sum: '$amount'` of an aggregation. */
  function Total(ds: seq<Donation>): int
  {
    if ds == [] then 0 else Total(ds[..|ds| - 1]) + ds[|ds| - 1].amount
  }

  lemma {:induction false} SelectAppend(a: seq<Donation>, b: seq<Donation>, f: Filter)
    ensures Select(a + b, f) == Select(a, f) + Select(b, f)
  {
    if b != [] {
      assert (a + b)[..|a + b| - 1] == a + b[..|b| - 1];
      SelectAppend(a, b[..|b| - 1], f);
    } else {
      assert a + b == a;
    }
  }

  lemma {:induction false} TotalAppend(a: seq<Donation>, b: seq<Donation>)
    ensures Total(a + b) == Total(a) + Total(b)
  {
    if b != [] {
      assert (a + b)[..|a + b| - 1] == a + b[..|b| - 1];
      TotalAppend(a, b[..|b| - 1]);
    } else {
      assert a + b == a;
    }
  }

  /** Valid donations have a positive total once there is one. */
  lemma {:induction false} TotalOfValid(ds: seq<Donation>)
    requires forall i :: 0 <= i < |ds| ==> Valid(ds[i])
    ensures Total(ds) >= |ds|
  {
    if ds != [] {
      TotalOfValid(ds[..|ds| - 1]);
    }
  }

  /** The facts about a donation that the running counters depend on. */
  predicate SameLedgerEntry(d: Donation, e: Donation)
  {
    d.donor == e.donor && d.campaign == e.campaign && d.association == e.association
    && d.amount == e.amount
  }

  /** Two position-wise matching sequences that agree on the ledger facts and
      on what the filter selects have the same selected count and total. */
  lemma {:induction false} SelectSameLedger(a: seq<Donation>, b: seq<Donation>, f: Filter)
    requires |a| == |b|
    requires forall i :: 0 <= i < |a| ==> SameLedgerEntry(a[i], b[i]) && (Selects(f, a[i]) <==> Selects(f, b[i]))
    ensures |Select(a, f)| == |Select(b, f)|
    ensures Total(Select(a, f)) == Total(Select(b, f))
  {
    if a != [] {
      var n := |a| - 1;
      SelectSameLedger(a[..n], b[..n], f);
      LastSelected(a, f);
      LastSelected(b, f);
    }
  }

  /** Selecting from a non-empty sequence: the selection of all but the last
      donation, then the last one when the filter selects it. */
  lemma LastSelected(a: seq<Donation>, f: Filter)
    requires a != []
    ensures |Select(a, f)| == |Select(a[..|a| - 1], f)| + (if Selects(f, a[|a| - 1]) then 1 else 0)
    ensures Total(Select(a, f)) == Total(Select(a[..|a| - 1], f)) + (if Selects(f, a[|a| - 1]) then a[|a| - 1].amount else 0)
  {
    var t := if Selects(f, a[|a| - 1]) then [a[|a| - 1]] else [];
    TotalAppend(Select(a[..|a| - 1], f), t);
    if t != [] {
      assert t[..0] == [];
    }
  }

  /** A narrower filter selects no more donations. */
  lemma {:induction false} SelectNarrowerCount(ds: seq<Donation>, f: Filter, g: Filter)
    requires forall d :: Selects(g, d) ==> Selects(f, d)
    ensures |Select(ds, g)| <= |Select(ds, f)|
  {
    if ds != [] {
      SelectNarrowerCount(ds[..|ds| - 1], f, g);
    }
  }

  /** A narrower filter selects no larger sum when no amount is negative. */
  lemma {:induction false} SelectNarrowerTotal(ds: seq<Donation>, f: Filter, g: Filter)
    requires forall d :: Selects(g, d) ==> Selects(f, d)
    requires forall i :: 0 <= i < |ds| ==> ds[i].amount >= 0
    ensures Total(Select(ds, g)) <= Total(Select(ds, f))
  {
    if ds != [] {
      var n := |ds| - 1;
      SelectNarrowerTotal(ds[..n], f, g);
      var tg := if Selects(g, ds[n]) then [ds[n]] else [];
      var tf := if Selects(f, ds[n]) then [ds[n]] else [];
      TotalAppend(Select(ds[..n], g), tg);
      TotalAppend(Select(ds[..n], f), tf);
    }
  }
}

=== FILE: donation_routes.dfy ===
/** The `/api/donations` routes. Each handler is a function of the store
    (and of the caller, the request body, the clock and the generated
    transaction id where the route uses them). */
module DonationRoutes {
  import opened Base
  import opened Time
  import opened Sorting
  import opened DocumentStore
  import C = CampaignModel
  import D = DonationModel
  import A = AssociationModel
  import Access
  import Counters

  /** The donations of `s` selected by `f`, in id order. */
  function Selected(s: Store, f: D.Filter): seq<D.Donation>
  {
    D.Select(Values(s.donations), f)
  }

  /** A donation is selected iff it is stored and satisfies the filter. */
  lemma SelectedMembership(s: Store, f: D.Filter, d: D.Donation)
    ensures d in Selected(s, f) <==> (exists k :: k in s.donations && s.donations[k] == d) && D.Selects(f, d)
  {
    ValuesMembership(s.donations, d);
  }

  /** `GET /api/donations`: the donations in the caller's scope, newest first. */
  function List(s: Store, c: Caller): (r: seq<D.Donation>)
    ensures multiset(r) == multiset(Selected(s, Access.DonationScope(c)))
    ensures NonIncreasing(r, D.DateKey)
  {
    SortDescending(Selected(s, Access.DonationScope(c)), D.DateKey)
  }

  /** What the role scoping of `List` amounts to: a user sees exactly its own
      donations, an association exactly those made to it, an admin all. */
  lemma ListScope(s: Store, c: Caller, d: D.Donation)
    ensures c.role == UserRole ==>
              (d in List(s, c) <==> (exists k :: k in s.donations && s.donations[k] == d) && d.donor == c.id)
    ensures c.role == AssociationRole ==>
              (d in List(s, c) <==>
                 (exists k :: k in s.donations && s.donations[k] == d) && Some(d.association) == c.associationId)
    ensures c.role == AdminRole ==> (d in List(s, c) <==> exists k :: k in s.donations && s.donations[k] == d)
  {
    var f := Access.DonationScope(c);
    SortedMembership(Selected(s, f), D.DateKey, d);
    SelectedMembership(s, f, d);
  }

  /** An association caller whose association id is missing sees no donation. */
  lemma ListWithoutAssociationIsEmpty(s: Store, c: Caller)
    requires c.role == AssociationRole && c.associationId.None?
    ensures List(s, c) == []
  {
    if List(s, c) != [] {
      ListScope(s, c, List(s, c)[0]);
    }
  }

  /** `GET /api/donations/:id`. Only a `user` caller is checked; when its
      donor no longer exists the handler dereferences the missing populated
      donor and fails. */
  function Get(s: Store, c: Caller, id: Id): (r: Reply<Option<D.Donation>>)
    ensures r.status == NotFound <==> id !in s.donations
    ensures r.status == Ok <==>
              id in s.donations && Access.CanViewDonation(c, s.donations[id])
              && (c.role == UserRole ==> s.donations[id].donor in s.users)
    ensures r.status == Forbidden <==>
              id in s.donations && s.donations[id].donor in s.users && !Access.CanViewDonation(c, s.donations[id])
    ensures r.status == ServerError <==>
              id in s.donations && c.role == UserRole && s.donations[id].donor !in s.users
    ensures r.status == Ok ==> r.value == Some(s.donations[id])
    ensures r.status != Ok ==> r.value.None?
  {
    if id !in s.donations then Reply(NotFound, None)
    else
      var d := s.donations[id];
      if c.role == UserRole && d.donor !in s.users then Reply(ServerError, None)
      else if !Access.CanViewDonation(c, d) then Reply(Forbidden, None)
      else Reply(Ok, Some(d))
  }

  /** The fields of a `POST /api/donations` body; a missing field is `None`. */
  datatype DonationBody = DonationBody(
    campaign: Option<Id>,
    amount: Option<int>,
    paymentMethod: Option<string>,
    message: Option<string>,
    isAnonymous: Option<bool>)

  /** What `Donation.create` accepts: an amount of at least 1, a known
      payment method, and a transaction id not already stored. */
  predicate Acceptable(s: Store, body: DonationBody, transactionId: string)
  {
    body.amount.Some? && body.amount.value >= 1
    && body.paymentMethod.Some? && D.ParseMethod(body.paymentMethod.value).Some?
    && !D.TransactionIdInUse(s.donations, transactionId)
  }

  /** The campaign after a donation of `amount`: `$inc` on both counters. */
  function Credited(camp: C.Campaign, amount: int): (r: C.Campaign)
    ensures r.currentAmount == camp.currentAmount + amount
    ensures r.donationsCount == camp.donationsCount + 1
    ensures r.(currentAmount := camp.currentAmount, donationsCount := camp.donationsCount) == camp
  {
    camp.(currentAmount := camp.currentAmount + amount, donationsCount := camp.donationsCount + 1)
  }

  /** The associations after `$inc: { totalDonations: amount }` on `aid`,
      which changes nothing when `aid` is gone. */
  function CreditAssociation(m: map<Id, A.Association>, aid: Id, amount: int): (r: map<Id, A.Association>)
    ensures r.Keys == m.Keys
    ensures aid in m ==> r[aid].totalDonations == m[aid].totalDonations + amount
    ensures aid in m ==> r[aid].(totalDonations := m[aid].totalDonations) == m[aid]
    ensures forall k :: k in m && k != aid ==> r[k] == m[k]
  {
    if aid in m then m[aid := m[aid].(totalDonations := m[aid].totalDonations + amount)] else m
  }

  /** `POST /api/donations`: record a completed donation under a fresh id,
      credit the campaign, and credit its association when that still
      exists. The campaign's status and dates are not checked. */
  function Create(s: Store, c: Caller, body: DonationBody, transactionId: string, now: Instant): (r: Response)
    ensures r.status in {Ok, NotFound, ValidationError}
    ensures r.status == NotFound <==> body.campaign.None? || body.campaign.value !in s.campaigns
    ensures r.status == ValidationError <==>
              body.campaign.Some? && body.campaign.value in s.campaigns && !Acceptable(s, body, transactionId)
    ensures r.status != Ok ==> r.store == s
    ensures r.status == Ok ==> FreshId(s.donations.Keys) in r.store.donations
    ensures r.status == Ok ==>
              var cid := body.campaign.value;
              var camp := s.campaigns[cid];
              var k := FreshId(s.donations.Keys);
              var d := r.store.donations[k];
              && r.store.donations == s.donations[k := d]
              && d.donor == c.id && d.campaign == cid && d.association == camp.association
              && d.amount == body.amount.value && D.Valid(d)
              && D.MethodName(d.paymentMethod) == body.paymentMethod.value
              && d.paymentStatus == D.Completed && d.transactionId == Some(transactionId)
              && d.message == body.message && (d.isAnonymous <==> body.isAnonymous == Some(true))
              && d.donationDate == now
              && r.store.campaigns == s.campaigns[cid := Credited(camp, d.amount)]
              && r.store.associations == CreditAssociation(s.associations, camp.association, d.amount)
              && r.store.users == s.users && r.store.requests == s.requests
  {
    if body.campaign.None? || body.campaign.value !in s.campaigns then Response(NotFound, s)
    else if !Acceptable(s, body, transactionId) then Response(ValidationError, s)
    else
      var cid := body.campaign.value;
      var camp := s.campaigns[cid];
      var m := D.ParseMethod(body.paymentMethod.value).value;
      D.ParseMethodIff(body.paymentMethod.value, m);
      var d := D.New(c.id, cid, camp.association, body.amount.value, m, D.Completed,
                     Some(transactionId), body.message, body.isAnonymous, now);
      Response(Ok, s.(donations := s.donations[FreshId(s.donations.Keys) := d],
                      campaigns := s.campaigns[cid := Credited(camp, d.amount)],
                      associations := CreditAssociation(s.associations, camp.association, d.amount)))
  }

  /** Creating a donation keeps every schema constraint and unique index. */
  lemma CreatePreservesValid(s: Store, c: Caller, body: DonationBody, transactionId: string, now: Instant)
    requires Valid(s)
    ensures Valid(Create(s, c, body, transactionId, now).store)
  {
    var r := Create(s, c, body, transactionId, now);
    if r.status == Ok {
      var k := FreshId(s.donations.Keys);
      var d := r.store.donations[k];
      assert s.donations - {k} == s.donations;
      D.UniqueAfterWrite(s.donations, k, d);
      var cid := body.campaign.value;
      assert C.Valid(r.store.campaigns[cid]);
      CreditAssociationKeepsValid(s.associations, s.campaigns[cid].association, d.amount);
    }
  }

  /** Crediting an association touches no validated or indexed field. */
  lemma CreditAssociationKeepsValid(m: map<Id, A.Association>, aid: Id, amount: int)
    requires ValidAssociations(m)
    ensures ValidAssociations(CreditAssociation(m, aid, amount))
  {
    var m' := CreditAssociation(m, aid, amount);
    forall i, j | i in m' && j in m' && i != j
      ensures !A.Collide(m'[i], m'[j])
    {
      assert !A.Collide(m[i], m[j]);
    }
  }

  /** The store after crediting donation `d` to campaign `cid`, as `Create` writes it. */
  predicate CreditedStore(s: Store, s': Store, cid: Id, d: D.Donation)
  {
    cid in s.campaigns && d.campaign == cid && d.association == s.campaigns[cid].association
    && s'.donations == s.donations[FreshId(s.donations.Keys) := d]
    && s'.campaigns == s.campaigns[cid := Credited(s.campaigns[cid], d.amount)]
    && s'.associations == CreditAssociation(s.associations, d.association, d.amount)
  }

  lemma CreditKeepsCampaignCounters(s: Store, s': Store, cid: Id, d: D.Donation)
    requires Counters.CampaignCounters(s) && CreditedStore(s, s', cid, d)
    ensures Counters.CampaignCounters(s')
  {
    forall x | x in s'.campaigns
      ensures s'.campaigns[x].currentAmount == Counters.Raised(s', Counters.ForCampaign(x))
      ensures s'.campaigns[x].donationsCount == Counters.Count(s', Counters.ForCampaign(x))
    {
      var f := Counters.ForCampaign(x);
      Counters.LedgerAfterInsert(s.donations, d, f);
      assert x in s.campaigns;
      if x == cid {
        assert D.Selects(f, d);
      } else {
        assert s'.campaigns[x] == s.campaigns[x];
        assert !D.Selects(f, d);
      }
    }
  }

  lemma CreditKeepsAssociationCounters(s: Store, s': Store, cid: Id, d: D.Donation)
    requires Counters.AssociationCounters(s) && CreditedStore(s, s', cid, d)
    ensures Counters.AssociationCounters(s')
  {
    forall y | y in s'.associations
      ensures s'.associations[y].totalDonations == Counters.Raised(s', Counters.ForAssociation(y))
      ensures s'.associations[y].totalCampaigns == Counters.Owned(Values(s'.campaigns), y)
    {
      CreditKeepsAssociationCounter(s, s', cid, d, y);
    }
  }

  lemma CreditKeepsAssociationCounter(s: Store, s': Store, cid: Id, d: D.Donation, y: Id)
    requires Counters.AssociationCounters(s) && CreditedStore(s, s', cid, d) && y in s'.associations
    ensures s'.associations[y].totalDonations == Counters.Raised(s', Counters.ForAssociation(y))
    ensures s'.associations[y].totalCampaigns == Counters.Owned(Values(s'.campaigns), y)
  {
    CreditKeepsAssociationTotal(s, s', cid, d, y);
    Counters.OwnedAfterRewrite(s.campaigns, cid, Credited(s.campaigns[cid], d.amount), y);
  }

  lemma CreditKeepsAssociationTotal(s: Store, s': Store, cid: Id, d: D.Donation, y: Id)
    requires y in s.associations && s.associations[y].totalDonations == Counters.Raised(s, Counters.ForAssociation(y))
    requires CreditedStore(s, s', cid, d)
    ensures s'.associations[y].totalDonations == Counters.Raised(s', Counters.ForAssociation(y))
  {
    Counters.LedgerAfterInsert(s.donations, d, Counters.ForAssociation(y));
  }

  /** Creating a donation keeps every running counter equal to the sum or
      count it stands for. */
  lemma CreatePreservesCounters(s: Store, c: Caller, body: DonationBody, transactionId: string, now: Instant)
    requires Counters.Consistent(s)
    ensures Counters.Consistent(Create(s, c, body, transactionId, now).store)
  {
    var r := Create(s, c, body, transactionId, now);
    if r.status == Ok {
      var cid := body.campaign.value;
      var d := r.store.donations[FreshId(s.donations.Keys)];
      assert d.campaign == cid && d.association == s.campaigns[cid].association;
      assert r.store.donations == s.donations[FreshId(s.donations.Keys) := d];
      assert r.store.campaigns == s.campaigns[cid := Credited(s.campaigns[cid], d.amount)];
      assert CreditedStore(s, r.store, cid, d);
      CreditKeepsCampaignCounters(s, r.store, cid, d);
      CreditKeepsAssociationCounters(s, r.store, cid, d);
    }
  }

  /** `PUT /api/donations/:id/status`: an association or admin sets the
      payment status of any donation; an unknown status fails the `enum`
      validator on save. No ownership check is made and no counter moves. */
  function UpdateStatus(s: Store, c: Caller, id: Id, paymentStatus: string): (r: Response)
    ensures r.status == Forbidden <==> !Authorized(c, Access.AssociationOrAdmin)
    ensures r.status == NotFound <==> Authorized(c, Access.AssociationOrAdmin) && id !in s.donations
    ensures r.status == ValidationError <==>
              Authorized(c, Access.AssociationOrAdmin) && id in s.donations
              && D.ParsePaymentStatus(paymentStatus).None?
    ensures r.status in {Ok, Forbidden, NotFound, ValidationError}
    ensures r.status != Ok ==> r.store == s
    ensures r.status == Ok ==>
              id in s.donations && id in r.store.donations
              && D.PaymentStatusName(r.store.donations[id].paymentStatus) == paymentStatus
              && r.store == s.(donations := s.donations[id := s.donations[id].(
                                paymentStatus := r.store.donations[id].paymentStatus)])
  {
    if !Authorized(c, Access.AssociationOrAdmin) then Response(Forbidden, s)
    else if id !in s.donations then Response(NotFound, s)
    else match D.ParsePaymentStatus(paymentStatus)
      case None => Response(ValidationError, s)
      case Some(p) =>
        D.ParsePaymentStatusIff(paymentStatus, p);
        Response(Ok, s.(donations := s.donations[id := s.donations[id].(paymentStatus := p)]))
  }

  /** Any association caller may change the status of a donation made to
      another association. */
  lemma UpdateStatusIgnoresOwnership(s: Store, c: Caller, id: Id)
    requires c.role == AssociationRole && id in s.donations
    requires Some(s.donations[id].association) != c.associationId
    ensures UpdateStatus(s, c, id, "refunded").status == Ok
  {
    assert D.ParsePaymentStatus("refunded") == Some(D.Refunded);
  }

  /** A status change, a refund included, keeps every schema constraint. */
  lemma UpdateStatusPreservesValid(s: Store, c: Caller, id: Id, paymentStatus: string)
    requires Valid(s)
    ensures Valid(UpdateStatus(s, c, id, paymentStatus).store)
  {
    var r := UpdateStatus(s, c, id, paymentStatus);
    if r.status == Ok {
      D.UniqueAfterWrite(s.donations, id, r.store.donations[id]);
    }
  }

  /** A status change, a refund included, leaves every counter consistent:
      the counters go on counting the donation. */
  lemma UpdateStatusPreservesCounters(s: Store, c: Caller, id: Id, paymentStatus: string)
    requires Counters.Consistent(s)
    ensures Counters.Consistent(UpdateStatus(s, c, id, paymentStatus).store)
  {
    var r := UpdateStatus(s, c, id, paymentStatus);
    if r.status == Ok {
      var s' := r.store;
      var v := s'.donations[id];
      forall x | x in s'.campaigns
        ensures s'.campaigns[x].currentAmount == Counters.Raised(s', Counters.ForCampaign(x))
        ensures s'.campaigns[x].donationsCount == Counters.Count(s', Counters.ForCampaign(x))
      {
        Counters.LedgerAfterRewrite(s.donations, id, v, Counters.ForCampaign(x));
      }
      forall y | y in s'.associations
        ensures s'.associations[y].totalDonations == Counters.Raised(s', Counters.ForAssociation(y))
      {
        Counters.LedgerAfterRewrite(s.donations, id, v, Counters.ForAssociation(y));
      }
    }
  }

  /** `GET /api/donations/user/:userId`: one user's donations, newest first,
      for that user or an admin. */
  function ListForUser(s: Store, c: Caller, userId: Id): (r: Reply<seq<D.Donation>>)
    ensures r.status == Forbidden <==> !Access.CanListDonationsOf(c, userId)
    ensures r.status != Forbidden ==> r.status == Ok
    ensures r.status == Forbidden ==> r.value == []
    ensures r.status == Ok ==>
              multiset(r.value) == multiset(Selected(s, D.Everything.(donor := Is(userId))))
              && NonIncreasing(r.value, D.DateKey)
  {
    if !Access.CanListDonationsOf(c, userId) then Reply(Forbidden, [])
    else Reply(Ok, SortDescending(Selected(s, D.Everything.(donor := Is(userId))), D.DateKey))
  }

  /** How many donations the public campaign listing shows. */
  const PageSize: nat := 20

  /** The completed donations to a campaign. */
  function CompletedFor(cid: Id): (f: D.Filter)
    ensures forall d: D.Donation :: D.Selects(f, d) <==> d.campaign == cid && d.paymentStatus == D.Completed
  {
    D.Everything.(campaign := Is(cid), status := Is(D.Completed))
  }

  /** The page `GET /api/donations/campaign/:campaignId` reads: the twenty
      newest completed donations to the campaign, newest first. */
  function CampaignPage(s: Store, cid: Id): (page: seq<D.Donation>)
    ensures |page| == if |Selected(s, CompletedFor(cid))| <= PageSize then |Selected(s, CompletedFor(cid))| else PageSize
    ensures multiset(page) <= multiset(Selected(s, CompletedFor(cid)))
    ensures forall d :: d in page ==> d.campaign == cid && d.paymentStatus == D.Completed
    ensures NonIncreasing(page, D.DateKey)
    ensures forall d, e :: d in page && e in Selected(s, CompletedFor(cid)) && e !in page ==>
              D.DateKey(d) >= D.DateKey(e)
  {
    var all := Selected(s, CompletedFor(cid));
    var page := Top(all, D.DateKey, PageSize);
    TopSubMultiset(all, D.DateKey, PageSize);
    forall d, e | d in page && e in all && e !in page
      ensures D.DateKey(d) >= D.DateKey(e)
    {
      TopOutranks(all, D.DateKey, PageSize, d, e);
    }
    page
  }

  /** How a donor appears in the public listing. */
  datatype DonorView =
    | Named(id: Id)                                  // the populated donor
    | Gone                                           // the donor no longer exists
    | Anonymized(firstName: string, lastName: string)

  /** A donation as the public listing shows it: every stored field except
      the donor, which is replaced by its view. */
  datatype PublicDonation = PublicDonation(
    donor: DonorView,
    campaign: Id,
    association: Id,
    amount: int,
    currency: string,
    paymentMethod: D.PaymentMethod,
    paymentStatus: D.PaymentStatus,
    transactionId: Option<string>,
    message: Option<string>,
    isAnonymous: bool,
    donationDate: Instant)

  /** Hide the donor of an anonymous donation behind a fixed placeholder. */
  function Redact(users: map<Id, User>, d: D.Donation): (v: PublicDonation)
    ensures d.isAnonymous ==> v.donor == Anonymized("Anonymous", "Donor")
    ensures !d.isAnonymous && d.donor in users ==> v.donor == Named(d.donor)
    ensures !d.isAnonymous && d.donor !in users ==> v.donor == Gone
    ensures v.campaign == d.campaign && v.association == d.association && v.amount == d.amount
    ensures v.currency == d.currency && v.paymentMethod == d.paymentMethod
    ensures v.paymentStatus == d.paymentStatus && v.transactionId == d.transactionId
    ensures v.message == d.message && v.isAnonymous == d.isAnonymous && v.donationDate == d.donationDate
  {
    var donor := if d.isAnonymous then Anonymized("Anonymous", "Donor")
                 else if d.donor in users then Named(d.donor) else Gone;
    PublicDonation(donor, d.campaign, d.association, d.amount, d.currency, d.paymentMethod,
                   d.paymentStatus, d.transactionId, d.message, d.isAnonymous, d.donationDate)
  }

  /** `GET /api/donations/campaign/:campaignId` (public): the page, each entry
      redacted. The store is only read. */
  function ListForCampaign(s: Store, cid: Id): (r: seq<PublicDonation>)
    ensures |r| == |CampaignPage(s, cid)| <= PageSize
    ensures forall i :: 0 <= i < |r| ==> r[i] == Redact(s.users, CampaignPage(s, cid)[i])
  {
    RedactAll(s.users, CampaignPage(s, cid))
  }

  function RedactAll(users: map<Id, User>, ds: seq<D.Donation>): (r: seq<PublicDonation>)
    ensures |r| == |ds|
    ensures forall i :: 0 <= i < |r| ==> r[i] == Redact(users, ds[i])
  {
    seq(|ds|, i requires 0 <= i < |ds| => Redact(users, ds[i]))
  }

  /** The public listing names no donor of an anonymous donation, and names
      the donor of every other one that still exists. */
  lemma ListForCampaignHidesAnonymous(s: Store, cid: Id, i: nat)
    requires i < |ListForCampaign(s, cid)|
    ensures var v := ListForCampaign(s, cid)[i];
            (v.isAnonymous ==> v.donor.Anonymized?)
            && (forall k: Id :: v.donor == Named(k) ==> !v.isAnonymous && k in s.users)
            && v.paymentStatus == D.Completed && v.campaign == cid
  {
    var page := CampaignPage(s, cid);
    assert page[i] in page;
  }
}

=== FILE: enums.dfy ===
/** String-valued enumerations: a schema path with an `enum` validator stores
    one of a fixed list of strings. `Parse` is the validator read backwards:
    the value whose name is the given string, if there is one. */
module Enums {
  import opened Base

  /** No two listed values share a name. */
  predicate NamesDistinct<T>(all: seq<T>, name: T -> string)
  {
    forall i, j :: 0 <= i < j < |all| ==> name(all[i]) != name(all[j])
  }

  function Parse<T>(all: seq<T>, name: T -> string, s: string): (r: Option<T>)
    ensures r.Some? ==> r.value in all && name(r.value) == s
    ensures r.None? ==> forall x :: x in all ==> name(x) != s
  {
    if all == [] then None
    else if name(all[0]) == s then Some(all[0])
    else Parse(all[1..], name, s)
  }

  /** An optional enum path of an update body: `Some(None)` when the body
      leaves it out, `Some(Some(v))` when it names `v`, and `None` when the
      name fails the `enum` validator. */
  function ParseField<T>(all: seq<T>, name: T -> string, s: Option<string>): (r: Option<Option<T>>)
    ensures r.None? <==> s.Some? && Parse(all, name, s.value).None?
    ensures s.None? ==> r == Some(None)
    ensures r.Some? && s.Some? ==> r.value.Some? && r.value.value in all && name(r.value.value) == s.value
  {
    if s.None? then Some(None)
    else
      match Parse(all, name, s.value)
      case None => None
      case Some(v) => Some(Some(v))
  }

  /** With distinct names, parsing accepts exactly the names of the listed
      values and gives back the value named. */
  lemma {:induction false} ParseIff<T>(all: seq<T>, name: T -> string, s: string, x: T)
    requires NamesDistinct(all, name)
    requires x in all
    ensures Parse(all, name, s) == Some(x) <==> name(x) == s
  {
    if all != [] && name(all[0]) != s {
      if x != all[0] {
        assert NamesDistinct(all[1..], name) by {
          forall i, j | 0 <= i < j < |all[1..]|
            ensures name(all[1..][i]) != name(all[1..][j])
          {
            assert all[1..][i] == all[i + 1] && all[1..][j] == all[j + 1];
          }
        }
        ParseIff(all[1..], name, s, x);
      }
    }
  }
}

/** The eight categories shared by campaigns, requests and associations. */
module Categories {
  import opened Base
  import Enums

  datatype Category = Education | Health | Poverty | Environment | Children | Elderly | Animals | Other

  function Name(c: Category): string
  {
    match c
    case Education => "education"
    case Health => "health"
    case Poverty => "poverty"
    case Environment => "environment"
    case Children => "children"
    case Elderly => "elderly"
    case Animals => "animals"
    case Other => "other"
  }

  const All: seq<Category> := [Education, Health, Poverty, Environment, Children, Elderly, Animals, Other]

  function Parse(s: string): Option<Category>
  {
    Enums.Parse(All, Name, s)
  }

  /** A category string is accepted iff it is the name of that category. */
  lemma ParseIff(s: string, c: Category)
    ensures Parse(s) == Some(c) <==> Name(c) == s
  {
    assert c in All;
    NamesDistinct();
    Enums.ParseIff(All, Name, s, c);
  }

  lemma NamesDistinct()
    ensures Enums.NamesDistinct(All, Name)
  {
  }
  /** An array of category strings, as the `enum` validator of each element
      sees it: all accepted, or the whole array refused. */
  function ParseAll(names: seq<string>): (r: Option<seq<Category>>)
    ensures r.Some? <==> forall i :: 0 <= i < |names| ==> Parse(names[i]).Some?
    ensures r.Some? ==> |r.value| == |names| && forall i :: 0 <= i < |names| ==> Name(r.value[i]) == names[i]
  {
    if names == [] then Some([])
    else
      var head := Parse(names[0]);
      var tail := ParseAll(names[1..]);
      if head.None? || tail.None? then None else Some([head.value] + tail.value)
  }
}

=== FILE: request_model.dfy ===
/** The aid-request schema: its enumerations and defaults, the attached
    documents and the optional assigned association. */
module RequestModel {
  import opened Base
  import opened Time
  import Enums
  import Categories

  datatype RequestStatus = Pending | Reviewing | Approved | Rejected | InProgress | Completed

  function StatusName(s: RequestStatus): string
  {
    match s
    case Pending => "pending"
    case Reviewing => "reviewing"
    case Approved => "approved"
    case Rejected => "rejected"
    case InProgress => "in_progress"
    case Completed => "completed"
  }

  const AllStatuses: seq<RequestStatus> := [Pending, Reviewing, Approved, Rejected, InProgress, Completed]

  function ParseStatus(s: string): Option<RequestStatus>
  {
    Enums.Parse(AllStatuses, StatusName, s)
  }

  /** The `enum` validator of `status` accepts exactly the six names; any other
      string fails validation when the document is saved. */
  lemma ParseStatusIff(s: string, st: RequestStatus)
    ensures ParseStatus(s) == Some(st) <==> StatusName(st) == s
  {
    assert st in AllStatuses;
    Enums.ParseIff(AllStatuses, StatusName, s, st);
  }

  datatype Urgency = Low | Medium | High | Critical

  function UrgencyName(u: Urgency): string
  {
    match u
    case Low => "low"
    case Medium => "medium"
    case High => "high"
    case Critical => "critical"
  }

  const AllUrgencies: seq<Urgency> := [Low, Medium, High, Critical]

  function ParseUrgency(s: string): Option<Urgency>
  {
    Enums.Parse(AllUrgencies, UrgencyName, s)
  }

  /** The `enum` validator of `urgencyLevel` accepts exactly the four names. */
  lemma ParseUrgencyIff(s: string, u: Urgency)
    ensures ParseUrgency(s) == Some(u) <==> UrgencyName(u) == s
  {
    assert u in AllUrgencies;
    Enums.ParseIff(AllUrgencies, UrgencyName, s, u);
  }

  datatype RequestType = Financial | Material | Volunteer | Other

  function TypeName(t: RequestType): string
  {
    match t
    case Financial => "financial"
    case Material => "material"
    case Volunteer => "volunteer"
    case Other => "other"
  }

  const AllTypes: seq<RequestType> := [Financial, Material, Volunteer, Other]

  function ParseType(s: string): Option<RequestType>
  {
    Enums.Parse(AllTypes, TypeName, s)
  }

  /** The `enum` validator of `requestType` accepts exactly the four names. */
  lemma ParseTypeIff(s: string, t: RequestType)
    ensures ParseType(s) == Some(t) <==> TypeName(t) == s
  {
    assert t in AllTypes;
    Enums.ParseIff(AllTypes, TypeName, s, t);
  }

  /** One attached file. */
  datatype Document = Document(name: string, url: string, uploadDate: Instant)

  datatype Request = Request(
    requester: Id,
    title: string,
    description: string,
    category: Categories.Category,
    urgencyLevel: Urgency,
    status: RequestStatus,
    requestType: RequestType,
    estimatedAmount: Option<int>,
    documents: seq<Document>,
    assignedAssociation: Option<Id>,
    reviewNotes: Option<string>,
    reviewDate: Option<Instant>,
    completionDate: Option<Instant>,
    createdAt: Instant)

  /** The validators the types do not enforce: required strings are
      non-empty and an estimated amount, when there is one, is at least 0. */
  predicate Valid(r: Request)
  {
    r.title != "" && r.description != ""
    && (r.estimatedAmount.None? || r.estimatedAmount.value >= 0)
  }

  /** A request as `Request.create` stores it: pending, unassigned, without
      documents, `medium` urgency unless another is given. */
  function New(requester: Id, title: string, description: string, category: Categories.Category,
               urgency: Option<Urgency>, requestType: RequestType, estimatedAmount: Option<int>,
               now: Instant): (r: Request)
    ensures r.requester == requester && r.requestType == requestType
    ensures r.status == Pending && r.assignedAssociation.None? && r.documents == []
    ensures urgency.None? ==> r.urgencyLevel == Medium
    ensures urgency.Some? ==> r.urgencyLevel == urgency.value
    ensures r.reviewDate.None? && r.completionDate.None?
    ensures title != "" && description != "" && (estimatedAmount.None? || estimatedAmount.value >= 0)
            ==> Valid(r)
  {
    Request(requester, title, description, category, if urgency.Some? then urgency.value else Medium,
            Pending, requestType, estimatedAmount, [], None, None, None, None, now)
  }
}

=== FILE: request_routes.dfy ===
/** The `/api/requests` routes: aid requests filed by users, reviewed and
    taken on by associations. */
module RequestRoutes {
  import opened Base
  import opened Time
  import opened Text
  import opened Sorting
  import opened DocumentStore
  import R = RequestModel
  import Enums
  import Categories
  import Access
  import Upload

  /** The query-string filters of the listing; an empty value is no filter. */
  datatype RequestQuery = RequestQuery(status: Option<string>, category: Option<string>, urgencyLevel: Option<string>)

  predicate QueryMatches(q: RequestQuery, r: R.Request)
  {
    (!Given(q.status) || R.StatusName(r.status) == q.status.value)
    && (!Given(q.category) || Categories.Name(r.category) == q.category.value)
    && (!Given(q.urgencyLevel) || R.UrgencyName(r.urgencyLevel) == q.urgencyLevel.value)
  }

  /** The sort key of `.sort('-createdAt')`. */
  function CreatedKey(r: R.Request): int
  {
    Ordinal(r.createdAt)
  }

  /** `GET /api/requests`: the requests in the caller's scope that match the
      query, newest first. */
  function List(s: Store, c: Caller, q: RequestQuery): (r: seq<R.Request>)
    ensures NonIncreasing(r, CreatedKey)
    ensures forall x :: x in r <==>
              (exists k :: k in s.requests && s.requests[k] == x) && Access.RequestInScope(c, x) && QueryMatches(q, x)
    ensures forall x :: multiset(r)[x] ==
              if Access.RequestInScope(c, x) && QueryMatches(q, x) then |Holders(s.requests, x)| else 0
  {
    Newest(s.requests, (x: R.Request) => Access.RequestInScope(c, x) && QueryMatches(q, x), CreatedKey)
  }

  /** An association sees an unassigned request only while it is pending or
      under review, and never one assigned to another association. */
  lemma ListForAssociation(s: Store, c: Caller, q: RequestQuery, x: R.Request)
    requires c.role == AssociationRole && c.associationId.Some? && x in List(s, c, q)
    ensures x.assignedAssociation == c.associationId
            || (x.assignedAssociation.None? && x.status in {R.Pending, R.Reviewing})
  {
  }

  /** The assignment as `populate` sees it: gone when the association was deleted. */
  function Linked(s: Store, r: R.Request): (a: Option<Id>)
    ensures a.Some? <==> r.assignedAssociation.Some? && r.assignedAssociation.value in s.associations
    ensures a.Some? ==> a == r.assignedAssociation
  {
    if r.assignedAssociation.Some? && r.assignedAssociation.value in s.associations
    then r.assignedAssociation else None
  }

  /** `GET /api/requests/:id`. The handler dereferences the populated
      requester first, so a request whose requester is gone fails. */
  function Get(s: Store, c: Caller, id: Id): (r: Reply<Option<R.Request>>)
    ensures r.status == NotFound <==> id !in s.requests
    ensures r.status == ServerError <==> id in s.requests && s.requests[id].requester !in s.users
    ensures r.status == Ok <==>
              id in s.requests && s.requests[id].requester in s.users
              && Access.CanViewRequest(c, s.requests[id].requester, Linked(s, s.requests[id]))
    ensures r.status in {Ok, NotFound, ServerError, Forbidden}
    ensures r.status == Ok ==> r.value == Some(s.requests[id])
    ensures r.status != Ok ==> r.value.None?
  {
    if id !in s.requests then Reply(NotFound, None)
    else
      var x := s.requests[id];
      if x.requester !in s.users then Reply(ServerError, None)
      else if !Access.CanViewRequest(c, x.requester, Linked(s, x)) then Reply(Forbidden, None)
      else Reply(Ok, Some(x))
  }

  /** A caller with no association id may read any request of a living
      requester whose assignment is missing or points to a deleted
      association. */
  lemma GetUnassignedWithoutAssociation(s: Store, c: Caller, id: Id)
    requires c.associationId.None? && id in s.requests && s.requests[id].requester in s.users
    requires s.requests[id].assignedAssociation.None? || s.requests[id].assignedAssociation.value !in s.associations
    ensures Get(s, c, id).status == Ok
  {
    Access.UnassignedRequestVisibleToAll(c, s.requests[id].requester);
  }

  /** The fields of a `POST /api/requests` body; a missing field is `None`. */
  datatype RequestBody = RequestBody(
    title: Option<string>,
    description: Option<string>,
    category: Option<string>,
    urgencyLevel: Option<string>,
    requestType: Option<string>,
    estimatedAmount: Option<int>)

  /** What `Request.create` accepts: the required strings present and
      non-empty, every enumerated value known (urgency may be left to its
      default), and no negative estimate. */
  predicate CreateAcceptable(b: RequestBody)
  {
    Given(b.title) && Given(b.description)
    && b.category.Some? && Categories.Parse(b.category.value).Some?
    && (b.urgencyLevel.None? || R.ParseUrgency(b.urgencyLevel.value).Some?)
    && b.requestType.Some? && R.ParseType(b.requestType.value).Some?
    && (b.estimatedAmount.None? || b.estimatedAmount.value >= 0)
  }

  /** `POST /api/requests`: a new pending, unassigned request owned by the caller. */
  function Create(s: Store, c: Caller, b: RequestBody, now: Instant): (r: Response)
    ensures r.status in {Ok, ValidationError}
    ensures r.status == Ok <==> CreateAcceptable(b)
    ensures r.status != Ok ==> r.store == s
    ensures r.status == Ok ==> FreshId(s.requests.Keys) in r.store.requests
    ensures r.status == Ok ==>
              var x := r.store.requests[FreshId(s.requests.Keys)];
              && r.store == s.(requests := s.requests[FreshId(s.requests.Keys) := x])
              && x.requester == c.id && x.status == R.Pending && x.assignedAssociation.None?
              && x.documents == [] && R.Valid(x) && x.createdAt == now
              && x.title == b.title.value && x.description == b.description.value
              && Categories.Name(x.category) == b.category.value
              && R.TypeName(x.requestType) == b.requestType.value
              && (if b.urgencyLevel.Some? then R.UrgencyName(x.urgencyLevel) == b.urgencyLevel.value
                  else x.urgencyLevel == R.Medium)
              && x.estimatedAmount == b.estimatedAmount
  {
    if !CreateAcceptable(b) then Response(ValidationError, s)
    else
      var cat := Categories.Parse(b.category.value).value;
      Categories.ParseIff(b.category.value, cat);
      var ty := R.ParseType(b.requestType.value).value;
      R.ParseTypeIff(b.requestType.value, ty);
      var urgency := if b.urgencyLevel.Some? then R.ParseUrgency(b.urgencyLevel.value) else None;
      assert b.urgencyLevel.Some? ==> R.UrgencyName(urgency.value) == b.urgencyLevel.value by {
        if b.urgencyLevel.Some? {
          R.ParseUrgencyIff(b.urgencyLevel.value, urgency.value);
        }
      }
      var x := R.New(c.id, b.title.value, b.description.value, cat, urgency, ty, b.estimatedAmount, now);
      Response(Ok, s.(requests := s.requests[FreshId(s.requests.Keys) := x]))
  }

  /** The fields a `PUT /api/requests/:id` body may set; a missing field is
      left as it is. The body goes to the database as given. */
  datatype RequestPatch = RequestPatch(
    title: Option<string>,
    description: Option<string>,
    category: Option<string>,
    urgencyLevel: Option<string>,
    status: Option<string>,
    requestType: Option<string>,
    estimatedAmount: Option<int>,
    assignedAssociation: Option<Id>,
    requester: Option<Id>,
    reviewNotes: Option<string>)

  /** The update validators (`runValidators`) on the paths the patch sets. */
  predicate PatchAcceptable(p: RequestPatch)
  {
    (p.title.None? || p.title.value != "") && (p.description.None? || p.description.value != "")
    && Enums.ParseField(Categories.All, Categories.Name, p.category).Some?
    && Enums.ParseField(R.AllUrgencies, R.UrgencyName, p.urgencyLevel).Some?
    && Enums.ParseField(R.AllStatuses, R.StatusName, p.status).Some?
    && Enums.ParseField(R.AllTypes, R.TypeName, p.requestType).Some?
    && (p.estimatedAmount.None? || p.estimatedAmount.value >= 0)
  }

  /** The request with every field the patch sets replaced. */
  function Patched(x: R.Request, p: RequestPatch): (y: R.Request)
    requires PatchAcceptable(p)
    ensures p.title.Some? ==> y.title == p.title.value
    ensures p.title.None? ==> y.title == x.title
    ensures p.description.Some? ==> y.description == p.description.value
    ensures p.description.None? ==> y.description == x.description
    ensures p.category.Some? ==> Categories.Name(y.category) == p.category.value
    ensures p.category.None? ==> y.category == x.category
    ensures p.urgencyLevel.Some? ==> R.UrgencyName(y.urgencyLevel) == p.urgencyLevel.value
    ensures p.urgencyLevel.None? ==> y.urgencyLevel == x.urgencyLevel
    ensures p.status.Some? ==> R.StatusName(y.status) == p.status.value
    ensures p.status.None? ==> y.status == x.status
    ensures p.requestType.Some? ==> R.TypeName(y.requestType) == p.requestType.value
    ensures p.requestType.None? ==> y.requestType == x.requestType
    ensures y.estimatedAmount == (if p.estimatedAmount.Some? then p.estimatedAmount else x.estimatedAmount)
    ensures y.assignedAssociation == (if p.assignedAssociation.Some? then p.assignedAssociation else x.assignedAssociation)
    ensures y.requester == Or(p.requester, x.requester)
    ensures y.reviewNotes == (if p.reviewNotes.Some? then p.reviewNotes else x.reviewNotes)
    ensures y.documents == x.documents && y.reviewDate == x.reviewDate
    ensures y.completionDate == x.completionDate && y.createdAt == x.createdAt
  {
    var category := Or(Enums.ParseField(Categories.All, Categories.Name, p.category).value, x.category);
    var urgency := Or(Enums.ParseField(R.AllUrgencies, R.UrgencyName, p.urgencyLevel).value, x.urgencyLevel);
    var status := Or(Enums.ParseField(R.AllStatuses, R.StatusName, p.status).value, x.status);
    var ty := Or(Enums.ParseField(R.AllTypes, R.TypeName, p.requestType).value, x.requestType);
    x.(title := Or(p.title, x.title), description := Or(p.description, x.description),
       category := category, urgencyLevel := urgency, status := status, requestType := ty,
       estimatedAmount := if p.estimatedAmount.Some? then p.estimatedAmount else x.estimatedAmount,
       assignedAssociation := if p.assignedAssociation.Some? then p.assignedAssociation else x.assignedAssociation,
       requester := Or(p.requester, x.requester),
       reviewNotes := if p.reviewNotes.Some? then p.reviewNotes else x.reviewNotes)
  }

  /** The update validators keep a valid request valid. */
  lemma PatchedKeepsValid(x: R.Request, p: RequestPatch)
    requires PatchAcceptable(p) && R.Valid(x)
    ensures R.Valid(Patched(x, p))
  {
  }

  /** `PUT /api/requests/:id`: the requester (while the request is pending)
      or an admin (always) writes the body onto the request. */
  function Update(s: Store, c: Caller, id: Id, p: RequestPatch): (r: Response)
    ensures r.status == NotFound <==> id !in s.requests
    ensures r.status == Forbidden <==> id in s.requests && !Access.CanEditRequest(c, s.requests[id])
    ensures r.status == BadRequest <==>
              id in s.requests && Access.CanEditRequest(c, s.requests[id])
              && s.requests[id].status != R.Pending && c.role != AdminRole
    ensures r.status == ValidationError <==>
              id in s.requests && Access.CanEditRequest(c, s.requests[id])
              && (s.requests[id].status == R.Pending || c.role == AdminRole) && !PatchAcceptable(p)
    ensures r.status in {Ok, NotFound, Forbidden, BadRequest, ValidationError}
    ensures r.status != Ok ==> r.store == s
    ensures r.status == Ok ==> r.store == s.(requests := s.requests[id := Patched(s.requests[id], p)])
  {
    if id !in s.requests then Response(NotFound, s)
    else
      var x := s.requests[id];
      if !Access.CanEditRequest(c, x) then Response(Forbidden, s)
      else if x.status != R.Pending && c.role != AdminRole then Response(BadRequest, s)
      else if !PatchAcceptable(p) then Response(ValidationError, s)
      else Response(Ok, s.(requests := s.requests[id := Patched(x, p)]))
  }

  /** Nothing restricts which fields the body sets: the requester of a
      pending request can approve it, without a review date, or hand it to
      another user. */
  lemma UpdateLetsRequesterApprove(s: Store, c: Caller, id: Id, other: Id)
    requires id in s.requests && s.requests[id].requester == c.id && s.requests[id].status == R.Pending
    ensures var p := RequestPatch(None, None, None, None, Some("approved"), None, None, None, Some(other), None);
            var r := Update(s, c, id, p);
            r.status == Ok && r.store.requests[id].status == R.Approved
            && r.store.requests[id].requester == other
            && r.store.requests[id].reviewDate == s.requests[id].reviewDate
  {
    R.ParseStatusIff("approved", R.Approved);
  }

  /** `PUT /api/requests/:id/assign`: an association takes the request for
      itself (an admin names the association); either way the request goes
      to review. Neither the current assignment nor the current status is
      checked. */
  function Assign(s: Store, c: Caller, id: Id, bodyAssociationId: Option<Id>): (r: Response)
    ensures r.status == Forbidden <==> !Authorized(c, Access.AssociationOrAdmin)
    ensures r.status == NotFound <==> Authorized(c, Access.AssociationOrAdmin) && id !in s.requests
    ensures r.status in {Ok, Forbidden, NotFound}
    ensures r.status != Ok ==> r.store == s
    ensures r.status == Ok ==>
              r.store == s.(requests := s.requests[id := s.requests[id].(
                  assignedAssociation := if c.role == AdminRole then bodyAssociationId else c.associationId,
                  status := R.Reviewing)])
  {
    if !Authorized(c, Access.AssociationOrAdmin) then Response(Forbidden, s)
    else if id !in s.requests then Response(NotFound, s)
    else
      var a := if c.role == AdminRole then bodyAssociationId else c.associationId;
      Response(Ok, s.(requests := s.requests[id := s.requests[id].(assignedAssociation := a, status := R.Reviewing)]))
  }

  /** An association can take over a request another association holds,
      even a completed one, which goes back to review. */
  lemma AssignTakesOver(s: Store, c: Caller, id: Id)
    requires c.role == AssociationRole && c.associationId.Some?
    requires id in s.requests && s.requests[id].assignedAssociation.Some?
    requires s.requests[id].assignedAssociation != c.associationId && s.requests[id].status == R.Completed
    ensures var r := Assign(s, c, id, None);
            r.status == Ok && r.store.requests[id].assignedAssociation == c.associationId
            && r.store.requests[id].status == R.Reviewing
  {
  }

  /** `PUT /api/requests/:id/status`: an admin, or the assigned association,
      sets the status. Review notes are replaced only by a non-empty value;
      approval or rejection stamps the review date, completion the
      completion date. */
  function SetStatus(s: Store, c: Caller, id: Id, status: string, reviewNotes: Option<string>, now: Instant): (r: Response)
    ensures r.status == Forbidden <==>
              !Authorized(c, Access.AssociationOrAdmin)
              || (id in s.requests && !Access.CanSetRequestStatus(c, s.requests[id]))
    ensures r.status == NotFound <==> Authorized(c, Access.AssociationOrAdmin) && id !in s.requests
    ensures r.status == ValidationError <==>
              Authorized(c, Access.AssociationOrAdmin) && id in s.requests
              && Access.CanSetRequestStatus(c, s.requests[id]) && R.ParseStatus(status).None?
    ensures r.status in {Ok, Forbidden, NotFound, ValidationError}
    ensures r.status != Ok ==> r.store == s
    ensures r.status == Ok ==> id in s.requests && id in r.store.requests
    ensures r.status == Ok ==>
              var x := s.requests[id];
              var y := r.store.requests[id];
              && r.store == s.(requests := s.requests[id := y])
              && R.StatusName(y.status) == status
              && y.reviewNotes == (if Given(reviewNotes) then reviewNotes else x.reviewNotes)
              && y.reviewDate == (if y.status in {R.Approved, R.Rejected} then Some(now) else x.reviewDate)
              && y.completionDate == (if y.status == R.Completed then Some(now) else x.completionDate)
              && y.(status := x.status, reviewNotes := x.reviewNotes, reviewDate := x.reviewDate,
                    completionDate := x.completionDate) == x
  {
    if !Authorized(c, Access.AssociationOrAdmin) then Response(Forbidden, s)
    else if id !in s.requests then Response(NotFound, s)
    else
      var x := s.requests[id];
      if !Access.CanSetRequestStatus(c, x) then Response(Forbidden, s)
      else match R.ParseStatus(status)
        case None => Response(ValidationError, s)
        case Some(st) =>
          R.ParseStatusIff(status, st);
          var y := x.(status := st,
                      reviewNotes := if Given(reviewNotes) then reviewNotes else x.reviewNotes,
                      reviewDate := if st in {R.Approved, R.Rejected} then Some(now) else x.reviewDate,
                      completionDate := if st == R.Completed then Some(now) else x.completionDate);
          Response(Ok, s.(requests := s.requests[id := y]))
  }

  /** Approving or rejecting a request always leaves it with a review date;
      completing it always leaves it with a completion date. */
  lemma SetStatusStampsDates(s: Store, c: Caller, id: Id, status: string, reviewNotes: Option<string>, now: Instant)
    requires SetStatus(s, c, id, status, reviewNotes, now).status == Ok
    ensures var y := SetStatus(s, c, id, status, reviewNotes, now).store.requests[id];
            (status in {"approved", "rejected"} ==> y.reviewDate == Some(now))
            && (status == "completed" ==> y.completionDate == Some(now))
            && (status !in {"approved", "rejected", "completed"} ==>
                  y.reviewDate == s.requests[id].reviewDate && y.completionDate == s.requests[id].completionDate)
  {
  }

  /** The document record for one stored file. */
  function DocumentFor(f: Upload.StoredFile, now: Instant): (d: R.Document)
    ensures d.name == f.originalname && d.uploadDate == now
    ensures d.url == "/uploads/documents/" + f.filename
  {
    R.Document(f.originalname, "/uploads/documents/" + f.filename, now)
  }

  /** `POST /api/requests/:id/documents`: the requester attaches the files
      the upload gate stored. The files are written before the handler
      runs, so they stay on disk even when it refuses. */
  function AddDocuments(s: Store, c: Caller, id: Id, files: seq<Upload.StoredFile>, now: Instant): (r: Response)
    ensures r.status == NotFound <==> id !in s.requests
    ensures r.status == Forbidden <==> id in s.requests && !Access.CanAttachDocuments(c, s.requests[id])
    ensures r.status == BadRequest <==> id in s.requests && Access.CanAttachDocuments(c, s.requests[id]) && files == []
    ensures r.status in {Ok, NotFound, Forbidden, BadRequest}
    ensures r.status != Ok ==> r.store == s
    ensures r.status == Ok ==> id in s.requests && id in r.store.requests
    ensures r.status == Ok ==>
              var x := s.requests[id];
              var y := r.store.requests[id];
              && r.store == s.(requests := s.requests[id := y])
              && |y.documents| == |x.documents| + |files|
              && y.documents[..|x.documents|] == x.documents
              && (forall i :: 0 <= i < |files| ==> y.documents[|x.documents| + i] == DocumentFor(files[i], now))
              && y.(documents := x.documents) == x
  {
    if id !in s.requests then Response(NotFound, s)
    else
      var x := s.requests[id];
      if !Access.CanAttachDocuments(c, x) then Response(Forbidden, s)
      else if files == [] then Response(BadRequest, s)
      else
        var added := seq(|files|, i requires 0 <= i < |files| => DocumentFor(files[i], now));
        var y := x.(documents := x.documents + added);
        Response(Ok, s.(requests := s.requests[id := y]))
  }

  /** The URL recorded for each attached document is the path the upload
      gate wrote it to, under the documents directory. */
  lemma DocumentUrlsPointAtStoredFiles(incoming: seq<Upload.Incoming>, suffix: nat -> string, now: Instant)
    requires Upload.Receive("documents", 5, incoming, suffix).Stored?
    ensures var files := Upload.Receive("documents", 5, incoming, suffix).files;
            forall i :: 0 <= i < |files| ==>
              DocumentFor(files[i], now).url == "/" + files[i].destination + files[i].filename
              && StartsWith(files[i].filename, "documents-")
  {
    var files := Upload.Receive("documents", 5, incoming, suffix).files;
    forall i | 0 <= i < |files|
      ensures DocumentFor(files[i], now).url == "/" + files[i].destination + files[i].filename
      ensures StartsWith(files[i].filename, "documents-")
    {
      StoredDocumentUrl(files[i], suffix(i), incoming[i], now);
    }
  }

  lemma StoredDocumentUrl(f: Upload.StoredFile, suffix: string, g: Upload.Incoming, now: Instant)
    requires f == Upload.Store("documents", suffix, g)
    ensures DocumentFor(f, now).url == "/" + f.destination + f.filename
    ensures StartsWith(f.filename, "documents-")
  {
    DocumentsDirectory(f, suffix, g);
    UrlUnderDocumentsDirectory(f, now);
  }

  /** A file stored for the `documents` field lands in the documents
      directory under a name starting with the field. */
  lemma DocumentsDirectory(f: Upload.StoredFile, suffix: string, g: Upload.Incoming)
    requires f == Upload.Store("documents", suffix, g)
    ensures f.destination == "uploads/documents/"
    ensures StartsWith(f.filename, "documents-")
  {
    var prefix := "documents" + "-";
    assert StartsWith(f.filename, prefix);
    assert prefix == "documents-";
  }

  /** The recorded URL of a file in the documents directory is its path. */
  lemma UrlUnderDocumentsDirectory(f: Upload.StoredFile, now: Instant)
    requires f.destination == "uploads/documents/"
    ensures DocumentFor(f, now).url == "/" + f.destination + f.filename
  {
    assert "/" + f.destination == "/uploads/documents/";
  }

  /** `DELETE /api/requests/:id`: the requester or an admin removes it. */
  function Delete(s: Store, c: Caller, id: Id): (r: Response)
    ensures r.status == NotFound <==> id !in s.requests
    ensures r.status == Forbidden <==> id in s.requests && !Access.CanEditRequest(c, s.requests[id])
    ensures r.status in {Ok, NotFound, Forbidden}
    ensures r.status != Ok ==> r.store == s
    ensures r.status == Ok ==> r.store == s.(requests := s.requests - {id}) && id !in r.store.requests
  {
    if id !in s.requests then Response(NotFound, s)
    else if !Access.CanEditRequest(c, s.requests[id]) then Response(Forbidden, s)
    else Response(Ok, s.(requests := s.requests - {id}))
  }

  /** Every request route keeps every stored request valid. */
  lemma CreateKeepsValid(s: Store, c: Caller, b: RequestBody, now: Instant)
    requires Valid(s)
    ensures Valid(Create(s, c, b, now).store)
  {
  }

  lemma UpdateKeepsValid(s: Store, c: Caller, id: Id, p: RequestPatch)
    requires Valid(s)
    ensures Valid(Update(s, c, id, p).store)
  {
    if Update(s, c, id, p).status == Ok {
      PatchedKeepsValid(s.requests[id], p);
    }
  }

  lemma AssignKeepsValid(s: Store, c: Caller, id: Id, a: Option<Id>)
    requires Valid(s)
    ensures Valid(Assign(s, c, id, a).store)
  {
  }

  lemma SetStatusKeepsValid(s: Store, c: Caller, id: Id, status: string, notes: Option<string>, now: Instant)
    requires Valid(s)
    ensures Valid(SetStatus(s, c, id, status, notes, now).store)
  {
  }

  lemma AddDocumentsKeepsValid(s: Store, c: Caller, id: Id, files: seq<Upload.StoredFile>, now: Instant)
    requires Valid(s)
    ensures Valid(AddDocuments(s, c, id, files, now).store)
  {
  }

  lemma DeleteKeepsValid(s: Store, c: Caller, id: Id)
    requires Valid(s)
    ensures Valid(Delete(s, c, id).store)
  {
  }
}

=== FILE: sorting.dfy ===
/** Selection, sorting by a numeric key, largest first, and truncation: the
    `.find(query)`, `.sort('-key')` and `.limit(n)` steps the handlers ask of
    the database. */
module Sorting {

  /** The elements of `s` that satisfy `p`, in their original order. */
  function Keep<T(!new)>(s: seq<T>, p: T -> bool): (r: seq<T>)
    ensures |r| <= |s|
    ensures forall x :: x in r <==> x in s && p(x)
  {
    if s == [] then []
    else (if p(s[0]) then [s[0]] else []) + Keep(s[1..], p)
  }

  /** Keeping an element keeps every copy of it; dropping it drops every copy. */
  lemma {:induction false} KeepMultiplicity<T(!new)>(s: seq<T>, p: T -> bool, x: T)
    ensures multiset(Keep(s, p))[x] == if p(x) then multiset(s)[x] else 0
  {
    if s != [] {
      assert s == [s[0]] + s[1..];
      KeepMultiplicity(s[1..], p, x);
    }
  }

  /** A condition no element meets keeps nothing. */
  lemma {:induction false} KeepNothing<T(!new)>(s: seq<T>, p: T -> bool)
    requires forall i :: 0 <= i < |s| ==> !p(s[i])
    ensures Keep(s, p) == []
  {
    if s != [] {
      assert !p(s[0]);
      assert forall i :: 0 <= i < |s[1..]| ==> s[1..][i] == s[i + 1];
      KeepNothing(s[1..], p);
    }
  }

  predicate NonIncreasing<T>(s: seq<T>, key: T -> int)
  {
    forall i, j :: 0 <= i < j < |s| ==> key(s[i]) >= key(s[j])
  }

  function Insert<T>(x: T, s: seq<T>, key: T -> int): (r: seq<T>)
    requires NonIncreasing(s, key)
    ensures NonIncreasing(r, key)
    ensures multiset(r) == multiset(s) + multiset{x}
    ensures r[0] == x || r[0] == s[0]
  {
    if s == [] then [x]
    else if key(x) >= key(s[0]) then
      ConsSorted(x, s, key);
      [x] + s
    else
      var rest := Insert(x, s[1..], key);
      assert s == [s[0]] + s[1..];
      ConsSorted(s[0], rest, key);
      [s[0]] + rest
  }

  /** An element no smaller than the head of a sorted sequence extends it. */
  lemma ConsSorted<T>(h: T, t: seq<T>, key: T -> int)
    requires NonIncreasing(t, key)
    requires t == [] || key(h) >= key(t[0])
    ensures NonIncreasing([h] + t, key)
  {
  }

  /** Insertion sort: a permutation of `s` in non-increasing key order. */
  function SortDescending<T>(s: seq<T>, key: T -> int): (r: seq<T>)
    ensures NonIncreasing(r, key)
    ensures multiset(r) == multiset(s)
    ensures |r| == |s|
  {
    if s == [] then []
    else
      assert s == [s[0]] + s[1..];
      Insert(s[0], SortDescending(s[1..], key), key)
  }

  /** The first `n` elements, or all of them when there are fewer. */
  function Take<T>(s: seq<T>, n: nat): (r: seq<T>)
    ensures |r| <= n && |r| <= |s|
    ensures |s| <= n ==> r == s
    ensures |s| > n ==> |r| == n
    ensures r == s[..|r|]
  {
    if |s| <= n then s else s[..n]
  }

  /** Truncating keeps the order. */
  lemma TakeNonIncreasing<T>(s: seq<T>, n: nat, key: T -> int)
    requires NonIncreasing(s, key)
    ensures NonIncreasing(Take(s, n), key)
  {
  }

  /** Sorting loses nothing: an element is in the sorted sequence iff it is
      in the input. */
  lemma SortedMembership<T>(s: seq<T>, key: T -> int, x: T)
    ensures x in SortDescending(s, key) <==> x in s
  {
    var r := SortDescending(s, key);
    assert x in r <==> x in multiset(r);
    assert x in s <==> x in multiset(s);
  }

  /** A prefix is a sub-multiset of the whole. */
  lemma PrefixSubMultiset<T>(s: seq<T>, k: nat)
    requires k <= |s|
    ensures multiset(s[..k]) <= multiset(s)
    ensures forall x :: x in s[..k] ==> x in s
  {
    assert s == s[..k] + s[k..];
    assert multiset(s) == multiset(s[..k]) + multiset(s[k..]);
  }

  /** In a sorted sequence, nothing outside a prefix has a larger key than
      anything inside it. */
  lemma PrefixHoldsLargest<T>(s: seq<T>, k: nat, key: T -> int)
    requires NonIncreasing(s, key) && k <= |s|
    ensures forall x, y :: x in s[..k] && y in s && y !in s[..k] ==> key(x) >= key(y)
  {
    forall x, y | x in s[..k] && y in s && y !in s[..k]
      ensures key(x) >= key(y)
    {
      var i :| 0 <= i < k && s[..k][i] == x;
      var j :| 0 <= j < |s| && s[j] == y;
      assert s[i] == x;
    }
  }

  /** The `n` elements with the largest keys, largest first: `.sort('-key')`
      followed by `.limit(n)`. The lemmas below say that nothing is
      invented, that nothing left out has a larger key than anything kept,
      and that nothing is left out when all fit. */
  function Top<T>(s: seq<T>, key: T -> int, n: nat): (r: seq<T>)
    ensures |r| == if |s| <= n then |s| else n
    ensures NonIncreasing(r, key)
    ensures forall x :: x in r ==> x in s
  {
    var sorted := SortDescending(s, key);
    var r := Take(sorted, n);
    PrefixSubMultiset(sorted, |r|);
    forall x | x in sorted
      ensures x in s
    {
      SortedMembership(s, key, x);
    }
    r
  }

  /** Each element is kept at most as often as it occurs. */
  lemma TopSubMultiset<T>(s: seq<T>, key: T -> int, n: nat)
    ensures multiset(Top(s, key, n)) <= multiset(s)
  {
    var sorted := SortDescending(s, key);
    PrefixSubMultiset(sorted, |Top(s, key, n)|);
  }

  /** When everything fits, everything is kept. */
  lemma TopKeepsAll<T>(s: seq<T>, key: T -> int, n: nat, y: T)
    requires |s| <= n && y in s
    ensures y in Top(s, key, n)
  {
    SortedMembership(s, key, y);
  }

  /** Nothing left out has a larger key than anything kept. */
  lemma TopOutranks<T>(s: seq<T>, key: T -> int, n: nat, x: T, y: T)
    requires x in Top(s, key, n) && y in s && y !in Top(s, key, n)
    ensures key(x) >= key(y)
  {
    var sorted := SortDescending(s, key);
    var k := |Top(s, key, n)|;
    PrefixHoldsLargest(sorted, k, key);
    SortedMembership(s, key, y);
  }

  /** An element is among the top `n`, or the top `n` are full and each
      outranks it. */
  lemma TopShownOrOutranked<T>(s: seq<T>, key: T -> int, n: nat, y: T)
    requires y in s
    ensures var r := Top(s, key, n);
            y in r || (|r| == n && forall i :: 0 <= i < |r| ==> key(r[i]) >= key(y))
  {
    var r := Top(s, key, n);
    if y !in r {
      if |s| <= n {
        TopKeepsAll(s, key, n, y);
      }
      forall i | 0 <= i < |r|
        ensures key(r[i]) >= key(y)
      {
        assert r[i] in r;
        TopOutranks(s, key, n, r[i], y);
      }
    }
  }

  /** Filtering keeps the order, so it keeps a sequence sorted. */
  lemma {:induction false} KeepNonIncreasing<T(!new)>(s: seq<T>, p: T -> bool, key: T -> int)
    requires NonIncreasing(s, key)
    ensures NonIncreasing(Keep(s, p), key)
  {
    if s != [] {
      KeepNonIncreasing(s[1..], p, key);
      var rest := Keep(s[1..], p);
      forall y | y in rest
        ensures key(s[0]) >= key(y)
      {
        var j :| 0 <= j < |s[1..]| && s[1..][j] == y;
        assert s[j + 1] == y;
      }
    }
  }

  /** The number of elements of `s` that satisfy `p`. */
  function Count<T>(s: seq<T>, p: T -> bool): (n: nat)
    ensures n <= |s|
  {
    if s == [] then 0 else Count(s[..|s| - 1], p) + (if p(s[|s| - 1]) then 1 else 0)
  }

  /** Two conditions that no element satisfies together, and that each
      imply a third, count together at most as many as the third. */
  lemma {:induction false} CountDisjoint<T>(s: seq<T>, p: T -> bool, q: T -> bool, r: T -> bool)
    requires forall i :: 0 <= i < |s| ==> !(p(s[i]) && q(s[i]))
    requires forall i :: 0 <= i < |s| ==> (p(s[i]) ==> r(s[i])) && (q(s[i]) ==> r(s[i]))
    ensures Count(s, p) + Count(s, q) <= Count(s, r)
  {
    if s != [] {
      CountDisjoint(s[..|s| - 1], p, q, r);
    }
  }

  /** A condition that implies another counts at most as many. */
  lemma {:induction false} CountImplies<T>(s: seq<T>, p: T -> bool, r: T -> bool)
    requires forall i :: 0 <= i < |s| ==> p(s[i]) ==> r(s[i])
    ensures Count(s, p) <= Count(s, r)
  {
    if s != [] {
      CountImplies(s[..|s| - 1], p, r);
    }
  }

  predicate Distinct<T(==)>(s: seq<T>)
  {
    forall i, j :: 0 <= i < j < |s| ==> s[i] != s[j]
  }

  /** No element of a sequence without repetitions occurs twice in it. */
  lemma {:induction false} DistinctMultiplicity<T>(s: seq<T>, x: T)
    requires Distinct(s)
    ensures multiset(s)[x] <= 1
  {
    if s != [] {
      var n := |s| - 1;
      DistinctMultiplicity(s[..n], x);
      assert s == s[..n] + [s[n]];
      assert multiset(s) == multiset(s[..n]) + multiset{s[n]};
      if x == s[n] {
        assert x !in s[..n];
      }
    }
  }

  /** Part of a sequence without repetitions has none either. */
  lemma SubMultisetDistinct<T>(s: seq<T>, r: seq<T>)
    requires Distinct(s) && multiset(r) <= multiset(s)
    ensures Distinct(r)
  {
    forall i, j | 0 <= i < j < |r|
      ensures r[i] != r[j]
    {
      if r[i] == r[j] {
        var x := r[i];
        assert r == r[..i] + [x] + r[i + 1..j] + [x] + r[j + 1..];
        assert multiset(r) == multiset(r[..i]) + multiset{x} + multiset(r[i + 1..j]) + multiset{x} + multiset(r[j + 1..]);
        assert multiset(r)[x] >= 2;
        DistinctMultiplicity(s, x);
        assert false;
      }
    }
  }

  /** Filtering keeps a sequence free of repetitions. */
  lemma {:induction false} KeepDistinct<T(!new)>(s: seq<T>, p: T -> bool)
    requires Distinct(s)
    ensures Distinct(Keep(s, p))
  {
    if s != [] {
      KeepDistinct(s[1..], p);
      if p(s[0]) {
        assert s[0] !in s[1..];
        var r := Keep(s, p);
        assert r == [s[0]] + Keep(s[1..], p);
        forall j | 0 < j < |r|
          ensures r[0] != r[j]
        {
          assert r[j] in Keep(s[1..], p);
        }
      }
    }
  }
}

=== FILE: stats.dfy ===
/** The `/api/stats` routes: the dashboard figures of each role, the monthly
    donation report, the campaign performance table and the top donors. The
    counts and aggregations the handlers ask of the database are computed
    here from the stored documents. */
module Stats {
  import opened Base
  import opened Time
  import opened Sorting
  import opened DocumentStore
  import C = CampaignModel
  import D = DonationModel
  import R = RequestModel
  import A = AssociationModel
  import Access
  import Counters

  // ------------------------------------------------------------ dashboard

  /** The figures `GET /api/stats/dashboard` returns; which ones depends on
      the caller's role. */
  datatype Dashboard =
    | AdminFigures(totalUsers: nat, totalAssociations: nat, verifiedAssociations: nat,
                   totalCampaigns: nat, activeCampaigns: nat, totalDonations: nat,
                   totalDonationAmount: int, totalRequests: nat, pendingRequests: nat)
    | AssociationFigures(totalCampaigns: nat, activeCampaigns: nat, completedCampaigns: nat,
                         totalDonations: nat, totalDonationAmount: int, totalRequests: nat,
                         pendingRequests: nat, beneficiariesHelped: int)
    | UserFigures(totalDonations: nat, totalDonationAmount: int, totalRequests: nat,
                  approvedRequests: nat, campaignsSupported: nat)

  /** Completed donations, narrowed to one association and one donor when
      those are given. */
  function CompletedOf(association: Match<Option<Id>>, donor: Match<Id>): (f: D.Filter)
    ensures forall d :: D.Selects(f, d) <==>
              d.paymentStatus == D.Completed && Matches(association, Some(d.association)) && Matches(donor, d.donor)
  {
    D.Everything.(donor := donor, association := association, status := Is(D.Completed))
  }

  /** The `$sum` of `beneficiariesCount` over the campaigns owned by `a`. */
  function Beneficiaries(cs: seq<C.Campaign>, a: Option<Id>): int
  {
    if cs == [] then 0
    else Beneficiaries(cs[..|cs| - 1], a)
         + (if Some(cs[|cs| - 1].association) == a then cs[|cs| - 1].beneficiariesCount else 0)
  }

  /** The campaigns a set of donations went to: `Donation.distinct('campaign')`. */
  function Supported(ds: seq<D.Donation>): (r: set<Id>)
    ensures |r| <= |ds|
    ensures forall x :: x in r <==> exists i :: 0 <= i < |ds| && ds[i].campaign == x
  {
    if ds == [] then {}
    else
      var rest := Supported(ds[..|ds| - 1]);
      assert forall i :: 0 <= i < |ds| - 1 ==> ds[..|ds| - 1][i] == ds[i];
      rest + {ds[|ds| - 1].campaign}
  }

  /** The conditions the dashboard counts by. */
  predicate VerifiedAssociation(a: A.Association)
  {
    a.isVerified
  }

  predicate ActiveCampaign(x: C.Campaign)
  {
    x.status == C.Active
  }

  predicate PendingRequest(q: R.Request)
  {
    q.status == R.Pending
  }

  /** A donation filter as a condition on donations. */
  function SelectedBy(f: D.Filter): D.Donation -> bool
  {
    (d: D.Donation) => D.Selects(f, d)
  }

  /** Selecting by a filter keeps as many donations as meet it. */
  lemma {:induction false} SelectCount(ds: seq<D.Donation>, f: D.Filter)
    ensures |D.Select(ds, f)| == Count(ds, SelectedBy(f))
  {
    if ds != [] {
      SelectCount(ds[..|ds| - 1], f);
    }
  }

  function OwnedBy(a: Option<Id>): C.Campaign -> bool
  {
    (x: C.Campaign) => Some(x.association) == a
  }

  function InStatusOf(a: Option<Id>, st: C.CampaignStatus): C.Campaign -> bool
  {
    (x: C.Campaign) => Some(x.association) == a && x.status == st
  }

  function AssignedTo(a: Option<Id>): R.Request -> bool
  {
    (q: R.Request) => q.assignedAssociation == a
  }

  function OpenAssignedTo(a: Option<Id>): R.Request -> bool
  {
    (q: R.Request) => q.assignedAssociation == a && q.status in {R.Pending, R.Reviewing}
  }

  function RequestedBy(id: Id): R.Request -> bool
  {
    (q: R.Request) => q.requester == id
  }

  function ApprovedFor(id: Id): R.Request -> bool
  {
    (q: R.Request) => q.requester == id && q.status == R.Approved
  }

  /** The completed donations of the whole platform, of one association and
      of one donor. */
  function CompletedDonations(s: Store, association: Match<Option<Id>>, donor: Match<Id>): (r: seq<D.Donation>)
    ensures forall d :: d in r <==>
              d in s.donations.Values && d.paymentStatus == D.Completed
              && Matches(association, Some(d.association)) && Matches(donor, d.donor)
  {
    forall d
      ensures d in Values(s.donations) <==> d in s.donations.Values
    {
      ValuesMembership(s.donations, d);
    }
    D.Select(Values(s.donations), CompletedOf(association, donor))
  }

  function AdminDashboard(s: Store): (r: Dashboard)
    ensures r.AdminFigures?
  {
    AdminFigures(
      |s.users|,
      |s.associations|,
      Count(Values(s.associations), VerifiedAssociation),
      |s.campaigns|,
      Count(Values(s.campaigns), ActiveCampaign),
      |s.donations|,
      D.Total(CompletedDonations(s, Any, Any)),
      |s.requests|,
      Count(Values(s.requests), PendingRequest))
  }

  function AssociationDashboard(s: Store, a: Option<Id>): (r: Dashboard)
    ensures r.AssociationFigures?
  {
    var cs := Values(s.campaigns);
    var completed := CompletedDonations(s, Is(a), Any);
    AssociationFigures(
      Count(cs, OwnedBy(a)),
      Count(cs, InStatusOf(a, C.Active)),
      Count(cs, InStatusOf(a, C.Completed)),
      |completed|,
      D.Total(completed),
      Count(Values(s.requests), AssignedTo(a)),
      Count(Values(s.requests), OpenAssignedTo(a)),
      Beneficiaries(cs, a))
  }

  function UserDashboard(s: Store, id: Id): (r: Dashboard)
    ensures r.UserFigures?
  {
    var completed := CompletedDonations(s, Any, Is(id));
    UserFigures(
      |D.Select(Values(s.donations), D.Everything.(donor := Is(id)))|,
      D.Total(completed),
      Count(Values(s.requests), RequestedBy(id)),
      Count(Values(s.requests), ApprovedFor(id)),
      |Supported(completed)|)
  }

  /** `GET /api/stats/dashboard` as written: any signed-in caller gets the
      figures of their role, a user's amount coming from the uncast
      aggregation. */
  function DashboardOf(s: Store, c: Caller): (r: Dashboard)
    ensures r.AdminFigures? <==> c.role == AdminRole
    ensures r.AssociationFigures? <==> c.role == AssociationRole
    ensures r.UserFigures? <==> c.role == UserRole
    ensures r.AdminFigures? ==>
              r.totalUsers == |s.users| && r.totalAssociations == |s.associations|
              && r.totalCampaigns == |s.campaigns| && r.totalDonations == |s.donations|
              && r.totalRequests == |s.requests|
    ensures r.UserFigures? ==> r.totalDonationAmount == 0
  {
    match c.role
    case AdminRole => AdminDashboard(s)
    case AssociationRole => AssociationDashboard(s, c.associationId)
    case UserRole => UserDashboardAsWritten(s, c.id)
  }

  /** The dashboard with a user's amount summed over their completed
      donations; the other roles' figures are those of the handler. */
  function DashboardCorrected(s: Store, c: Caller): (r: Dashboard)
    ensures r.UserFigures? <==> c.role == UserRole
    ensures c.role != UserRole ==> r == DashboardOf(s, c)
    ensures c.role == UserRole ==>
              var w := DashboardOf(s, c);
              && r.totalDonations == w.totalDonations && r.totalRequests == w.totalRequests
              && r.approvedRequests == w.approvedRequests && r.campaignsSupported == w.campaignsSupported
    ensures c.role == UserRole && ValidDonations(s.donations) ==>
              (r.totalDonationAmount == 0 <==>
                 forall d :: d in s.donations.Values && d.donor == c.id ==> d.paymentStatus != D.Completed)
  {
    if c.role == UserRole then
      var u := UserDashboard(s, c.id);
      assert ValidDonations(s.donations) ==>
               (u.totalDonationAmount == 0 <==>
                  forall d :: d in s.donations.Values && d.donor == c.id ==> d.paymentStatus != D.Completed) by {
        if ValidDonations(s.donations) {
          UserDashboardAmount(s, c.id);
        }
      }
      u
    else DashboardOf(s, c)
  }

  /** The number of campaigns whose owner is `aid` is the running
      `totalCampaigns` counter's intended value. */
  lemma {:induction false} CountIsOwned(cs: seq<C.Campaign>, aid: Id)
    ensures Count(cs, OwnedBy(Some(aid))) == Counters.Owned(cs, aid)
  {
    if cs != [] {
      CountIsOwned(cs[..|cs| - 1], aid);
    }
  }

  /** The sum of valid donations is at least their number, so it is 0
      exactly when there is none. */
  lemma ValidTotal(s: Store, ds: seq<D.Donation>)
    requires ValidDonations(s.donations)
    requires forall d :: d in ds ==> d in s.donations.Values
    ensures D.Total(ds) >= |ds|
    ensures D.Total(ds) == 0 <==> ds == []
  {
    forall i | 0 <= i < |ds|
      ensures D.Valid(ds[i])
    {
      assert ds[i] in ds;
    }
    D.TotalOfValid(ds);
  }

  /** The admin's figures: each part count is bounded by its whole. */
  lemma AdminDashboardBounds(s: Store)
    ensures var r := AdminDashboard(s);
            && r.verifiedAssociations <= r.totalAssociations
            && r.activeCampaigns <= r.totalCampaigns
            && r.pendingRequests <= r.totalRequests
  {
    ValuesCount(s.associations);
    ValuesCount(s.campaigns);
    ValuesCount(s.requests);
  }

  /** The admin's part counts are the numbers of stored documents in
      each state. */
  lemma AdminDashboardCounts(s: Store)
    ensures var r := AdminDashboard(s);
            && r.verifiedAssociations == |set k | k in s.associations && s.associations[k].isVerified|
            && r.activeCampaigns == |set k | k in s.campaigns && s.campaigns[k].status == C.Active|
            && r.pendingRequests == |set k | k in s.requests && s.requests[k].status == R.Pending|
  {
    var r := AdminDashboard(s);
    assert r.verifiedAssociations == Count(Values(s.associations), VerifiedAssociation);
    assert r.activeCampaigns == Count(Values(s.campaigns), ActiveCampaign);
    assert r.pendingRequests == Count(Values(s.requests), PendingRequest);
    VerifiedCount(s);
    ActiveCount(s);
    PendingCount(s);
  }

  lemma VerifiedCount(s: Store)
    ensures Count(Values(s.associations), VerifiedAssociation)
            == |set k | k in s.associations && s.associations[k].isVerified|
  {
    CountValues(s.associations, VerifiedAssociation);
    VerifiedIds(s);
  }

  lemma VerifiedIds(s: Store)
    ensures Meeting(s.associations, VerifiedAssociation)
            == set k | k in s.associations && s.associations[k].isVerified
  {
    var lhs := Meeting(s.associations, VerifiedAssociation);
    var rhs := set k | k in s.associations && s.associations[k].isVerified;
    forall k
      ensures k in lhs <==> k in rhs
    {
    }
  }

  lemma ActiveCount(s: Store)
    ensures Count(Values(s.campaigns), ActiveCampaign)
            == |set k | k in s.campaigns && s.campaigns[k].status == C.Active|
  {
    CountValues(s.campaigns, ActiveCampaign);
    ActiveIds(s);
  }

  lemma ActiveIds(s: Store)
    ensures Meeting(s.campaigns, ActiveCampaign)
            == set k | k in s.campaigns && s.campaigns[k].status == C.Active
  {
    var lhs := Meeting(s.campaigns, ActiveCampaign);
    var rhs := set k | k in s.campaigns && s.campaigns[k].status == C.Active;
    forall k
      ensures k in lhs <==> k in rhs
    {
    }
  }

  lemma PendingCount(s: Store)
    ensures Count(Values(s.requests), PendingRequest)
            == |set k | k in s.requests && s.requests[k].status == R.Pending|
  {
    CountValues(s.requests, PendingRequest);
    PendingIds(s);
  }

  lemma PendingIds(s: Store)
    ensures Meeting(s.requests, PendingRequest)
            == set k | k in s.requests && s.requests[k].status == R.Pending
  {
    var lhs := Meeting(s.requests, PendingRequest);
    var rhs := set k | k in s.requests && s.requests[k].status == R.Pending;
    forall k
      ensures k in lhs <==> k in rhs
    {
    }
  }

  /** No completed donation is selected exactly when none is stored. */
  lemma NoneCompleted(s: Store)
    ensures CompletedDonations(s, Any, Any) == [] <==>
              forall d :: d in s.donations.Values ==> d.paymentStatus != D.Completed
  {
    var completed := CompletedDonations(s, Any, Any);
    if completed != [] {
      assert completed[0] in completed;
    }
  }

  /** In a valid store the amount the admin sees is 0 exactly when no
      donation has completed. */
  lemma AdminDashboardAmount(s: Store)
    requires ValidDonations(s.donations)
    ensures AdminDashboard(s).totalDonationAmount >= 0
    ensures AdminDashboard(s).totalDonationAmount == 0 <==>
              forall d :: d in s.donations.Values ==> d.paymentStatus != D.Completed
  {
    var completed := CompletedDonations(s, Any, Any);
    assert AdminDashboard(s).totalDonationAmount == D.Total(completed);
    ValidTotal(s, completed);
    NoneCompleted(s);
  }

  /** An association's figures: its active and completed campaigns are
      among its campaigns and its pending requests among its requests. */
  lemma AssociationDashboardBounds(s: Store, a: Option<Id>)
    ensures var r := AssociationDashboard(s, a);
            && r.activeCampaigns + r.completedCampaigns <= r.totalCampaigns
            && r.pendingRequests <= r.totalRequests
  {
    CountDisjoint(Values(s.campaigns), InStatusOf(a, C.Active), InStatusOf(a, C.Completed), OwnedBy(a));
    CountImplies(Values(s.requests), OpenAssignedTo(a), AssignedTo(a));
  }

  /** An association's counts are the numbers of its stored campaigns, of
      those active and completed, of its completed donations, and of the
      requests assigned to it and those still open. */
  lemma AssociationDashboardCounts(s: Store, a: Option<Id>)
    ensures var r := AssociationDashboard(s, a);
            && r.totalCampaigns == |set k | k in s.campaigns && Some(s.campaigns[k].association) == a|
            && r.activeCampaigns ==
                 |set k | k in s.campaigns && Some(s.campaigns[k].association) == a && s.campaigns[k].status == C.Active|
            && r.completedCampaigns ==
                 |set k | k in s.campaigns && Some(s.campaigns[k].association) == a && s.campaigns[k].status == C.Completed|
            && r.totalDonations ==
                 |set k | k in s.donations && Some(s.donations[k].association) == a
                          && s.donations[k].paymentStatus == D.Completed|
            && r.totalRequests == |set k | k in s.requests && s.requests[k].assignedAssociation == a|
            && r.pendingRequests ==
                 |set k | k in s.requests && s.requests[k].assignedAssociation == a
                          && s.requests[k].status in {R.Pending, R.Reviewing}|
  {
    var r := AssociationDashboard(s, a);
    var cs := Values(s.campaigns);
    assert r.totalCampaigns == Count(cs, OwnedBy(a));
    assert r.activeCampaigns == Count(cs, InStatusOf(a, C.Active));
    assert r.completedCampaigns == Count(cs, InStatusOf(a, C.Completed));
    assert r.totalDonations == |D.Select(Values(s.donations), CompletedOf(Is(a), Any))|;
    assert r.totalRequests == Count(Values(s.requests), AssignedTo(a));
    assert r.pendingRequests == Count(Values(s.requests), OpenAssignedTo(a));
    OwnedCampaignCount(s, a);
    InStatusCount(s, a, C.Active);
    InStatusCount(s, a, C.Completed);
    ReceivedCount(s, a);
    AssignedCount(s, a);
    OpenCount(s, a);
  }

  lemma OwnedCampaignCount(s: Store, a: Option<Id>)
    ensures Count(Values(s.campaigns), OwnedBy(a))
            == |set k | k in s.campaigns && Some(s.campaigns[k].association) == a|
  {
    CountValues(s.campaigns, OwnedBy(a));
    OwnedCampaignIds(s, a);
  }

  lemma OwnedCampaignIds(s: Store, a: Option<Id>)
    ensures Meeting(s.campaigns, OwnedBy(a))
            == set k | k in s.campaigns && Some(s.campaigns[k].association) == a
  {
    var lhs := Meeting(s.campaigns, OwnedBy(a));
    var rhs := set k | k in s.campaigns && Some(s.campaigns[k].association) == a;
    forall k
      ensures k in lhs <==> k in rhs
    {
    }
  }

  lemma InStatusCount(s: Store, a: Option<Id>, st: C.CampaignStatus)
    ensures Count(Values(s.campaigns), InStatusOf(a, st))
            == |set k | k in s.campaigns && Some(s.campaigns[k].association) == a && s.campaigns[k].status == st|
  {
    CountValues(s.campaigns, InStatusOf(a, st));
    InStatusIds(s, a, st);
  }

  lemma InStatusIds(s: Store, a: Option<Id>, st: C.CampaignStatus)
    ensures Meeting(s.campaigns, InStatusOf(a, st))
            == set k | k in s.campaigns && Some(s.campaigns[k].association) == a && s.campaigns[k].status == st
  {
    var lhs := Meeting(s.campaigns, InStatusOf(a, st));
    var rhs := set k | k in s.campaigns && Some(s.campaigns[k].association) == a && s.campaigns[k].status == st;
    forall k
      ensures k in lhs <==> k in rhs
    {
    }
  }

  lemma ReceivedCount(s: Store, a: Option<Id>)
    ensures |D.Select(Values(s.donations), CompletedOf(Is(a), Any))|
            == |set k | k in s.donations && Some(s.donations[k].association) == a
                        && s.donations[k].paymentStatus == D.Completed|
  {
    var theirs := CompletedOf(Is(a), Any);
    SelectCount(Values(s.donations), theirs);
    CountValues(s.donations, SelectedBy(theirs));
    ReceivedIds(s, a);
  }

  lemma ReceivedIds(s: Store, a: Option<Id>)
    ensures Meeting(s.donations, SelectedBy(CompletedOf(Is(a), Any)))
            == set k | k in s.donations && Some(s.donations[k].association) == a
                       && s.donations[k].paymentStatus == D.Completed
  {
    var lhs := Meeting(s.donations, SelectedBy(CompletedOf(Is(a), Any)));
    var rhs := set k | k in s.donations && Some(s.donations[k].association) == a
                     && s.donations[k].paymentStatus == D.Completed;
    forall k
      ensures k in lhs <==> k in rhs
    {
    }
  }

  lemma AssignedCount(s: Store, a: Option<Id>)
    ensures Count(Values(s.requests), AssignedTo(a))
            == |set k | k in s.requests && s.requests[k].assignedAssociation == a|
  {
    CountValues(s.requests, AssignedTo(a));
    AssignedIds(s, a);
  }

  lemma AssignedIds(s: Store, a: Option<Id>)
    ensures Meeting(s.requests, AssignedTo(a))
            == set k | k in s.requests && s.requests[k].assignedAssociation == a
  {
    var lhs := Meeting(s.requests, AssignedTo(a));
    var rhs := set k | k in s.requests && s.requests[k].assignedAssociation == a;
    forall k
      ensures k in lhs <==> k in rhs
    {
    }
  }

  lemma OpenCount(s: Store, a: Option<Id>)
    ensures Count(Values(s.requests), OpenAssignedTo(a))
            == |set k | k in s.requests && s.requests[k].assignedAssociation == a
                        && s.requests[k].status in {R.Pending, R.Reviewing}|
  {
    CountValues(s.requests, OpenAssignedTo(a));
    OpenIds(s, a);
  }

  lemma OpenIds(s: Store, a: Option<Id>)
    ensures Meeting(s.requests, OpenAssignedTo(a))
            == set k | k in s.requests && s.requests[k].assignedAssociation == a
                     && s.requests[k].status in {R.Pending, R.Reviewing}
  {
    var lhs := Meeting(s.requests, OpenAssignedTo(a));
    var rhs := set k | k in s.requests && s.requests[k].assignedAssociation == a
                     && s.requests[k].status in {R.Pending, R.Reviewing};
    forall k
      ensures k in lhs <==> k in rhs
    {
    }
  }

  /** In a valid store an association's amount is at least the number of
      its completed donations, and 0 exactly when there is none. */
  lemma AssociationDashboardAmount(s: Store, a: Option<Id>)
    requires ValidDonations(s.donations)
    ensures var r := AssociationDashboard(s, a);
            && r.totalDonationAmount >= r.totalDonations
            && (r.totalDonationAmount == 0 <==> r.totalDonations == 0)
  {
    ValidTotal(s, CompletedDonations(s, Is(a), Any));
  }

  /** Where the running counters are consistent, an association's dashboard
      agrees with its `totalCampaigns` counter, and the amount its completed
      donations raised is at most its `totalDonations` counter, which counts
      every payment status. */
  lemma AssociationDashboardAgreesWithCounters(s: Store, aid: Id)
    requires aid in s.associations
    requires Counters.Consistent(s) && ValidDonations(s.donations)
    ensures AssociationDashboard(s, Some(aid)).totalCampaigns == s.associations[aid].totalCampaigns
    ensures AssociationDashboard(s, Some(aid)).totalDonationAmount <= s.associations[aid].totalDonations
  {
    CountIsOwned(Values(s.campaigns), aid);
    var ds := Values(s.donations);
    forall i | 0 <= i < |ds|
      ensures ds[i].amount >= 0
    {
      ValuesMembership(s.donations, ds[i]);
    }
    D.SelectNarrowerTotal(ds, Counters.ForAssociation(aid), CompletedOf(Is(Some(aid)), Any));
  }

  /** A user's counts are the numbers of their stored donations, requests
      and approved requests, and of the campaigns their completed donations
      went to. */
  lemma UserDashboardCounts(s: Store, id: Id)
    ensures var r := UserDashboard(s, id);
            && r.totalDonations == |set k | k in s.donations && s.donations[k].donor == id|
            && r.totalRequests == |set k | k in s.requests && s.requests[k].requester == id|
            && r.approvedRequests ==
                 |set k | k in s.requests && s.requests[k].requester == id && s.requests[k].status == R.Approved|
            && r.campaignsSupported ==
                 |set k | k in s.donations && s.donations[k].donor == id
                          && s.donations[k].paymentStatus == D.Completed :: s.donations[k].campaign|
  {
    var r := UserDashboard(s, id);
    var completed := CompletedDonations(s, Any, Is(id));
    assert r.totalDonations == |D.Select(Values(s.donations), D.Everything.(donor := Is(id)))|;
    assert r.totalRequests == Count(Values(s.requests), RequestedBy(id));
    assert r.approvedRequests == Count(Values(s.requests), ApprovedFor(id));
    assert r.campaignsSupported == |Supported(completed)|;
    DonatedCount(s, id);
    RequestedCount(s, id);
    ApprovedCount(s, id);
    SupportedCampaigns(s, id);
  }

  lemma DonatedCount(s: Store, id: Id)
    ensures |D.Select(Values(s.donations), D.Everything.(donor := Is(id)))|
            == |set k | k in s.donations && s.donations[k].donor == id|
  {
    var mine := D.Everything.(donor := Is(id));
    SelectCount(Values(s.donations), mine);
    CountValues(s.donations, SelectedBy(mine));
    DonatedIds(s, id);
  }

  lemma DonatedIds(s: Store, id: Id)
    ensures Meeting(s.donations, SelectedBy(D.Everything.(donor := Is(id))))
            == set k | k in s.donations && s.donations[k].donor == id
  {
    var lhs := Meeting(s.donations, SelectedBy(D.Everything.(donor := Is(id))));
    var rhs := set k | k in s.donations && s.donations[k].donor == id;
    forall k
      ensures k in lhs <==> k in rhs
    {
    }
  }

  lemma RequestedCount(s: Store, id: Id)
    ensures Count(Values(s.requests), RequestedBy(id)) == |set k | k in s.requests && s.requests[k].requester == id|
  {
    CountValues(s.requests, RequestedBy(id));
    RequestedIds(s, id);
  }

  lemma RequestedIds(s: Store, id: Id)
    ensures Meeting(s.requests, RequestedBy(id))
            == set k | k in s.requests && s.requests[k].requester == id
  {
    var lhs := Meeting(s.requests, RequestedBy(id));
    var rhs := set k | k in s.requests && s.requests[k].requester == id;
    forall k
      ensures k in lhs <==> k in rhs
    {
    }
  }

  lemma ApprovedCount(s: Store, id: Id)
    ensures Count(Values(s.requests), ApprovedFor(id))
            == |set k | k in s.requests && s.requests[k].requester == id && s.requests[k].status == R.Approved|
  {
    CountValues(s.requests, ApprovedFor(id));
    ApprovedIds(s, id);
  }

  lemma ApprovedIds(s: Store, id: Id)
    ensures Meeting(s.requests, ApprovedFor(id))
            == set k | k in s.requests && s.requests[k].requester == id && s.requests[k].status == R.Approved
  {
    var lhs := Meeting(s.requests, ApprovedFor(id));
    var rhs := set k | k in s.requests && s.requests[k].requester == id && s.requests[k].status == R.Approved;
    forall k
      ensures k in lhs <==> k in rhs
    {
    }
  }

  /** The campaigns a user supported are those of their completed donations. */
  lemma SupportedCampaigns(s: Store, id: Id)
    ensures Supported(CompletedDonations(s, Any, Is(id)))
            == set k | k in s.donations && s.donations[k].donor == id
                       && s.donations[k].paymentStatus == D.Completed :: s.donations[k].campaign
  {
    var target := set k | k in s.donations && s.donations[k].donor == id
                          && s.donations[k].paymentStatus == D.Completed :: s.donations[k].campaign;
    forall x
      ensures x in Supported(CompletedDonations(s, Any, Is(id))) <==> x in target
    {
      SupportedIff(s, id, x);
      if x in target {
        var k :| k in s.donations && s.donations[k].donor == id
                 && s.donations[k].paymentStatus == D.Completed && s.donations[k].campaign == x;
        assert s.donations[k] in s.donations.Values;
      }
      if exists d :: d in s.donations.Values && d.donor == id && d.paymentStatus == D.Completed && d.campaign == x {
        var d :| d in s.donations.Values && d.donor == id && d.paymentStatus == D.Completed && d.campaign == x;
        var k :| k in s.donations && s.donations[k] == d;
        assert x in target;
      }
    }
  }

  /** A user's figures: approved requests are among their requests, and they
      supported no more campaigns than they made donations. */
  lemma UserDashboardBounds(s: Store, id: Id)
    ensures var r := UserDashboard(s, id);
            && r.approvedRequests <= r.totalRequests
            && r.campaignsSupported <= r.totalDonations
  {
    CountImplies(Values(s.requests), ApprovedFor(id), RequestedBy(id));
    D.SelectNarrowerCount(Values(s.donations), D.Everything.(donor := Is(id)), CompletedOf(Any, Is(id)));
  }

  /** A user's donation count takes every payment status, the amount only
      completed donations: recording a donation that has not completed adds
      one to the count and nothing to the amount. */
  lemma UserDashboardCountsEveryStatus(s: Store, id: Id, d: D.Donation)
    requires d.donor == id && d.paymentStatus != D.Completed
    ensures var before := UserDashboard(s, id);
            var after := UserDashboard(s.(donations := s.donations[FreshId(s.donations.Keys) := d]), id);
            && after.totalDonations == before.totalDonations + 1
            && after.totalDonationAmount == before.totalDonationAmount
  {
    var t := s.(donations := s.donations[FreshId(s.donations.Keys) := d]);
    var mine := D.Everything.(donor := Is(id));
    var completed := CompletedOf(Any, Is(id));
    Counters.LedgerAfterInsert(s.donations, d, mine);
    Counters.LedgerAfterInsert(s.donations, d, completed);
    assert !D.Selects(completed, d);
    UserLedger(s, id);
    UserLedger(t, id);
  }

  /** The user's donation count and amount read off the donation ledger. */
  lemma UserLedger(s: Store, id: Id)
    ensures UserDashboard(s, id).totalDonations
            == |D.Select(Values(s.donations), D.Everything.(donor := Is(id)))|
    ensures UserDashboard(s, id).totalDonationAmount
            == D.Total(D.Select(Values(s.donations), CompletedOf(Any, Is(id))))
  {
  }

  /** The user's amount is the sum of their completed donations: never
      negative, and 0 exactly when none of their donations has completed. */
  lemma UserDashboardAmount(s: Store, id: Id)
    requires ValidDonations(s.donations)
    ensures UserDashboard(s, id).totalDonationAmount >= 0
    ensures UserDashboard(s, id).totalDonationAmount == 0 <==>
              forall d :: d in s.donations.Values && d.donor == id ==> d.paymentStatus != D.Completed
  {
    var completed := CompletedDonations(s, Any, Is(id));
    ValidTotal(s, completed);
    NoneCompletedBy(s, id);
  }

  /** A user has no completed donation exactly when none of their donations
      has completed. */
  lemma NoneCompletedBy(s: Store, id: Id)
    ensures CompletedDonations(s, Any, Is(id)) == [] <==>
              forall d :: d in s.donations.Values && d.donor == id ==> d.paymentStatus != D.Completed
  {
    var completed := CompletedDonations(s, Any, Is(id));
    if completed != [] {
      var d := completed[0];
      assert d in completed;
    } else {
      forall d | d in s.donations.Values && d.donor == id
        ensures d.paymentStatus != D.Completed
      {
        assert d !in completed;
      }
    }
  }

  /** How the user branch's aggregation compares a stored donor with the
      caller. `req.user.id` is the id as a string; an aggregation's `$match`
      does not cast it to an ObjectId, and a stored ObjectId never equals a
      string, so no stored donor matches. */
  predicate UncastDonorMatches(stored: Id, given: Id)
  {
    false
  }

  /** The user's figures as the handler computes them. The count, the
      requests and `distinct` cast the id and match; the amount comes from the
      uncast aggregation, which matches nothing, so `[0]?.total || 0` gives 0. */
  function UserDashboardAsWritten(s: Store, id: Id): (r: Dashboard)
    ensures r.UserFigures? && r.totalDonationAmount == 0
    ensures var u := UserDashboard(s, id);
            && r.totalDonations == u.totalDonations && r.totalRequests == u.totalRequests
            && r.approvedRequests == u.approvedRequests && r.campaignsSupported == u.campaignsSupported
  {
    var u := UserDashboard(s, id);
    var completed := CompletedDonations(s, Any, Any);
    var uncast := (d: D.Donation) => UncastDonorMatches(d.donor, id);
    KeepNothing(completed, uncast);
    var matched := Keep(completed, uncast);
    UserFigures(u.totalDonations, if matched == [] then 0 else D.Total(matched),
                u.totalRequests, u.approvedRequests, u.campaignsSupported)
  }

  /** A user with a completed donation sees an amount of 0 as written, while
      the sum of their completed donations is at least 1. */
  lemma UserDashboardAsWrittenLosesAmount(s: Store, id: Id, d: D.Donation)
    requires ValidDonations(s.donations)
    requires d in s.donations.Values && d.donor == id && d.paymentStatus == D.Completed
    ensures UserDashboardAsWritten(s, id).totalDonationAmount == 0
    ensures UserDashboard(s, id).totalDonationAmount >= 1
  {
    var completed := CompletedDonations(s, Any, Is(id));
    ValidTotal(s, completed);
    assert d in completed;
  }

  /** A campaign counts as supported exactly when the user has a completed
      donation to it. */
  lemma SupportedIff(s: Store, id: Id, cid: Id)
    ensures cid in Supported(CompletedDonations(s, Any, Is(id))) <==>
              exists d :: d in s.donations.Values && d.donor == id
                          && d.paymentStatus == D.Completed && d.campaign == cid
  {
    var completed := CompletedDonations(s, Any, Is(id));
    assert forall d :: d in completed <==> d in s.donations.Values && d.donor == id && d.paymentStatus == D.Completed;
    SupportedMembership(completed, cid);
  }

  lemma SupportedMembership(ds: seq<D.Donation>, cid: Id)
    ensures cid in Supported(ds) <==> exists d :: d in ds && d.campaign == cid
  {
    if cid in Supported(ds) {
      var i :| 0 <= i < |ds| && ds[i].campaign == cid;
      assert ds[i] in ds;
    }
  }

  // ------------------------------------------------------- monthly report

  /** One row of the monthly report: `_id` is the month. */
  datatype MonthTotal = MonthTotal(month: int, totalAmount: int, count: nat)

  function InMonth(ds: seq<D.Donation>, m: int): (r: seq<D.Donation>)
    ensures |r| <= |ds|
    ensures forall d :: d in r <==> d in ds && d.donationDate.month == m
  {
    Keep(ds, (d: D.Donation) => d.donationDate.month == m)
  }

  /** `$group` by `$month` followed by `$sort` on the month, over the months
      `from` to 12: one row per month that has a donation, in month order,
      with that month's sum and count. */
  function GroupByMonth(ds: seq<D.Donation>, from: int): (r: seq<MonthTotal>)
    requires 1 <= from <= 13
    decreases 13 - from
    ensures forall i :: 0 <= i < |r| ==> from <= r[i].month <= 12
    ensures forall i, j :: 0 <= i < j < |r| ==> r[i].month < r[j].month
    ensures forall i :: 0 <= i < |r| ==>
              r[i].count == |InMonth(ds, r[i].month)| && r[i].count >= 1
              && r[i].totalAmount == D.Total(InMonth(ds, r[i].month))
  {
    if from == 13 then []
    else
      var here := InMonth(ds, from);
      var rest := GroupByMonth(ds, from + 1);
      if here == [] then rest
      else
        var r := [MonthTotal(from, D.Total(here), |here|)] + rest;
        assert forall i :: 0 < i < |r| ==> r[i] == rest[i - 1];
        r
  }

  /** One step of the grouping: the month `from` leads the rows when it has a
      donation. */
  lemma GroupByMonthStep(ds: seq<D.Donation>, from: int)
    requires 1 <= from <= 12
    ensures InMonth(ds, from) == [] ==> GroupByMonth(ds, from) == GroupByMonth(ds, from + 1)
    ensures InMonth(ds, from) != [] ==>
              GroupByMonth(ds, from) == [MonthTotal(from, D.Total(InMonth(ds, from)), |InMonth(ds, from)|)] + GroupByMonth(ds, from + 1)
  {
  }

  /** A row of the later months is still a row once month `from` is added. */
  lemma GroupByMonthLater(ds: seq<D.Donation>, from: int, i: nat)
    requires 1 <= from <= 12 && i < |GroupByMonth(ds, from + 1)|
    ensures exists j :: 0 <= j < |GroupByMonth(ds, from)| && GroupByMonth(ds, from)[j] == GroupByMonth(ds, from + 1)[i]
  {
    GroupByMonthStep(ds, from);
    if InMonth(ds, from) != [] {
      assert GroupByMonth(ds, from)[i + 1] == GroupByMonth(ds, from + 1)[i];
    } else {
      assert GroupByMonth(ds, from)[i] == GroupByMonth(ds, from + 1)[i];
    }
  }

  /** Every month from `from` on in which a donation was made has its row. */
  lemma {:induction false} GroupByMonthCovers(ds: seq<D.Donation>, from: int, d: D.Donation)
    requires 1 <= from <= 13
    requires d in ds && from <= d.donationDate.month <= 12
    decreases 13 - from
    ensures exists i :: 0 <= i < |GroupByMonth(ds, from)| && GroupByMonth(ds, from)[i].month == d.donationDate.month
  {
    if d.donationDate.month == from {
      assert d in InMonth(ds, from);
      GroupByMonthStep(ds, from);
      assert GroupByMonth(ds, from)[0].month == from;
    } else {
      GroupByMonthCovers(ds, from + 1, d);
      var rest := GroupByMonth(ds, from + 1);
      var i :| 0 <= i < |rest| && rest[i].month == d.donationDate.month;
      GroupByMonthLater(ds, from, i);
    }
  }

  /** The completed donations the report covers: for an association only its
      own. */
  function ReportScope(c: Caller): (f: D.Filter)
    ensures forall d :: D.Selects(f, d) <==>
              d.paymentStatus == D.Completed
              && (c.role == AssociationRole ==> Some(d.association) == c.associationId)
  {
    if c.role == AssociationRole then CompletedOf(Is(c.associationId), Any) else CompletedOf(Any, Any)
  }

  /** The date range as written: from `new Date('YYYY-01-01')` up to and
      including `new Date('YYYY-12-31')`, which is midnight at the start of
      December 31. */
  predicate InYearAsWritten(year: int, t: Instant)
  {
    AtOrBefore(Midnight(year, 1, 1), t) && AtOrBefore(t, Midnight(year, 12, 31))
  }

  /** The range the report evidently intends: up to, but not including,
      midnight at the start of the next year. */
  predicate InYear(year: int, t: Instant)
  {
    AtOrBefore(Midnight(year, 1, 1), t) && Ordinal(t) < Ordinal(Midnight(year + 1, 1, 1))
  }

  /** The as-written range holds every instant of the year up to midnight
      on December 31 and nothing later that day. */
  lemma InYearAsWrittenIff(year: int, t: Instant)
    requires WellFormed(t)
    ensures InYearAsWritten(year, t) <==> t.year == year && !(t.month == 12 && t.day == 31 && t.ms > 0)
  {
    OrdinalIsLexicographic(Midnight(year, 1, 1), t);
    OrdinalIsLexicographic(t, Midnight(year, 12, 31));
  }

  /** The intended range holds exactly the instants of the year. */
  lemma InYearIff(year: int, t: Instant)
    requires WellFormed(t)
    ensures InYear(year, t) <==> t.year == year
  {
    OrdinalIsLexicographic(Midnight(year, 1, 1), t);
    OrdinalIsLexicographic(Midnight(year + 1, 1, 1), t);
  }

  /** The as-written range, or the intended one. */
  predicate InRange(intended: bool, year: int, t: Instant)
  {
    if intended then InYear(year, t) else InYearAsWritten(year, t)
  }

  /** The donations in the report's scope dated within the range, each once
      per id it is stored under. */
  function Reported(s: Store, c: Caller, year: int, intended: bool): (r: seq<D.Donation>)
    ensures forall d :: d in r <==>
              d in s.donations.Values && D.Selects(ReportScope(c), d) && InRange(intended, year, d.donationDate)
    ensures forall d :: multiset(r)[d] ==
              if D.Selects(ReportScope(c), d) && InRange(intended, year, d.donationDate)
              then |Holders(s.donations, d)| else 0
  {
    var scoped := D.Select(Values(s.donations), ReportScope(c));
    var dated := (d: D.Donation) => InRange(intended, year, d.donationDate);
    forall d
      ensures d in Values(s.donations) <==> d in s.donations.Values
    {
      ValuesMembership(s.donations, d);
    }
    forall d
      ensures multiset(Keep(scoped, dated))[d] ==
                if D.Selects(ReportScope(c), d) && dated(d) then |Holders(s.donations, d)| else 0
    {
      KeepMultiplicity(scoped, dated, d);
      D.SelectMultiplicity(Values(s.donations), ReportScope(c), d);
      ValuesMultiplicity(s.donations, d);
    }
    Keep(scoped, dated)
  }

  /** The year the report covers: the `year` query parameter, or the
      current year. `getFullYear` reads the server's local calendar, not
      UTC, so here `now` stands for the clock as the server's time zone
      shows it. */
  function ReportYear(year: Option<int>, now: Instant): int
  {
    if year.Some? then year.value else now.year
  }

  /** `GET /api/stats/donations/monthly` as written: associations and admins
      only; completed donations dated within the as-written range, grouped
      by month. */
  function Monthly(s: Store, c: Caller, year: Option<int>, now: Instant): (r: Reply<seq<MonthTotal>>)
    ensures r.status == Forbidden <==> !Authorized(c, Access.AssociationOrAdmin)
    ensures r.status in {Ok, Forbidden}
    ensures r.status != Ok ==> r.value == []
    ensures r.status == Ok ==>
              var ds := Reported(s, c, ReportYear(year, now), false);
              && (forall i, j :: 0 <= i < j < |r.value| ==> r.value[i].month < r.value[j].month)
              && (forall i :: 0 <= i < |r.value| ==>
                    r.value[i].count == |InMonth(ds, r.value[i].month)| >= 1
                    && r.value[i].totalAmount == D.Total(InMonth(ds, r.value[i].month)))
              && (forall d :: d in ds && 1 <= d.donationDate.month <= 12 ==>
                    exists i :: 0 <= i < |r.value| && r.value[i].month == d.donationDate.month)
  {
    if !Authorized(c, Access.AssociationOrAdmin) then Reply(Forbidden, [])
    else
      var ds := Reported(s, c, ReportYear(year, now), false);
      forall d | d in ds && 1 <= d.donationDate.month <= 12
        ensures exists i :: 0 <= i < |GroupByMonth(ds, 1)| && GroupByMonth(ds, 1)[i].month == d.donationDate.month
      {
        GroupByMonthCovers(ds, 1, d);
      }
      Reply(Ok, GroupByMonth(ds, 1))
  }

  /** The monthly report with the intended range. */
  function MonthlyCorrected(s: Store, c: Caller, year: Option<int>, now: Instant): (r: Reply<seq<MonthTotal>>)
    ensures r.status == Forbidden <==> !Authorized(c, Access.AssociationOrAdmin)
    ensures r.status in {Ok, Forbidden}
    ensures r.status != Ok ==> r.value == []
    ensures r.status == Ok ==>
              var ds := Reported(s, c, ReportYear(year, now), true);
              && (forall i, j :: 0 <= i < j < |r.value| ==> r.value[i].month < r.value[j].month)
              && (forall i :: 0 <= i < |r.value| ==>
                    r.value[i].count == |InMonth(ds, r.value[i].month)| >= 1
                    && r.value[i].totalAmount == D.Total(InMonth(ds, r.value[i].month)))
              && (forall d :: d in ds && 1 <= d.donationDate.month <= 12 ==>
                    exists i :: 0 <= i < |r.value| && r.value[i].month == d.donationDate.month)
  {
    if !Authorized(c, Access.AssociationOrAdmin) then Reply(Forbidden, [])
    else
      var ds := Reported(s, c, ReportYear(year, now), true);
      forall d | d in ds && 1 <= d.donationDate.month <= 12
        ensures exists i :: 0 <= i < |GroupByMonth(ds, 1)| && GroupByMonth(ds, 1)[i].month == d.donationDate.month
      {
        GroupByMonthCovers(ds, 1, d);
      }
      Reply(Ok, GroupByMonth(ds, 1))
  }

  /** With the intended range, a completed donation in the caller's scope
      is counted exactly when it is dated in the requested year. */
  lemma MonthlyCorrectedCoversYear(s: Store, c: Caller, year: Option<int>, now: Instant, d: D.Donation)
    requires d in s.donations.Values && D.Selects(ReportScope(c), d) && WellFormed(d.donationDate)
    ensures d in Reported(s, c, ReportYear(year, now), true) <==> d.donationDate.year == ReportYear(year, now)
  {
    InYearIff(ReportYear(year, now), d.donationDate);
  }

  /** A completed donation made on December 31 after midnight is missing
      from the report as written, while the intended range counts it and
      reports a December row. */
  lemma MonthlyDropsLateDecember31(s: Store, c: Caller, year: int, now: Instant, d: D.Donation)
    requires Authorized(c, Access.AssociationOrAdmin)
    requires d in s.donations.Values && D.Selects(ReportScope(c), d)
    requires d.donationDate.year == year && d.donationDate.month == 12 && d.donationDate.day == 31
    requires 0 < d.donationDate.ms < MsPerDay
    ensures d !in Reported(s, c, year, false)
    ensures d in Reported(s, c, year, true)
    ensures exists i :: 0 <= i < |MonthlyCorrected(s, c, Some(year), now).value|
                        && MonthlyCorrected(s, c, Some(year), now).value[i].month == 12
  {
    InYearAsWrittenIff(year, d.donationDate);
    InYearIff(year, d.donationDate);
    assert !InRange(false, year, d.donationDate) && InRange(true, year, d.donationDate);
    var ds := Reported(s, c, ReportYear(Some(year), now), true);
    assert d in ds;
    var r := MonthlyCorrected(s, c, Some(year), now);
    assert r.status == Ok;
    assert exists i :: 0 <= i < |r.value| && r.value[i].month == d.donationDate.month;
  }

  // ----------------------------------------------------- campaign performance

  /** One row of the performance table. */
  datatype CampaignFigures = CampaignFigures(
    id: Id,
    title: string,
    goalAmount: int,
    currentAmount: int,
    percentage: Option<int>,
    donationsCount: int,
    status: C.CampaignStatus)

  /** `Math.round(current / goal * 100)` as the JSON response carries it,
      in exact arithmetic: a zero goal gives NaN or an infinity, which
      serialise as `null`. */
  function JsPercentage(current: int, goal: int): (p: Option<int>)
    ensures p.None? <==> goal == 0
    ensures goal > 0 ==> p == Some(C.RoundPercent(current, goal))
    ensures goal < 0 ==> 2 * goal * p.value >= 200 * current + goal > 2 * goal * p.value + 2 * goal
  {
    if goal > 0 then Some(C.RoundPercent(current, goal))
    else if goal < 0 then Some((-200 * current - goal) / (-2 * goal))
    else None
  }

  /** The campaigns the table ranks: an association's own, or all of them. */
  predicate InPerformanceScope(c: Caller, x: C.Campaign)
  {
    c.role != AssociationRole || Some(x.association) == c.associationId
  }

  /** The sort key of `.sort({ currentAmount: -1 })`. */
  function RaisedKey(e: (Id, C.Campaign)): int
  {
    e.1.currentAmount
  }

  function PerformanceScope(c: Caller): ((Id, C.Campaign)) -> bool
  {
    (e: (Id, C.Campaign)) => InPerformanceScope(c, e.1)
  }

  /** The ten campaigns in scope with the largest `currentAmount`, largest
      first, with their ids. */
  function Ranked(s: Store, c: Caller): (r: seq<(Id, C.Campaign)>)
    ensures |r| <= 10
    ensures NonIncreasing(r, RaisedKey)
    ensures forall i :: 0 <= i < |r| ==>
              r[i].0 in s.campaigns && s.campaigns[r[i].0] == r[i].1 && InPerformanceScope(c, r[i].1)
    ensures forall k :: k in s.campaigns && InPerformanceScope(c, s.campaigns[k]) ==>
              (exists i :: 0 <= i < |r| && r[i].0 == k)
              || (|r| == 10 && forall i :: 0 <= i < |r| ==> r[i].1.currentAmount >= s.campaigns[k].currentAmount)
    ensures forall i, j :: 0 <= i < j < |r| ==> r[i].0 != r[j].0
  {
    var r := Top(Scoped(s, c), RaisedKey, 10);
    RankedIdsDistinct(s, c);
    forall i | 0 <= i < |r|
      ensures r[i].0 in s.campaigns && s.campaigns[r[i].0] == r[i].1 && InPerformanceScope(c, r[i].1)
    {
      ScopedEntry(s, c, r[i]);
    }
    forall k | k in s.campaigns && InPerformanceScope(c, s.campaigns[k])
      ensures (exists i :: 0 <= i < |r| && r[i].0 == k)
              || (|r| == 10 && forall i :: 0 <= i < |r| ==> r[i].1.currentAmount >= s.campaigns[k].currentAmount)
    {
      ScopedCovers(s, c, k);
    }
    r
  }

  /** The stored campaigns in scope, with their ids. */
  function Scoped(s: Store, c: Caller): seq<(Id, C.Campaign)>
  {
    Keep(Entries(s.campaigns), PerformanceScope(c))
  }

  /** `find` returns each stored campaign once, so the ten it keeps have
      distinct ids. */
  lemma RankedIdsDistinct(s: Store, c: Caller)
    ensures var r := Top(Scoped(s, c), RaisedKey, 10);
            forall i, j :: 0 <= i < j < |r| ==> r[i].0 != r[j].0
  {
    var entries := Entries(s.campaigns);
    var ids := Ids(s.campaigns.Keys);
    forall i, j | 0 <= i < j < |entries|
      ensures entries[i] != entries[j]
    {
      assert entries[i].0 == ids[i] < ids[j] == entries[j].0;
    }
    KeepDistinct(entries, PerformanceScope(c));
    var r := Top(Scoped(s, c), RaisedKey, 10);
    TopSubMultiset(Scoped(s, c), RaisedKey, 10);
    SubMultisetDistinct(Scoped(s, c), r);
    forall i, j | 0 <= i < j < |r|
      ensures r[i].0 != r[j].0
    {
      assert r[i] in r && r[j] in r;
      ScopedEntry(s, c, r[i]);
      ScopedEntry(s, c, r[j]);
    }
  }

  lemma ScopedEntry(s: Store, c: Caller, e: (Id, C.Campaign))
    requires e in Top(Scoped(s, c), RaisedKey, 10)
    ensures e.0 in s.campaigns && s.campaigns[e.0] == e.1 && InPerformanceScope(c, e.1)
  {
    assert e in Scoped(s, c);
    EntriesMembership(s.campaigns, e);
  }

  lemma ScopedCovers(s: Store, c: Caller, k: Id)
    requires k in s.campaigns && InPerformanceScope(c, s.campaigns[k])
    ensures var r := Top(Scoped(s, c), RaisedKey, 10);
            (exists i :: 0 <= i < |r| && r[i].0 == k)
            || (|r| == 10 && forall i :: 0 <= i < |r| ==> r[i].1.currentAmount >= s.campaigns[k].currentAmount)
  {
    var r := Top(Scoped(s, c), RaisedKey, 10);
    var e := (k, s.campaigns[k]);
    EntriesMembership(s.campaigns, e);
    assert PerformanceScope(c)(e);
    TopShownOrOutranked(Scoped(s, c), RaisedKey, 10, e);
    if e in r {
      var i :| 0 <= i < |r| && r[i] == e;
    }
  }

  function Figures(e: (Id, C.Campaign), percentage: Option<int>): CampaignFigures
  {
    CampaignFigures(e.0, e.1.title, e.1.goalAmount, e.1.currentAmount, percentage, e.1.donationsCount, e.1.status)
  }

  /** The percentage column as written, or the campaign's own
      `progressPercentage`. */
  function Percentage(x: C.Campaign, intended: bool): Option<int>
  {
    if intended then Some(C.ProgressPercentage(x)) else JsPercentage(x.currentAmount, x.goalAmount)
  }

  /** The ranked campaigns as rows of the table. */
  function Rows(top: seq<(Id, C.Campaign)>, pct: C.Campaign -> Option<int>): (r: seq<CampaignFigures>)
    ensures |r| == |top|
    ensures forall i :: 0 <= i < |r| ==> r[i] == Figures(top[i], pct(top[i].1))
  {
    seq(|top|, i requires 0 <= i < |top| => Figures(top[i], pct(top[i].1)))
  }

  /** The rows keep the ranking's order. */
  lemma RowsSorted(s: Store, c: Caller, pct: C.Campaign -> Option<int>)
    ensures NonIncreasing(Rows(Ranked(s, c), pct), (f: CampaignFigures) => f.currentAmount)
  {
    var top := Ranked(s, c);
    var rows := Rows(top, pct);
    forall i, j | 0 <= i < j < |rows|
      ensures rows[i].currentAmount >= rows[j].currentAmount
    {
      assert top[i].1.currentAmount >= top[j].1.currentAmount;
    }
  }

  /** Each row shows a stored campaign in scope. */
  lemma RowsStored(s: Store, c: Caller, pct: C.Campaign -> Option<int>)
    ensures forall i :: 0 <= i < |Rows(Ranked(s, c), pct)| ==>
              var f := Rows(Ranked(s, c), pct)[i];
              && f.id in s.campaigns && InPerformanceScope(c, s.campaigns[f.id])
              && f == Figures((f.id, s.campaigns[f.id]), pct(s.campaigns[f.id]))
  {
    var top := Ranked(s, c);
    var rows := Rows(top, pct);
    forall i | 0 <= i < |rows|
      ensures rows[i].id in s.campaigns && InPerformanceScope(c, s.campaigns[rows[i].id])
      ensures rows[i] == Figures((rows[i].id, s.campaigns[rows[i].id]), pct(s.campaigns[rows[i].id]))
    {
      assert rows[i].id == top[i].0 && s.campaigns[top[i].0] == top[i].1;
    }
  }

  /** A campaign in scope that is not shown has no more than any row. */
  lemma RowsComplete(s: Store, c: Caller, pct: C.Campaign -> Option<int>)
    ensures var rows := Rows(Ranked(s, c), pct);
            forall k :: k in s.campaigns && InPerformanceScope(c, s.campaigns[k]) ==>
              (exists i :: 0 <= i < |rows| && rows[i].id == k)
              || (|rows| == 10 && forall i :: 0 <= i < |rows| ==> rows[i].currentAmount >= s.campaigns[k].currentAmount)
  {
    var top := Ranked(s, c);
    forall k | k in s.campaigns && InPerformanceScope(c, s.campaigns[k]) {
      RowShownOrOutranked(s, top, pct, k);
    }
  }

  lemma RowShownOrOutranked(s: Store, top: seq<(Id, C.Campaign)>, pct: C.Campaign -> Option<int>, k: Id)
    requires k in s.campaigns
    requires (exists i :: 0 <= i < |top| && top[i].0 == k)
             || (|top| == 10 && forall i :: 0 <= i < |top| ==> top[i].1.currentAmount >= s.campaigns[k].currentAmount)
    ensures var rows := Rows(top, pct);
            (exists i :: 0 <= i < |rows| && rows[i].id == k)
            || (|rows| == 10 && forall i :: 0 <= i < |rows| ==> rows[i].currentAmount >= s.campaigns[k].currentAmount)
  {
    var rows := Rows(top, pct);
    if exists i :: 0 <= i < |top| && top[i].0 == k {
      var i :| 0 <= i < |top| && top[i].0 == k;
      assert rows[i].id == k;
    } else {
      forall i | 0 <= i < |rows|
        ensures rows[i].currentAmount >= s.campaigns[k].currentAmount
      {
        assert rows[i].currentAmount == top[i].1.currentAmount;
      }
    }
  }

  /** The performance table with either percentage column. */
  function Table(s: Store, c: Caller, intended: bool): (r: Reply<seq<CampaignFigures>>)
    ensures r.status == Forbidden <==> !Authorized(c, Access.AssociationOrAdmin)
    ensures r.status in {Ok, Forbidden}
    ensures r.status != Ok ==> r.value == []
    ensures r.status == Ok ==> |r.value| <= 10
    ensures r.status == Ok ==> NonIncreasing(r.value, (f: CampaignFigures) => f.currentAmount)
    ensures r.status == Ok ==> forall i, j :: 0 <= i < j < |r.value| ==> r.value[i].id != r.value[j].id
    ensures r.status == Ok ==> forall i :: 0 <= i < |r.value| ==>
              var f := r.value[i];
              && f.id in s.campaigns && InPerformanceScope(c, s.campaigns[f.id])
              && f == Figures((f.id, s.campaigns[f.id]), Percentage(s.campaigns[f.id], intended))
    ensures r.status == Ok ==> forall k :: k in s.campaigns && InPerformanceScope(c, s.campaigns[k]) ==>
              (exists i :: 0 <= i < |r.value| && r.value[i].id == k)
              || (|r.value| == 10 && forall i :: 0 <= i < |r.value| ==>
                    r.value[i].currentAmount >= s.campaigns[k].currentAmount)
  {
    if !Authorized(c, Access.AssociationOrAdmin) then Reply(Forbidden, [])
    else
      var pct := (x: C.Campaign) => Percentage(x, intended);
      RowsSorted(s, c, pct);
      RowsStored(s, c, pct);
      RowsComplete(s, c, pct);
      Reply(Ok, Rows(Ranked(s, c), pct))
  }

  /** `GET /api/stats/campaigns/performance` as written: associations and
      admins only; up to ten campaigns in scope, richest first, with
      `Math.round(currentAmount / goalAmount * 100)` as the percentage. */
  function Performance(s: Store, c: Caller): (r: Reply<seq<CampaignFigures>>)
    ensures r.status == Forbidden <==> !Authorized(c, Access.AssociationOrAdmin)
    ensures r.status in {Ok, Forbidden}
    ensures r.status != Ok ==> r.value == []
    ensures r.status == Ok ==> |r.value| <= 10
    ensures r.status == Ok ==> NonIncreasing(r.value, (f: CampaignFigures) => f.currentAmount)
    ensures r.status == Ok ==> forall i, j :: 0 <= i < j < |r.value| ==> r.value[i].id != r.value[j].id
    ensures r.status == Ok ==> forall i :: 0 <= i < |r.value| ==>
              var f := r.value[i];
              && f.id in s.campaigns && InPerformanceScope(c, s.campaigns[f.id])
              && f == Figures((f.id, s.campaigns[f.id]), JsPercentage(f.currentAmount, f.goalAmount))
    ensures r.status == Ok ==> forall k :: k in s.campaigns && InPerformanceScope(c, s.campaigns[k]) ==>
              (exists i :: 0 <= i < |r.value| && r.value[i].id == k)
              || (|r.value| == 10 && forall i :: 0 <= i < |r.value| ==>
                    r.value[i].currentAmount >= s.campaigns[k].currentAmount)
  {
    Table(s, c, false)
  }

  /** The table with the campaign's own `progressPercentage`, which is 0
      for a zero goal. */
  function PerformanceCorrected(s: Store, c: Caller): (r: Reply<seq<CampaignFigures>>)
    ensures r.status == Forbidden <==> !Authorized(c, Access.AssociationOrAdmin)
    ensures r.status in {Ok, Forbidden}
    ensures r.status != Ok ==> r.value == []
    ensures r.status == Ok ==> |r.value| <= 10
    ensures r.status == Ok ==> NonIncreasing(r.value, (f: CampaignFigures) => f.currentAmount)
    ensures r.status == Ok ==> forall i, j :: 0 <= i < j < |r.value| ==> r.value[i].id != r.value[j].id
    ensures r.status == Ok ==> forall i :: 0 <= i < |r.value| ==>
              var f := r.value[i];
              && f.id in s.campaigns && InPerformanceScope(c, s.campaigns[f.id])
              && f == Figures((f.id, s.campaigns[f.id]), Some(C.ProgressPercentage(s.campaigns[f.id])))
    ensures r.status == Ok ==> forall k :: k in s.campaigns && InPerformanceScope(c, s.campaigns[k]) ==>
              (exists i :: 0 <= i < |r.value| && r.value[i].id == k)
              || (|r.value| == 10 && forall i :: 0 <= i < |r.value| ==>
                    r.value[i].currentAmount >= s.campaigns[k].currentAmount)
  {
    Table(s, c, true)
  }

  /** Both tables list the same campaigns in the same order. A campaign
      with a zero goal shows `null` as written and 0 once corrected; with a
      positive goal both show the same percentage. */
  lemma PerformancePercentages(s: Store, c: Caller, i: nat)
    requires Authorized(c, Access.AssociationOrAdmin) && i < |Performance(s, c).value|
    ensures |PerformanceCorrected(s, c).value| == |Performance(s, c).value|
    ensures var f := Performance(s, c).value[i];
            var g := PerformanceCorrected(s, c).value[i];
            && f.(percentage := g.percentage) == g
            && (f.goalAmount == 0 ==> f.percentage.None? && g.percentage == Some(0))
            && (f.goalAmount > 0 ==> f.percentage == g.percentage)
  {
  }

  // ------------------------------------------------------------ top donors

  /** The donors of `ds`, each once, in order of first appearance. */
  function Donors(ds: seq<D.Donation>): (r: seq<Id>)
    ensures Distinct(r)
    ensures forall x :: x in r <==> exists i :: 0 <= i < |ds| && ds[i].donor == x
  {
    if ds == [] then []
    else
      var n := |ds| - 1;
      var rest := Donors(ds[..n]);
      assert forall i :: 0 <= i < n ==> ds[..n][i] == ds[i];
      if ds[n].donor in rest then rest else rest + [ds[n].donor]
  }

  /** The donations of `ds` made by `x`. */
  function ByDonor(ds: seq<D.Donation>, x: Id): (r: seq<D.Donation>)
    ensures forall d :: d in r <==> d in ds && d.donor == x
  {
    D.Select(ds, D.Everything.(donor := Is(x)))
  }

  /** One `$group` row: a donor with the sum and number of their donations. */
  datatype DonorTotal = DonorTotal(donor: Id, totalAmount: int, donationCount: nat)

  /** `$group` by `$donor`: one row per donor of `ds`. */
  function Groups(ds: seq<D.Donation>): (r: seq<DonorTotal>)
    ensures Distinct(r)
    ensures forall i, j :: 0 <= i < j < |r| ==> r[i].donor != r[j].donor
    ensures forall i :: 0 <= i < |r| ==>
              r[i].totalAmount == D.Total(ByDonor(ds, r[i].donor))
              && r[i].donationCount == |ByDonor(ds, r[i].donor)| && r[i].donationCount >= 1
    ensures forall j :: 0 <= j < |ds| ==> exists i :: 0 <= i < |r| && r[i].donor == ds[j].donor
  {
    var donors := Donors(ds);
    var r := seq(|donors|, i requires 0 <= i < |donors| =>
                   DonorTotal(donors[i], D.Total(ByDonor(ds, donors[i])), |ByDonor(ds, donors[i])|));
    forall i | 0 <= i < |r|
      ensures r[i].donationCount >= 1
    {
      DonorHasDonation(ds, donors, i);
    }
    forall j | 0 <= j < |ds|
      ensures exists i :: 0 <= i < |r| && r[i].donor == ds[j].donor
    {
      var i := DonorIndex(ds, donors, j);
      assert r[i].donor == ds[j].donor;
    }
    r
  }

  lemma DonorHasDonation(ds: seq<D.Donation>, donors: seq<Id>, i: nat)
    requires donors == Donors(ds) && i < |donors|
    ensures |ByDonor(ds, donors[i])| >= 1
  {
    assert donors[i] in donors;
    var j :| 0 <= j < |ds| && ds[j].donor == donors[i];
    assert ds[j] in ByDonor(ds, donors[i]);
  }

  function DonorIndex(ds: seq<D.Donation>, donors: seq<Id>, j: nat): (i: nat)
    requires donors == Donors(ds) && j < |ds|
    ensures i < |donors| && donors[i] == ds[j].donor
  {
    assert ds[j].donor in donors;
    var i :| 0 <= i < |donors| && donors[i] == ds[j].donor;
    i
  }

  /** The donations the ranking covers: completed, not anonymous, and for an
      association only its own. */
  function DonorScope(c: Caller): (f: D.Filter)
    ensures forall d :: D.Selects(f, d) <==>
              d.paymentStatus == D.Completed && !d.isAnonymous
              && (c.role == AssociationRole ==> Some(d.association) == c.associationId)
  {
    D.Everything.(association := if c.role == AssociationRole then Is(c.associationId) else Any,
                  status := Is(D.Completed), anonymous := Is(false))
  }

  function Ranking(s: Store, c: Caller): seq<D.Donation>
  {
    D.Select(Values(s.donations), DonorScope(c))
  }

  /** `parseInt(req.query.limit) || 10`: a missing, unparsable or zero limit
      becomes 10. */
  function LimitOf(limit: Option<int>): (n: int)
    ensures n != 0
    ensures limit.Some? && limit.value != 0 ==> n == limit.value
  {
    if limit.None? || limit.value == 0 then 10 else limit.value
  }

  /** A row of the answer: the group joined with the donor's user record.
      `$concat` yields null when either name is missing. */
  datatype DonorFigures = DonorFigures(
    id: Id,
    donorName: Option<string>,
    email: string,
    totalAmount: int,
    donationCount: nat)

  function DonorName(u: User): Option<string>
  {
    if u.firstName.Some? && u.lastName.Some? then Some(u.firstName.value + " " + u.lastName.value) else None
  }

  function Joined(g: DonorTotal, u: User): DonorFigures
  {
    DonorFigures(g.donor, DonorName(u), u.email, g.totalAmount, g.donationCount)
  }

  function TotalKey(g: DonorTotal): int
  {
    g.totalAmount
  }

  function HasUser(s: Store): DonorTotal -> bool
  {
    (g: DonorTotal) => g.donor in s.users
  }

  /** The `n` largest groups of `ds` that survive the join with the users. */
  function Shortlist(s: Store, ds: seq<D.Donation>, n: nat): (r: seq<DonorTotal>)
    ensures |r| <= n
    ensures forall g :: g in r ==> g in Groups(ds) && g.donor in s.users
  {
    Keep(Top(Groups(ds), TotalKey, n), HasUser(s))
  }

  lemma ShortlistSorted(s: Store, ds: seq<D.Donation>, n: nat)
    ensures NonIncreasing(Shortlist(s, ds, n), TotalKey)
  {
    KeepNonIncreasing(Top(Groups(ds), TotalKey, n), HasUser(s), TotalKey);
  }

  /** No donor appears twice. */
  lemma ShortlistDistinct(s: Store, ds: seq<D.Donation>, n: nat)
    ensures var r := Shortlist(s, ds, n);
            forall i, j :: 0 <= i < j < |r| ==> r[i].donor != r[j].donor
  {
    var groups := Groups(ds);
    var top := Top(groups, TotalKey, n);
    TopSubMultiset(groups, TotalKey, n);
    SubMultisetDistinct(groups, top);
    KeepDistinct(top, HasUser(s));
    var r := Shortlist(s, ds, n);
    forall i, j | 0 <= i < j < |r|
      ensures r[i].donor != r[j].donor
    {
      assert r[i] in r && r[j] in r;
    }
  }

  /** The group row of a donor who made a donation in `ds`. */
  ghost function GroupOf(ds: seq<D.Donation>, x: Id): (g: DonorTotal)
    requires ByDonor(ds, x) != []
    ensures g in Groups(ds) && g.donor == x
    ensures g.totalAmount == D.Total(ByDonor(ds, x))
  {
    var j := DonationOf(ds, x);
    var k := GroupIndex(ds, j);
    Groups(ds)[k]
  }

  /** The position in `ds` of some donation by `x`. */
  ghost function DonationOf(ds: seq<D.Donation>, x: Id): (j: nat)
    requires ByDonor(ds, x) != []
    ensures j < |ds| && ds[j].donor == x
  {
    var d := ByDonor(ds, x)[0];
    assert d in ByDonor(ds, x);
    var j :| 0 <= j < |ds| && ds[j] == d;
    j
  }

  /** The position of the group row of the donor of `ds[j]`. */
  function GroupIndex(ds: seq<D.Donation>, j: nat): (k: nat)
    requires j < |ds|
    ensures k < |Groups(ds)| && Groups(ds)[k].donor == ds[j].donor
  {
    var groups := Groups(ds);
    var k :| 0 <= k < |groups| && groups[k].donor == ds[j].donor;
    k
  }

  /** Everything drawn from the top `n` groups outranks a group left out. */
  lemma OutrankedByTop(groups: seq<DonorTotal>, n: nat, r: seq<DonorTotal>, g: DonorTotal)
    requires g in groups && g !in Top(groups, TotalKey, n)
    requires forall h :: h in r ==> h in Top(groups, TotalKey, n)
    ensures forall i :: 0 <= i < |r| ==> r[i].totalAmount >= g.totalAmount
  {
    forall i | 0 <= i < |r|
      ensures r[i].totalAmount >= g.totalAmount
    {
      assert r[i] in r;
      TopOutranks(groups, TotalKey, n, r[i], g);
    }
  }

  /** A donor with a user record and a donation in `ds` is either on the
      shortlist or has a total no larger than anyone on it. */
  lemma ShortlistComplete(s: Store, ds: seq<D.Donation>, n: nat, x: Id)
    requires x in s.users && ByDonor(ds, x) != []
    ensures var r := Shortlist(s, ds, n);
            (exists i :: 0 <= i < |r| && r[i].donor == x)
            || forall i :: 0 <= i < |r| ==> r[i].totalAmount >= D.Total(ByDonor(ds, x))
  {
    var groups := Groups(ds);
    var g := GroupOf(ds, x);
    if g in Top(groups, TotalKey, n) {
      assert HasUser(s)(g);
      assert g in Shortlist(s, ds, n);
    } else {
      OutrankedByTop(groups, n, Shortlist(s, ds, n), g);
    }
  }

  /** The shortlist joined with the user records. */
  function Joins(s: Store, sl: seq<DonorTotal>): (r: seq<DonorFigures>)
    requires forall g :: g in sl ==> g.donor in s.users
    ensures |r| == |sl|
    ensures forall i :: 0 <= i < |r| ==> r[i] == Joined(sl[i], s.users[sl[i].donor])
  {
    seq(|sl|, i requires 0 <= i < |sl| => Joined(sl[i], s.users[sl[i].donor]))
  }

  /** `GET /api/stats/top-donors`: associations and admins only. The groups
      are ranked by total, cut to the limit, and then joined with the users;
      `$unwind` drops a group whose donor has no user record, so fewer than
      `limit` rows can come back. A negative limit makes `$limit` fail. */
  function TopDonors(s: Store, c: Caller, limit: Option<int>): (r: Reply<seq<DonorFigures>>)
    ensures r.status == Forbidden <==> !Authorized(c, Access.AssociationOrAdmin)
    ensures r.status == ServerError <==> Authorized(c, Access.AssociationOrAdmin) && LimitOf(limit) < 0
    ensures r.status in {Ok, Forbidden, ServerError}
    ensures r.status != Ok ==> r.value == []
    ensures r.status == Ok ==> |r.value| <= LimitOf(limit)
  {
    if !Authorized(c, Access.AssociationOrAdmin) then Reply(Forbidden, [])
    else if LimitOf(limit) < 0 then Reply(ServerError, [])
    else
      var ds := Ranking(s, c);
      var n: nat := LimitOf(limit);
      Reply(Ok, Joins(s, Shortlist(s, ds, n)))
  }

  function FigureTotal(f: DonorFigures): int
  {
    f.totalAmount
  }

  /** The answer is ordered by total, largest first, and lists no donor
      twice. */
  lemma TopDonorsRanked(s: Store, c: Caller, limit: Option<int>)
    requires TopDonors(s, c, limit).status == Ok
    ensures NonIncreasing(TopDonors(s, c, limit).value, FigureTotal)
    ensures var v := TopDonors(s, c, limit).value;
            forall i, j :: 0 <= i < j < |v| ==> v[i].id != v[j].id
  {
    var ds := Ranking(s, c);
    var n: nat := LimitOf(limit);
    var sl := Shortlist(s, ds, n);
    ShortlistSorted(s, ds, n);
    ShortlistDistinct(s, ds, n);
    JoinsRanked(s, sl);
  }

  /** Joining keeps the order and the distinct donors of the groups. */
  lemma JoinsRanked(s: Store, sl: seq<DonorTotal>)
    requires forall g :: g in sl ==> g.donor in s.users
    requires NonIncreasing(sl, TotalKey)
    requires forall i, j :: 0 <= i < j < |sl| ==> sl[i].donor != sl[j].donor
    ensures NonIncreasing(Joins(s, sl), FigureTotal)
    ensures var v := Joins(s, sl);
            forall i, j :: 0 <= i < j < |v| ==> v[i].id != v[j].id
  {
    var v := Joins(s, sl);
    assert forall i :: 0 <= i < |v| ==> v[i].id == sl[i].donor && FigureTotal(v[i]) == TotalKey(sl[i]);
  }

  /** Each row is a stored user with the sum and number of their completed,
      named donations in scope, their full name and their email. */
  lemma TopDonorsRow(s: Store, c: Caller, limit: Option<int>, i: nat)
    requires TopDonors(s, c, limit).status == Ok && i < |TopDonors(s, c, limit).value|
    ensures var f := TopDonors(s, c, limit).value[i];
            && f.id in s.users
            && f.totalAmount == D.Total(ByDonor(Ranking(s, c), f.id))
            && f.donationCount == |ByDonor(Ranking(s, c), f.id)| && f.donationCount >= 1
            && f.donorName == DonorName(s.users[f.id]) && f.email == s.users[f.id].email
  {
    var ds := Ranking(s, c);
    var n: nat := LimitOf(limit);
    JoinsRow(s, ds, Shortlist(s, ds, n), i);
  }

  /** A joined row carries its group's figures and its user's name and email. */
  lemma JoinsRow(s: Store, ds: seq<D.Donation>, sl: seq<DonorTotal>, i: nat)
    requires forall g :: g in sl ==> g in Groups(ds) && g.donor in s.users
    requires i < |sl|
    ensures var f := Joins(s, sl)[i];
            && f.id in s.users
            && f.totalAmount == D.Total(ByDonor(ds, f.id))
            && f.donationCount == |ByDonor(ds, f.id)| && f.donationCount >= 1
            && f.donorName == DonorName(s.users[f.id]) && f.email == s.users[f.id].email
  {
    assert sl[i] in sl;
    var groups := Groups(ds);
    var k :| 0 <= k < |groups| && groups[k] == sl[i];
  }

  /** A stored donor with a completed, named donation in scope is listed, or
      every listed donor gave at least as much. */
  lemma TopDonorsComplete(s: Store, c: Caller, limit: Option<int>, x: Id)
    requires TopDonors(s, c, limit).status == Ok
    requires x in s.users && ByDonor(Ranking(s, c), x) != []
    ensures var v := TopDonors(s, c, limit).value;
            (exists i :: 0 <= i < |v| && v[i].id == x)
            || forall i :: 0 <= i < |v| ==> v[i].totalAmount >= D.Total(ByDonor(Ranking(s, c), x))
  {
    var ds := Ranking(s, c);
    var n: nat := LimitOf(limit);
    var sl := Shortlist(s, ds, n);
    TopDonorsJoined(s, c, limit);
    var total := D.Total(ByDonor(ds, x));
    ShortlistComplete(s, ds, n, x);
    JoinsComplete(s, sl, x, total);
  }

  /** A successful answer is the shortlist of the scoped donations, joined. */
  lemma TopDonorsJoined(s: Store, c: Caller, limit: Option<int>)
    requires TopDonors(s, c, limit).status == Ok
    ensures LimitOf(limit) >= 0
    ensures TopDonors(s, c, limit).value == Joins(s, Shortlist(s, Ranking(s, c), LimitOf(limit)))
  {
  }

  /** Joining keeps each group's donor and total at its place. */
  lemma JoinsComplete(s: Store, sl: seq<DonorTotal>, x: Id, total: int)
    requires forall g :: g in sl ==> g.donor in s.users
    requires (exists i :: 0 <= i < |sl| && sl[i].donor == x)
             || forall i :: 0 <= i < |sl| ==> sl[i].totalAmount >= total
    ensures var v := Joins(s, sl);
            (exists i :: 0 <= i < |v| && v[i].id == x)
            || forall i :: 0 <= i < |v| ==> v[i].totalAmount >= total
  {
    var v := Joins(s, sl);
    if exists i :: 0 <= i < |sl| && sl[i].donor == x {
      var i :| 0 <= i < |sl| && sl[i].donor == x;
      assert v[i].id == x;
    }
  }

  /** A donor all of whose completed donations are anonymous is never
      listed. */
  lemma AnonymousDonorNotListed(s: Store, c: Caller, limit: Option<int>, x: Id)
    requires forall k :: k in s.donations && s.donations[k].donor == x && s.donations[k].paymentStatus == D.Completed
                         ==> s.donations[k].isAnonymous
    requires TopDonors(s, c, limit).status == Ok
    ensures forall i :: 0 <= i < |TopDonors(s, c, limit).value| ==> TopDonors(s, c, limit).value[i].id != x
  {
    var rows := TopDonors(s, c, limit).value;
    forall i | 0 <= i < |rows|
      ensures rows[i].id != x
    {
      TopDonorsRow(s, c, limit, i);
      var ranked := ByDonor(Ranking(s, c), rows[i].id);
      assert ranked[0] in ranked;
      ValuesMembership(s.donations, ranked[0]);
    }
  }
}

=== FILE: text.dfy ===
/** The string operations the handlers and the upload gate use:
    lower-casing, prefix, suffix, substring search, last occurrence. */
module Text {
  import opened Base

  /** `toLowerCase` on one character, restricted to ASCII letters. */
  function LowerChar(ch: char): char
  {
    if 'A' <= ch <= 'Z' then (ch as int + 32) as char else ch
  }

  function Lower(s: string): (r: string)
    ensures |r| == |s|
    ensures forall i :: 0 <= i < |s| ==> r[i] == LowerChar(s[i])
  {
    seq(|s|, i requires 0 <= i < |s| => LowerChar(s[i]))
  }

  /** Lower-casing twice is lower-casing once: a stored lower-cased value is
      left alone by the setter when it is written again. */
  lemma LowerIdempotent(s: string)
    ensures Lower(Lower(s)) == Lower(s)
  {
  }

  predicate IsLower(s: string)
  {
    Lower(s) == s
  }

  predicate StartsWith(s: string, prefix: string)
  {
    |prefix| <= |s| && s[..|prefix|] == prefix
  }

  predicate EndsWith(s: string, suffix: string)
  {
    |suffix| <= |s| && s[|s| - |suffix|..] == suffix
  }

  /** `t` is spelled by `s` starting at position `i`. */
  predicate OccursAt(s: string, t: string, i: nat)
  {
    i + |t| <= |s| && s[i..i + |t|] == t
  }

  /** `s.includes(t)`, and what an unanchored regular expression made of the
      single literal `t` matches. */
  function Contains(s: string, t: string): bool
  {
    StartsWith(s, t) || (|s| > 0 && Contains(s[1..], t))
  }

  /** The recursive search agrees with its declarative reading: some window
      of `s` spells `t`. */
  lemma {:induction false} ContainsIff(s: string, t: string)
    ensures Contains(s, t) <==> exists i: nat :: OccursAt(s, t, i)
  {
    if StartsWith(s, t) {
      assert OccursAt(s, t, 0);
    } else if |s| > 0 {
      ContainsIff(s[1..], t);
      if Contains(s[1..], t) {
        var i: nat :| OccursAt(s[1..], t, i);
        assert s[i + 1..i + 1 + |t|] == s[1..][i..i + |t|];
        assert OccursAt(s, t, i + 1);
      }
      if exists i: nat :: OccursAt(s, t, i) {
        var i: nat :| OccursAt(s, t, i);
        assert i != 0;
        assert s[1..][i - 1..i - 1 + |t|] == s[i..i + |t|];
        assert OccursAt(s[1..], t, i - 1);
      }
    } else {
      assert |t| > 0;
    }
  }

  /** The position of the last `ch` in `s`, if any. */
  function LastIndexOf(s: string, ch: char): (r: Option<nat>)
    ensures r.None? <==> ch !in s
    ensures r.Some? ==> r.value < |s| && s[r.value] == ch && ch !in s[r.value + 1..]
  {
    if s == [] then None
    else if s[|s| - 1] == ch then Some(|s| - 1)
    else
      var r := LastIndexOf(s[..|s| - 1], ch);
      assert s == s[..|s| - 1] + [s[|s| - 1]];
      if r.Some? then
        assert s[r.value + 1..] == s[..|s| - 1][r.value + 1..] + [s[|s| - 1]];
        r
      else r
  }
}

=== FILE: time.dfy ===
/** Instants in UTC, as the `Date` fields of the documents hold them
    (`donationDate`, `startDate`, `createdAt`, ...), and their order. The
    clock itself is not modelled: "now" is a parameter of every handler that
    reads it. */
module Time {

  const MsPerDay: int := 86400000

  /** A calendar date in UTC plus the milliseconds elapsed since midnight. */
  datatype Instant = Instant(year: int, month: int, day: int, ms: int)

  predicate WellFormed(t: Instant)
  {
    1 <= t.month <= 12 && 1 <= t.day <= 31 && 0 <= t.ms < MsPerDay
  }

  /** A position on a time line on which every month is 31 days long; the
      gaps it leaves do not change the order of well-formed instants. */
  function Ordinal(t: Instant): int
  {
    ((t.year * 12 + (t.month - 1)) * 31 + (t.day - 1)) * MsPerDay + t.ms
  }

  predicate AtOrBefore(a: Instant, b: Instant)
  {
    Ordinal(a) <= Ordinal(b)
  }

  /** Year, then month, then day, then time of day. */
  predicate LexAtOrBefore(a: Instant, b: Instant)
  {
    a.year < b.year
    || (a.year == b.year && a.month < b.month)
    || (a.year == b.year && a.month == b.month && a.day < b.day)
    || (a.year == b.year && a.month == b.month && a.day == b.day && a.ms <= b.ms)
  }

  lemma DayOrder(a: Instant, b: Instant)
    requires WellFormed(a) && WellFormed(b)
    ensures var da := (a.year * 12 + (a.month - 1)) * 31 + (a.day - 1);
            var db := (b.year * 12 + (b.month - 1)) * 31 + (b.day - 1);
            (da < db <==> (a.year < b.year
                          || (a.year == b.year && a.month < b.month)
                          || (a.year == b.year && a.month == b.month && a.day < b.day)))
            && (da == db <==> (a.year == b.year && a.month == b.month && a.day == b.day))
  {
    var ma := a.year * 12 + (a.month - 1);
    var mb := b.year * 12 + (b.month - 1);
    assert ma < mb <==> (a.year < b.year || (a.year == b.year && a.month < b.month));
    assert ma == mb <==> (a.year == b.year && a.month == b.month);
  }

  /** The order on ordinals is the lexicographic order of the calendar
      fields, so comparing two `Date` values compares them as calendar
      instants. */
  lemma OrdinalIsLexicographic(a: Instant, b: Instant)
    requires WellFormed(a) && WellFormed(b)
    ensures AtOrBefore(a, b) <==> LexAtOrBefore(a, b)
  {
    DayOrder(a, b);
    var da := (a.year * 12 + (a.month - 1)) * 31 + (a.day - 1);
    var db := (b.year * 12 + (b.month - 1)) * 31 + (b.day - 1);
    assert Ordinal(a) == da * MsPerDay + a.ms;
    assert Ordinal(b) == db * MsPerDay + b.ms;
    if da < db {
      assert da * MsPerDay + MsPerDay <= db * MsPerDay;
    } else if db < da {
      assert db * MsPerDay + MsPerDay <= da * MsPerDay;
    }
  }

  /** `new Date('YYYY-MM-DD')`: a date-only ISO string is read as UTC midnight. */
  function Midnight(year: int, month: int, day: int): (t: Instant)
    requires 1 <= month <= 12 && 1 <= day <= 31
    ensures WellFormed(t) && t.ms == 0
    ensures t.year == year && t.month == month && t.day == day
  {
    Instant(year, month, day, 0)
  }
}

=== FILE: upload.dfy ===
/** The multipart upload gate shared by the avatar, logo, campaign-image and
    request-document routes: where a file goes, the name it is stored under,
    which files the filter lets through, the 5 MB size limit, and the
    per-route field name and file count. */
module Upload {
  import opened Base
  import opened Text

  /** `limits.fileSize`: 5 MB; a file of exactly this many bytes passes. */
  const MaxFileSize: nat := 5 * 1024 * 1024

  /** A file part as it arrives in the multipart body. */
  datatype Incoming = Incoming(fieldname: string, originalname: string, mimetype: string, size: nat)

  /** A file as the storage engine wrote it. */
  datatype StoredFile = StoredFile(fieldname: string, originalname: string, destination: string,
                                   filename: string, size: nat)

  /** The directory a file is written to, chosen by its form field. */
  function Destination(field: string): (d: string)
    ensures StartsWith(d, "uploads/")
    ensures field == "avatar" <==> d == "uploads/avatars/"
    ensures field == "logo" <==> d == "uploads/logos/"
    ensures field == "images" <==> d == "uploads/campaigns/"
    ensures field == "documents" <==> d == "uploads/documents/"
    ensures field !in {"avatar", "logo", "images", "documents"} <==> d == "uploads/"
  {
    "uploads/" +
      if field == "avatar" then "avatars/"
      else if field == "logo" then "logos/"
      else if field == "images" then "campaigns/"
      else if field == "documents" then "documents/"
      else ""
  }

  /** The path without its trailing separators. */
  function TrimSlashes(p: string): (r: string)
    ensures |r| <= |p| && r == p[..|r|]
    ensures r == [] || r[|r| - 1] != '/'
    ensures forall i :: |r| <= i < |p| ==> p[i] == '/'
  {
    if p != [] && p[|p| - 1] == '/' then TrimSlashes(p[..|p| - 1]) else p
  }

  /** The last path component, trailing separators ignored. */
  function BaseName(p: string): (b: string)
    ensures '/' !in b
    ensures EndsWith(TrimSlashes(p), b)
    ensures |b| < |TrimSlashes(p)| ==> TrimSlashes(p)[|TrimSlashes(p)| - |b| - 1] == '/'
  {
    var t := TrimSlashes(p);
    match LastIndexOf(t, '/')
    case None => t
    case Some(i) => t[i + 1..]
  }

  /** The extension of one path component: from its last dot on, or ""
      when it has no dot after its first character or is `..`. */
  function ExtOf(b: string): (e: string)
    ensures e == "" <==> (forall i :: 0 < i < |b| ==> b[i] != '.') || b == ".."
    ensures e != "" ==> e[0] == '.' && '.' !in e[1..] && EndsWith(b, e) && |e| < |b|
  {
    match LastIndexOf(b, '.')
    case None => ""
    case Some(i) =>
      if i == 0 || b == ".." then ""
      else
        assert b[i..][1..] == b[i + 1..];
        assert b[|b| - |b[i..]|..] == b[i..];
        b[i..]
  }

  /** Node's `path.extname`: the extension of the last path component. */
  function ExtName(p: string): (e: string)
    ensures e == ExtOf(BaseName(p))
    ensures e != "" ==> e[0] == '.' && '/' !in e && '.' !in e[1..]
  {
    var b := BaseName(p);
    var e := ExtOf(b);
    assert forall k :: 0 <= k < |e| ==> e[k] == b[|b| - |e| + k];
    e
  }

  /** The stored file name: the field, a dash, the unique suffix and the
      original extension. */
  function StoredName(field: string, suffix: string, originalname: string): (name: string)
    ensures StartsWith(name, field + "-")
    ensures EndsWith(name, ExtName(originalname))
    ensures |name| == |field| + 1 + |suffix| + |ExtName(originalname)|
  {
    var name := field + "-" + suffix + ExtName(originalname);
    assert name[..|field + "-"|] == field + "-";
    assert name[|name| - |ExtName(originalname)|..] == ExtName(originalname);
    name
  }

  /** The extension alternatives of the filter's two patterns. */
  const ExtensionPatterns: seq<string> := ["jpeg", "jpg", "png", "gif", "webp", "pdf", "doc", "docx"]

  /** One of `patterns` occurs somewhere in `s`. */
  function AnyOccurs(s: string, patterns: seq<string>): (b: bool)
    ensures b <==> exists i :: 0 <= i < |patterns| && Contains(s, patterns[i])
  {
    if patterns == [] then false
    else Contains(s, patterns[0]) || AnyOccurs(s, patterns[1..])
  }

  /** The extension test: one of the alternatives occurs somewhere in the
      lower-cased extension; the patterns are not anchored. */
  predicate AllowedExtension(ext: string)
  {
    AnyOccurs(Lower(ext), ExtensionPatterns)
  }

  /** The MIME test: any image type, PDF, or any type containing "document". */
  predicate AllowedMime(mimetype: string)
  {
    StartsWith(mimetype, "image/") || mimetype == "application/pdf" || Contains(mimetype, "document")
  }

  /** The file filter: both tests must pass. */
  predicate Accepts(f: Incoming)
  {
    AllowedExtension(ExtName(f.originalname)) && AllowedMime(f.mimetype)
  }

  /** Why an upload is refused. */
  datatype Refusal = UnexpectedField | TooManyFiles | WrongType | TooLarge

  /** The checks on the file at `position`, in the order they run: the field
      and the count, then the filter, then the size while the file is
      written. */
  function Check(field: string, maxCount: nat, position: nat, f: Incoming): (r: Option<Refusal>)
    ensures r.None? <==> f.fieldname == field && position < maxCount && Accepts(f) && f.size <= MaxFileSize
    ensures r == Some(TooLarge) ==> f.size > MaxFileSize && Accepts(f)
    ensures r == Some(WrongType) ==> !Accepts(f) && f.fieldname == field
  {
    if f.fieldname != field then Some(UnexpectedField)
    else if position >= maxCount then Some(TooManyFiles)
    else if !Accepts(f) then Some(WrongType)
    else if f.size > MaxFileSize then Some(TooLarge)
    else None
  }

  /** The outcome of an upload: every file stored, or the request refused. */
  datatype Outcome = Stored(files: seq<StoredFile>) | Refused(reason: Refusal)

  function Store(field: string, suffix: string, f: Incoming): (s: StoredFile)
    ensures s.fieldname == f.fieldname && s.originalname == f.originalname && s.size == f.size
    ensures s.destination == Destination(field) && s.filename == StoredName(field, suffix, f.originalname)
  {
    StoredFile(f.fieldname, f.originalname, Destination(field), StoredName(field, suffix, f.originalname), f.size)
  }

  /** The checks on each file, in arrival order. */
  function Verdicts(field: string, maxCount: nat, files: seq<Incoming>): (v: seq<Option<Refusal>>)
    ensures |v| == |files|
    ensures forall i :: 0 <= i < |files| ==> v[i] == Check(field, maxCount, i, files[i])
  {
    seq(|files|, i requires 0 <= i < |files| => Check(field, maxCount, i, files[i]))
  }

  /** The position of the first refusal, or the length when there is none. */
  function FirstFailure(v: seq<Option<Refusal>>): (k: nat)
    ensures k <= |v|
    ensures forall j :: 0 <= j < k ==> v[j].None?
    ensures k < |v| ==> v[k].Some?
  {
    if v == [] then 0
    else if v[0].Some? then 0
    else 1 + FirstFailure(v[1..])
  }

  /** `upload.array(field, maxCount)`, and `upload.single(field)` with a count
      of 1. `suffix(i)` is the unique suffix drawn for the `i`-th file. The
      first refusal aborts the whole upload; otherwise every file is stored
      under its generated name in its field's directory. */
  function Receive(field: string, maxCount: nat, files: seq<Incoming>, suffix: nat -> string): (r: Outcome)
    ensures r.Stored? <==> |files| <= maxCount && forall i :: 0 <= i < |files| ==>
                             files[i].fieldname == field && Accepts(files[i]) && files[i].size <= MaxFileSize
    ensures r.Stored? ==> |r.files| == |files| && forall i :: 0 <= i < |files| ==>
                            r.files[i] == Store(field, suffix(i), files[i])
    ensures r.Refused? ==> exists i :: 0 <= i < |files| && Check(field, maxCount, i, files[i]) == Some(r.reason)
                                       && forall j :: 0 <= j < i ==> Check(field, maxCount, j, files[j]).None?
  {
    AllPassIff(field, maxCount, files);
    var v := Verdicts(field, maxCount, files);
    var k := FirstFailure(v);
    if k < |files| then Refused(v[k].value)
    else Stored(seq(|files|, i requires 0 <= i < |files| => Store(field, suffix(i), files[i])))
  }

  /** Every check passes exactly when there are no more files than allowed
      and each of them passes the field, filter and size checks. */
  lemma {:induction false} AllPassIff(field: string, maxCount: nat, files: seq<Incoming>)
    ensures (forall i :: 0 <= i < |files| ==> Check(field, maxCount, i, files[i]).None?)
            <==> |files| <= maxCount && forall i :: 0 <= i < |files| ==>
                   files[i].fieldname == field && Accepts(files[i]) && files[i].size <= MaxFileSize
  {
    if |files| > 0 && forall i :: 0 <= i < |files| ==> Check(field, maxCount, i, files[i]).None? {
      assert Check(field, maxCount, |files| - 1, files[|files| - 1]).None?;
    }
  }

  /** The extension patterns are unanchored, so an extension that merely
      contains an allowed one passes: `.pdfx` contains `pdf`. */
  lemma PdfxExtensionPasses(stem: string)
    requires stem != "" && '.' !in stem && '/' !in stem
    ensures ExtName(stem + ".pdfx") == ".pdfx" && AllowedExtension(".pdfx")
  {
    ExtensionContains(".pdfx", 5, 1);
    PlainExtName(stem + ".pdfx", |stem|);
  }

  /** Likewise `.docm`, a macro-enabled document, contains `doc`. */
  lemma DocmExtensionPasses(stem: string)
    requires stem != "" && '.' !in stem && '/' !in stem
    ensures ExtName(stem + ".docm") == ".docm" && AllowedExtension(".docm")
  {
    ExtensionContains(".docm", 6, 1);
    PlainExtName(stem + ".docm", |stem|);
  }

  /** The extension of a plain file name with its last dot at `i > 0`. */
  lemma PlainExtName(name: string, i: nat)
    requires '/' !in name && name != ".." && 0 < i < |name| && name[i] == '.' && '.' !in name[i + 1..]
    ensures ExtName(name) == name[i..]
  {
    assert TrimSlashes(name) == name;
    assert BaseName(name) == name;
    assert LastIndexOf(name, '.') == Some(i);
  }

  lemma ExtensionContains(ext: string, k: nat, at: nat)
    requires k < |ExtensionPatterns| && IsLower(ext) && OccursAt(ext, ExtensionPatterns[k], at)
    ensures AllowedExtension(ext)
  {
    ContainsIff(ext, ExtensionPatterns[k]);
  }

  /** A dot-file such as `.png`, whose only dot is its first character, has
      no extension, so it is refused whatever its type. */
  lemma DotFileRefused(name: string, mimetype: string, size: nat)
    requires |name| > 0 && name[0] == '.' && '.' !in name[1..] && '/' !in name
    ensures ExtName(name) == ""
    ensures !Accepts(Incoming("documents", name, mimetype, size))
  {
    DotFileExtension(name);
    assert Lower("") == "";
    NothingOccursInEmpty(ExtensionPatterns);
  }

  lemma DotFileExtension(name: string)
    requires |name| > 0 && name[0] == '.' && '.' !in name[1..] && '/' !in name
    ensures ExtName(name) == ""
  {
    assert TrimSlashes(name) == name;
    assert BaseName(name) == name;
    assert forall i :: 0 < i < |name| ==> name[i] == name[1..][i - 1];
  }

  lemma {:induction false} NothingOccursInEmpty(patterns: seq<string>)
    requires forall i :: 0 <= i < |patterns| ==> patterns[i] != ""
    ensures !AnyOccurs("", patterns)
  {
    if patterns != [] {
      NothingOccursInEmpty(patterns[1..]);
    }
  }
}

=== FILE: user_routes.dfy ===
/** The `/api/users` routes: the admin's user list and removal, reading a
    profile, editing one's own profile, and the avatar upload. */
module UserRoutes {
  import opened Base
  import opened DocumentStore
  import Access
  import Upload

  /** `GET /api/users`: every user, to an admin only. */
  function List(s: Store, c: Caller): (r: Reply<seq<User>>)
    ensures r.status == Forbidden <==> c.role != AdminRole
    ensures r.status in {Ok, Forbidden}
    ensures r.status != Ok ==> r.value == []
    ensures r.status == Ok ==> |r.value| == |s.users|
    ensures r.status == Ok ==> forall u :: u in r.value <==> exists k :: k in s.users && s.users[k] == u
  {
    if !Authorized(c, Access.AdminOnly) then Reply(Forbidden, [])
    else
      var r := Values(s.users);
      forall u ensures u in r <==> exists k :: k in s.users && s.users[k] == u {
        ValuesMembership(s.users, u);
      }
      ValuesCount(s.users);
      Reply(Ok, r)
  }

  /** The profile fields a `PUT /api/users/:id` body may set; a missing
      field is left as it is. */
  datatype ProfilePatch = ProfilePatch(
    firstName: Option<string>,
    lastName: Option<string>,
    phone: Option<string>,
    address: Option<string>)

  /** The user with the four profile fields the patch sets replaced. */
  function Edited(u: User, p: ProfilePatch): (v: User)
    ensures v.firstName == (if p.firstName.Some? then p.firstName else u.firstName)
    ensures v.lastName == (if p.lastName.Some? then p.lastName else u.lastName)
    ensures v.phone == (if p.phone.Some? then p.phone else u.phone)
    ensures v.address == (if p.address.Some? then p.address else u.address)
    ensures v.email == u.email && v.avatar == u.avatar
    ensures v.role == u.role && v.associationId == u.associationId
  {
    u.(firstName := if p.firstName.Some? then p.firstName else u.firstName,
       lastName := if p.lastName.Some? then p.lastName else u.lastName,
       phone := if p.phone.Some? then p.phone else u.phone,
       address := if p.address.Some? then p.address else u.address)
  }

  /** `PUT /api/users/:id`: oneself or an admin edits the four profile
      fields. The permission is checked before the user is looked up. */
  function Update(s: Store, c: Caller, id: Id, p: ProfilePatch): (r: Response)
    ensures r.status == Forbidden <==> !Access.CanUpdateUser(c, id)
    ensures r.status == NotFound <==> Access.CanUpdateUser(c, id) && id !in s.users
    ensures r.status in {Ok, Forbidden, NotFound}
    ensures r.status != Ok ==> r.store == s
    ensures r.status == Ok ==> r.store == s.(users := s.users[id := Edited(s.users[id], p)])
  {
    if !Access.CanUpdateUser(c, id) then Response(Forbidden, s)
    else if id !in s.users then Response(NotFound, s)
    else Response(Ok, s.(users := s.users[id := Edited(s.users[id], p)]))
  }

  /** Whatever the body holds, an edit never changes a role, an association
      link, an avatar or an email, and touches no other user. */
  lemma UpdateKeepsPrivileges(s: Store, c: Caller, id: Id, p: ProfilePatch, k: Id)
    requires k in s.users
    ensures var r := Update(s, c, id, p);
            && k in r.store.users
            && r.store.users[k].role == s.users[k].role
            && r.store.users[k].associationId == s.users[k].associationId
            && r.store.users[k].avatar == s.users[k].avatar
            && r.store.users[k].email == s.users[k].email
            && (k != id ==> r.store.users[k] == s.users[k])
  {
  }

  /** Reading the profile back after an edit shows the edited fields. */
  lemma UpdateThenGet(s: Store, c: Caller, id: Id, p: ProfilePatch)
    requires Update(s, c, id, p).status == Ok
    ensures var g := Get(Update(s, c, id, p).store, id);
            g.status == Ok && g.value == Some(Edited(s.users[id], p))
  {
  }

  /** `GET /api/users/:id`: any signed-in caller reads any profile. */
  function Get(s: Store, id: Id): (r: Reply<Option<User>>)
    ensures r.status == Ok <==> id in s.users
    ensures r.status != Ok ==> r.status == NotFound && r.value.None?
    ensures r.status == Ok ==> r.value == Some(s.users[id])
  {
    Fetch(s.users, id)
  }

  /** `POST /api/users/avatar`: the uploaded image becomes the caller's
      avatar. A caller whose record is gone changes nothing. */
  function SetAvatar(s: Store, c: Caller, file: Option<Upload.StoredFile>): (r: Response)
    ensures r.status == BadRequest <==> file.None?
    ensures r.status in {Ok, BadRequest}
    ensures r.status != Ok || c.id !in s.users ==> r.store == s
    ensures r.status == Ok && c.id in s.users ==>
              r.store == s.(users := s.users[c.id := s.users[c.id].(
                  avatar := Some("/uploads/avatars/" + file.value.filename))])
  {
    if file.None? then Response(BadRequest, s)
    else if c.id !in s.users then Response(Ok, s)
    else Response(Ok, s.(users := s.users[c.id := s.users[c.id].(avatar := Some("/uploads/avatars/" + file.value.filename))]))
  }

  /** Only the caller's own avatar changes. */
  lemma SetAvatarTouchesOnlyCaller(s: Store, c: Caller, f: Upload.StoredFile, k: Id)
    requires k in s.users && k != c.id
    ensures SetAvatar(s, c, Some(f)).store.users[k] == s.users[k]
    ensures SetAvatar(s, c, Some(f)).store.users.Keys == s.users.Keys
  {
  }

  /** `DELETE /api/users/:id`: an admin removes the user. Its donations,
      requests and association memberships are left as they are. */
  function Delete(s: Store, c: Caller, id: Id): (r: Response)
    ensures r.status == Forbidden <==> c.role != AdminRole
    ensures r.status == NotFound <==> c.role == AdminRole && id !in s.users
    ensures r.status in {Ok, Forbidden, NotFound}
    ensures r.status != Ok ==> r.store == s
    ensures r.status == Ok ==> r.store == s.(users := s.users - {id}) && id !in r.store.users
  {
    if !Authorized(c, Access.AdminOnly) then Response(Forbidden, s)
    else if id !in s.users then Response(NotFound, s)
    else Response(Ok, s.(users := s.users - {id}))
  }

  /** Every user route leaves the other collections, and so every schema
      constraint and running counter, untouched. */
  lemma RoutesTouchOnlyUsers(s: Store, c: Caller, id: Id, p: ProfilePatch, f: Option<Upload.StoredFile>)
    ensures Update(s, c, id, p).store.(users := s.users) == s
    ensures SetAvatar(s, c, f).store.(users := s.users) == s
    ensures Delete(s, c, id).store.(users := s.users) == s
  {
  }
}
